=== FILE: README.md ===
# RenderLayers decision logic in Dafny

RenderLayers is a Blender add-on that manages view layers. Each view layer
carries render settings that fall back to the top (first) layer's, a
layer-collection tree of include/exclude flags, material overrides per
collection, and memorised light visibility. This project models the
deterministic decision logic under the add-on's host plumbing, and proves
what that logic promises. The model is built from immutable records, a
recursive layer-collection tree and pure functions. Where a loop is the
point, it is a method with invariants. The modules are:

- `Base`: optional values, operator return codes (`Finished`, `Cancelled`,
  `Raised` for an exception), and the Python string operations the add-on
  uses (`strip`, `replace`, `lower`, `split(",")`).
- `LexOrder`: Python's `str` ordering and `sorted` on a set of names.
- `LayerTree`: the layer-collection tree with these operations and the
  pre-order views they are proved against:
  - depth-first search;
  - the descendant generator;
  - node-wise rewrites;
  - the stop-at-first-match update;
  - Blender's `exclude` setter, which writes a node and every node below
    it, and the nearest-ancestor reading of a pre-order walk through it.
- `Scene`: view layers, their settings records, objects, collections and
  the blend file's data.
- `RenderOverride`: the per-layer fallback chain for these settings:
  - engine, samples and camera;
  - format and frame range;
  - world.

  It also covers engine-id normalisation, the settings sync and the
  load handler.
- `BatchRender`: frame-range resolution, layer selection, the active-layer
  animation loop and the timer-driven "render all layers" step machine.
- `Names`: these naming helpers:
  - file-name sanitising and unique view-layer names;
  - the override key and the AO socket matcher;
  - pass selection and the managed output paths;
  - the duplicate-layer name builder.
- `Lights`: memorising and re-applying light visibility.
- `Materials`: slot backups, restoring, per-layer collection material
  overrides, and the backup and override operators.
- `ViewLayerOps`: the content switch, the collection and flag toggles, and
  adding, removing and activating view layers.
- `Panel`: the panel operators' decision logic:
  - target resolution and the tri-state collection rules;
  - the two tree flatteners and duplicating a layer;
  - the bulk copy of render settings;
  - the AO-chain guard.

These conventions hold throughout the model:

- Objects, cameras, worlds and materials are identified by name.
- Object names are unique in a blend file, as the host guarantees.
- Some values are computed by the host and passed in as parameters:
  - an object's visibility in a layer (`visible_get`);
  - a layer's object set (`vl.objects`);
  - a collection's nested objects (`all_objects`);
  - the tree the host gives a new layer.
- An exception the code lets escape (a `KeyError` from `view_layers[name]`,
  a `TypeError`, the host refusing to remove the last layer) is the status
  `Raised`, with no change to the state.

## Model

| member | source | states |
|---|---|---|
| RenderOverride.NormalizeEngineId | render_override.py:29-38 | the result is always one of the three engine ids; empty, `BLENDER_EEVEE`, `EEVEE` and unknown ids give Eevee Next; the three valid ids pass through |
| RenderOverride.NormalizeEngineIdIdempotent | render_override.py:29-38 | normalising twice is normalising once |
| RenderOverride.SanitizeEngineValues | render_override.py:40-47 | afterwards every layer's engine is valid; a layer that already held a valid id is unchanged; only the engine field ever changes |
| RenderOverride.SanitizeEngineValuesIdempotent | render_override.py:40-47 | sanitising twice is sanitising once |
| RenderOverride.RoundHalfEven | render_override.py:341-342 | Python `round` of an exact quotient: the nearest integer, ties to the even one |
| RenderOverride.ScaleDim | render_override.py:339-342 | the result is at most 16384; it is below 16384 exactly when the rounded scaled value is, and then it lies within half a unit of `d * scale / 100` |
| RenderOverride.ScaleDimGrows | render_override.py:341-342 | scaling a dimension above 100 % never shrinks it below itself or past the 16384 cap |
| RenderOverride.ResolveFormat | render_override.py:332-343 | the percentage is clamped to [1, 1000]; at 100 or below the size is copied with the clamped percentage; above 100 the percentage becomes 100 and each dimension becomes `ScaleDim` of it, which is the rounded scaled value capped at 16384 |
| RenderOverride.ResolveFrames | render_override.py:358-361 | a negative start becomes 0 and any other start is kept; an end at or after that start is kept and an earlier one becomes the start; a step below 1 becomes 1 and any other is kept; so start >= 0, end >= start, step >= 1, and a well-formed range is unchanged |
| RenderOverride.Source | render_override.py:284 | the top layer and a layer with the flag set read their own record; any other layer reads the top layer's record |
| RenderOverride.ResolveSamples | render_override.py:288-293 | forced samples give `None`, which the forced tier fills later; otherwise the layer's own samples when `samples_enable`, else the top layer's, raised to at least 1 |
| RenderOverride.ResolveEngine | render_override.py:283-320 | the engine is the normalised engine of the record the fallback picks; Cycles takes that record's denoise flag; the chosen engine's samples are the forced value (at least 1) when forcing, else the resolved samples; Workbench changes no samples |
| RenderOverride.ApplyRenderOverride | render_override.py:267-371 | the engine is valid, the chosen samples are at least 1, the percentage is in [1, 100] and the frame range is well formed; the layers are only sanitised; the forced-samples settings and the sync marker are kept |
| RenderOverride.EngineSource | render_override.py:283-285 | the engine comes from the layer when it is the top one or has `engine_enable`, else from the top layer |
| RenderOverride.SamplesPriority | render_override.py:288-320 | samples priority: forced value for the engine (at least 1), else the layer's own when enabled, else the top layer's; Workbench leaves both untouched |
| RenderOverride.CameraSource | render_override.py:322-329 | a non-top layer uses its own camera only with `camera_enable` and a camera; a resolved `None` keeps the scene camera |
| RenderOverride.FormatRule | render_override.py:331-343 | the format rule holds for the source layer the fallback picks |
| RenderOverride.FrameRangeRule | render_override.py:356-363 | for every input the scene range is `ResolveFrames` of the record chosen as the layer when it is the top or has `frame_enable`, else the top layer; so start >= 0, end >= start, step >= 1, and a well-formed range is copied unchanged |
| RenderOverride.WorldSource | render_override.py:365-371 | the top layer gets the base world (its own `vlm_world` or the scene world); another layer gets its own world only when enabled and set |
| RenderOverride.NonOverridingLayerRendersAsTop | render_override.py:283-371 | a non-top layer with no override flag renders exactly like the top layer |
| RenderOverride.ApplyIdempotent | render_override.py:267-371 | applying the same layer twice equals applying it once |
| RenderOverride.SyncedEngine | render_override.py:169-172 | both Eevee ids become Eevee Next, Cycles stays Cycles, and any other scene engine leaves the layer's engine as it was |
| Base.Clamp | render_override.py:98 | a value assigned to an integer property with hard limits ends inside them, unchanged when already inside, else at the nearer limit |
| RenderOverride.SyncSceneSettings | render_override.py:158-216 | each layer's record takes the scene engine (Eevee ids become Eevee Next, other engines leave it), that engine's samples clamped to [1, 4096], Cycles' denoise flag, the scene camera when it has one, the resolution clamped to [1, 16384], the percentage to [1, 1000], frames to at least 0 and the step to at least 1; the layer world becomes the scene world when the scene has one; the top layer then gets all five flags on; other layers keep their flags; the scene's own settings are untouched and it is marked synced |
| RenderOverride.SyncThenApplyTopRoundTrip | render_override.py:222-234 | on a scene whose samples, resolution, percentage (at most 100) and frame range are within the properties' limits, sync-then-apply-top leaves the render settings as they were |
| RenderOverride.LoadPostClampsResolution | render_override.py:136-138 | an unsynced scene whose resolution lies outside [1, 16384] comes out of the load handler with the clamped resolution |
| RenderOverride.LoadPost | render_override.py:222-234 | an already synced scene is untouched; otherwise it is synced and the top layer applied |
| RenderOverride.ResyncOperator | render_override.py:382-387 | the marker is cleared and the load handler runs, so the scene ends synced |
| RenderOverride.OnPropertyUpdate | render_override.py:56-61 | an edit of any layer's property re-applies the ACTIVE layer (`context.view_layer`), and only once the scene is synced; the engine then comes from the active layer's fallback |
| RenderOverride.OnPropertyUpdateSettles | render_override.py:56-61 | a second update with the same active layer changes nothing more |
| BatchRender.ResolveFrameRange | collection_management.py:21-30 | the layer's own range when `frame_enable`, else the top's; the step is at least 1; the end is not clamped |
| BatchRender.ResolveFrameRangeAgreesWithApply | collection_management.py:21-30 | for a well-formed range the batch renderer and the render override agree on the scene's frames |
| BatchRender.SelectedViewLayers | collection_management.py:32-40 | layers ticked to render, else those with `use`, else all; in scene order; non-empty when the scene has a layer |
| BatchRender.FramesFromCount | collection_management.py:860-878 | the loop renders `((end - start) // step) + 1` frames when start <= end |
| BatchRender.FramesFromBounds | collection_management.py:864-878 | every rendered frame lies in [start, end] and they increase by `step` |
| BatchRender.AnimationLoop | collection_management.py:858-880 | the active-layer loop renders start, start+step, … <= end, and its counter equals the progress total when start <= end |
| BatchRender.EffectiveFrame | collection_management.py:966-969 | after a layer switch, or with a stored frame outside [start, end], a tick renders the range start; otherwise it renders the stored frame |
| BatchRender.Tick | collection_management.py:951-996 | finished once the index reaches the list length; otherwise it renders the effective frame of the current layer and counts it; a still moves to the next layer with a reset; an animation advances by the step, moving to the next layer with a reset once past the end and staying on the layer otherwise |
| BatchRender.Invoke | collection_management.py:905-935 | cancelled with no layer; otherwise the total and the initial state (index 0, first layer's start, no reset) |
| BatchRender.TickPending | collection_management.py:951-996 | a tick performs the first render the state still owes and owes exactly the rest |
| BatchRender.TickStep | collection_management.py:951-996 | the renders done so far followed by what is still owed do not change across a tick |
| BatchRender.RunAll | collection_management.py:937-998 | running the machine to FINISHED performs the reference schedule, and the done counter is its length |
| BatchRender.RenderAllSteps | collection_management.py:916-922 | the machine performs exactly `StepsTotal` renders |
| BatchRender.SourceTotalMatchesSteps | collection_management.py:916-920 | when every range has start <= end, the progress total equals the steps taken |
| BatchRender.SourceTotalUndercounts | collection_management.py:916-920 | a range with start > end gives a progress count of -3 although one frame is rendered |
| BatchRender.UseOnly | collection_management.py:959-960 | a tick leaves `use` on the rendered layer alone and changes no other field |
| BatchRender.UseAfterLast | collection_management.py:959-960 | since each tick overwrites every `use` flag, after a series of ticks only the last rendered layer counts |
| BatchRender.ScheduleLayers | collection_management.py:951-996 | every render of the schedule is of a selected layer, and the last one is of the last selected layer |
| BatchRender.UseAfterRun | collection_management.py:951-996 | a whole run leaves `use` on the last selected layer alone |
| BatchRender.RunLeavesUseOnLast | collection_management.py:905-996 | from `invoke` to FINISHED, the flags end with `use` on the last selected layer alone; the run never restores them |
| BatchRender.NextRunAfterFallback | collection_management.py:32-40 | with no layer ticked for rendering, the next run selects only the layers named like the last one rendered |
| Names.Sanitize | collection_management.py:46-47 | the length is kept; every character outside `[0-9A-Za-z_-]` becomes `_`; all others are kept |
| Names.SanitizeIdempotent | collection_management.py:46-47 | sanitising twice is sanitising once |
| Names.SanitizeSafe | collection_management.py:46-47 | a name of safe characters is its own sanitised form |
| Names.Pad3 | collection_management.py:117 | `{i:03d}`: the digits of `i`, zero-padded to exactly three below 1000; a longer result has no leading zero |
| Names.NumberedInjective | collection_management.py:117 | different counters give different `base.NNN` names |
| Names.UniqueViewLayerName | collection_management.py:113-119 | the result is not taken; it is `base` when free, else `base.NNN` for the smallest free i >= 1 |
| Names.OverrideKey | material_override.py:27-28 | the key is `_vlm_mat_override_` + layer + `_` + collection |
| Names.OverrideKeyInjectiveInCollection | material_override.py:27-28 | for one layer, different collections get different keys |
| Names.OverrideKeyInjectiveInLayer | material_override.py:27-28 | for one collection, different layers get different keys |
| Names.OverrideKeyAmbiguous | material_override.py:27-28 | names containing `_` let two different pairs share a key |
| Names.FirstAoLike | collection_management.py:438-442 | the first output whose stripped lower-cased name contains an AO keyword |
| Names.FindAoSocket | collection_management.py:432-443 | an output named exactly `AO` wins; else the first AO-like one; `None` when there is none |
| Names.ActivePasses | collection_management.py:744-751 | exactly the standard names present among the sockets and enabled, in list order; `Image` whenever present |
| Names.AovPasses | collection_management.py:753-758 | the layer's non-empty AOV names that have a socket, in order |
| Names.ManagedPaths | collection_management.py:409-425 | directory `base/blend/layer/pass/` and slot path `blend_layer_pass_`, each part sanitised with its default |
| Names.DuplicateName | main_panel.py:259-273 | a non-blank custom name, stripped, wins and disables renaming; otherwise the stripped `rename_from`, when non-blank, is replaced by `rename_to` in the name, and the original name is kept when that empties it; then prefix and suffix are added |
| Names.DuplicateNameNoOpRename | main_panel.py:269-273 | renaming an absent text, or a text to itself, keeps the layer's name |
| Names.DuplicateNameExamples | main_panel.py:259-273 | renaming `Main` to `Alt` with prefix `P_` and suffix `_S` gives `P_Alt_S`; a rename that would empty the name keeps it |
| Base.Replace | main_panel.py:271 | `str.replace`: each non-overlapping occurrence replaced from the left |
| Base.ReplaceAbsent | main_panel.py:271 | replacing text that does not occur changes nothing |
| Base.Strip | viewlayer_operations.py:115 | `str.strip`: the result is a slice of the input with only white space before and after it, and it neither starts nor ends with white space |
| Base.StripSurrounded | viewlayer_operations.py:115 | stripping white space around a text that neither starts nor ends with white space gives that text back |
| Base.SplitJoin | material_override.py:232 | splitting a comma-joined list of comma-free names gives the list back |
| Base.Lower | collection_management.py:440 | `str.lower` on ASCII letters, same length |
| LexOrder.SortedNames | viewlayer_operations.py:69 | `sorted` of a set: strictly increasing and holding exactly the set's elements |
| LexOrder.SortedUnique | viewlayer_operations.py:67-72 | two strictly sorted lists with the same elements are equal, so the stored list is determined |
| LayerTree.Descendants | material_override.py:132-139 | the generator yields every subtree except the root, in pre-order |
| LayerTree.RootNotDescendant | material_override.py:132-139 | the root collection is never yielded |
| LayerTree.FindIsFirstInPreorder | viewlayer_operations.py:6-13 | the search returns the first pre-order node with the name, `None` exactly when there is none |
| LayerTree.FindAgreesWithHasName | viewlayer_operations.py:239-249 | the search finds a node iff some pre-order label carries the name |
| LayerTree.MapTreeSpec | viewlayer_operations.py:74-80 | a node-wise walk changes each pre-order label by the rewrite and keeps the shape |
| LayerTree.UpdateFirstSpec | viewlayer_operations.py:95-100 | the stop-at-first traversal equals changing the first pre-order label with the name; shape kept; `found` iff a label has it |
| LayerTree.UpdateFirstTwice | viewlayer_operations.py:253-262 | updating twice by a self-undoing, name-keeping rewrite gives back the tree |
| LayerTree.ExcludeSubtree | viewlayer_operations.py:97 | the host's `exclude` setter: the node and every node below it take the value; names and shape are kept |
| LayerTree.ExcludeSubtreeOverwrite | viewlayer_operations.py:254 | of two setter writes on a subtree the later one wins |
| LayerTree.MapTreeFixes | viewlayer_operations.py:254 | a rewrite that keeps every label occurring in the tree keeps the tree |
| LayerTree.ExcludeSubtreeSame | viewlayer_operations.py:254 | writing a node's own value through the setter changes nothing iff its whole subtree already carries it |
| LayerTree.ReplacedAt | viewlayer_operations.py:95-100 | a replacement whose segment starts with the first label carrying the name happens at that label's position |
| LayerTree.ReplacedSame | viewlayer_operations.py:254 | a replacement that leaves the labels as they were swapped equal segments |
| LayerTree.FindNamed | viewlayer_operations.py:6-13 | a node the search finds carries the name |
| LayerTree.ExcludeFirstSpec | viewlayer_operations.py:95-100 | the stop-at-first search with the setter: found iff the search finds the node; the labels of that node's subtree all get the written value, those before and after it are kept; shape kept; nothing found means nothing changes |
| LayerTree.ExcludeFirstFSpec | viewlayer_operations.py:95-100 | the same for a list of children |
| LayerTree.ExcludeFirstTwice | viewlayer_operations.py:252-254 | two setter writes at the first match are one write with the composed value, and the second search finds the node again |
| LayerTree.ExcludeFirstKeep | viewlayer_operations.py:252-254 | writing the matched node's own value keeps the tree when that node's subtree is uniform |
| LayerTree.SetterWalkIsInherit | collection_management.py:122-129 | the host's pre-order walk through the setter, started below a write, ends where the nearest-ancestor definition says |
| LayerTree.SetterWalkIsInheritFromRoot | collection_management.py:122-129 | on a whole tree the host's walk through the setter gives each node the value of the nearest node on its path from the root that has one |
| LayerTree.InheritWalkSpec | collection_management.py:122-129 | the nearest-ancestor walk keeps the shape, changes only `exclude`, and gives each node with a value of its own that value |
| LayerTree.InheritWalkNone | collection_management.py:122-129 | with no value anywhere the walk changes nothing |
| LayerTree.InheritWalkIdempotent | collection_management.py:122-129 | walking twice with the same values is walking once |
| LayerTree.InheritWalkUnder | collection_management.py:122-129 | a root with a value and nothing below with one: the walk is the setter's write of that value on the whole tree |
| LayerTree.InheritWalkNodewise | viewlayer_operations.py:74-80 | when every node below the root has a value, nothing is inherited and the walk is the node-wise rewrite |
| Scene.LayerIndex | viewlayer_operations.py:183 | `view_layers.get(name)`: the first layer with that name, `None` iff none has it |
| Lights.Snapshot | light_camera.py:23-30 | the dictionary has one key per light name and none other |
| Lights.SnapshotLookup | light_camera.py:23-30 | with unique names, each light's entry is the record made from it |
| Lights.MemorizeLights | light_camera.py:21-32 | as written: only the light state changes, and it has an entry for exactly each light |
| Lights.MemorizeLightsVisible | light_camera.py:21-32 | corrected: the same, recording the eye state instead of `hide_viewport` |
| Lights.StoredState | light_camera.py:7-9 | an empty stored string reads as the empty dictionary |
| Lights.Resolve | light_camera.py:66-74 | no entry or an empty entry gives shown and rendered; missing fields read False; `hide_render` forces hidden |
| Lights.ApplyLights | light_camera.py:52-80 | lights outside the layer and non-lights are untouched; a light in the layer with an entry gets `Resolve` of that entry as its `hide_render` and eye state; with no entry it is shown and rendered; only those two fields change |
| Lights.ApplyLightsForViewLayer | light_camera.py:52-80 | with the layer's decoded state, each light in the layer takes `Resolve` of its entry (shown and rendered when there is none or no state is stored); every other object is untouched |
| Lights.ApplyLightsIdempotent | light_camera.py:52-80 | applying twice equals applying once |
| Lights.MemorizeApplyLosesHiddenLight | light_camera.py:26-29 | a light hidden by its eye with `hide_viewport` off is memorised as visible and re-applied as visible |
| Lights.MemorizeVisibleRoundTrip | light_camera.py:66-78 | with the eye state memorised, applying restores every light in the layer (hidden also when render-hidden) and nothing else changes |
| Materials.BackupAll | material_override.py:33-52 | a mesh without a backup gets one copying its slots in order, plus the empty legacy key; all others are untouched; afterwards all are backed up |
| Materials.BackupAllNoOp | material_override.py:43-45 | backing up what is already backed up changes nothing |
| Materials.BackupAllIdempotent | material_override.py:33-52 | a second backup changes nothing |
| Materials.RestoreSlots | material_override.py:114-116 | slot i takes backup item i for i < min(backup, slots); other slots are kept |
| Materials.LegacySlot | material_override.py:209 | an empty name gives an empty slot; a known material name gives it; an unknown one gives an empty slot |
| Materials.RestoreFromNames | material_override.py:232-235 | slot i takes the material named by item i (an empty slot for an empty or unknown name) while both exist; the remaining slots are kept |
| Materials.RestoreObj | material_override.py:223-235 | with a pointer backup the slots are `RestoreSlots` of it; else with a legacy key they are restored from its comma-split names; else the object is unchanged; nothing but slots changes |
| Materials.RestoreObjIdempotent | material_override.py:223-235 | restoring twice equals restoring once |
| Materials.RestoreBackupRestore | material_override.py:40-52 | a mesh just restored and then backed up rolls back to itself, so a second restore after a backup changes nothing |
| Materials.LegacyRestoreRoundTrip | material_override.py:229-235 | a legacy key of the slots' names joined by commas restores exactly those materials |
| Materials.RestoreAll | material_override.py:109-116 | every mesh's slots become `RestoreSlots` of its pointer backup; other objects are untouched |
| Materials.BackupThenRestoreAll | material_override.py:109-116 | back up then restore: meshes without a backup keep their slots; backed-up meshes get their old backup |
| Materials.RestoreViewLayer | material_override.py:213-235 | each mesh visible in the layer becomes its `RestoreObj`; every other object is unchanged; backed-up stays backed-up |
| Materials.RestoreCollection | material_override.py:185-210 | each visible mesh among the collection's objects, nested ones included, becomes its `RestoreObj`; every other object is unchanged |
| Materials.SetCollectionMaterial | material_override.py:119-130 | with a known material, every slot of each visible mesh directly in the collection takes it; nothing else changes; an unknown material changes nothing |
| Materials.LastOverride | material_override.py:154-158 | no material for invisible or non-mesh objects; a chosen material exists and comes from a collection of the walk |
| Materials.OverrideWalkObjectwise | material_override.py:154-158 | the walk acts per object: all its slots take the last applicable collection's material, or none change |
| Materials.ApplyOverridesForViewLayer | material_override.py:144-158 | a no-op on the top layer; on any other layer each object gets all its slots set to the material of the last descendant collection (pre-order, root excluded) that overrides it, or keeps them when none does |
| Materials.ApplySelective | material_override.py:160-168 | each object is backed up when it has no backup, rolled back to its backup when it is a visible mesh, and then overridden by the last applicable descendant collection unless the layer is the top one; every mesh ends backed up |
| Materials.ApplySelectiveIdempotent | material_override.py:160-168 | running the selective override twice equals running it once |
| Materials.SelectiveOnTopShowsBackup | material_override.py:160-168 | on the top layer the selective override shows each visible mesh's pointer backup and leaves every other mesh's slots as they were |
| Materials.ForceCreateInitialBackup | material_override.py:174-183 | the legacy key of every mesh is replaced; pointer backups are kept; meshes without one are backed up |
| Materials.ForceBackupThenRestore | material_override.py:174-183 | after the forced backup, restoring gives a mesh without a pointer backup its slots back and one with a pointer backup that backup; no stale legacy name list is left |
| Materials.BackupCurrent | material_override.py:303-320 | every mesh's backup becomes its current slots; other objects are untouched |
| Materials.BackupCurrentThenRestore | material_override.py:303-320 | restoring right after saving the current look changes no slot |
| Materials.TreeCollections | material_override.py:325-333 | exactly the collection names of the tree's nodes, root included |
| Materials.OverriddenCollections | material_override.py:335-343 | exactly the tree's collections that carry this layer's key |
| Materials.BackupBase | material_override.py:363-419 | a mesh in an overridden collection with a backup keeps it; every other mesh is backed up from its slots; no slot changes; the flag is set iff some overridden mesh had no backup |
| Materials.BackupBaseWithoutOverrides | material_override.py:379-413 | with no overrides on the layer, the base save equals the current-look save |
| Materials.SetCollectionOverride | material_override.py:249-257 | a missing collection raises; otherwise exactly that key is set to the material; then for the active layer each mesh becomes its `SelectiveObj` under the new keys, and every other object only gets the layer's memorised light state |
| Materials.ClearCollectionOverride | material_override.py:267-282 | a missing collection or layer raises; otherwise exactly that key is removed; each visible mesh of the collection is restored, and on a non-top layer every object then gets the layer's remaining overrides (last applicable collection wins) |
| Materials.SetThenClear | material_override.py:271-274 | setting a new key and clearing it gives the collections back |
| ViewLayerOps.OnNames | viewlayer_operations.py:57-65 | exactly the names of included nodes other than the scene collection |
| ViewLayerOps.StoredNames | viewlayer_operations.py:51-55 | the stored names as a set, empty names dropped |
| ViewLayerOps.ContentWalk | viewlayer_operations.py:74-80 | the shape is kept; the scene collection is untouched; any other node is excluded iff its name is not among the given names |
| ViewLayerOps.ContentWalkKeepsOn | viewlayer_operations.py:74-80 | walking with the current names keeps the set of included names |
| ViewLayerOps.ContentWalkIdempotent | viewlayer_operations.py:74-80 | walking twice with the same names is walking once |
| ViewLayerOps.ContentWalkIsSetterWalk | viewlayer_operations.py:74-80 | through the host's recursive setter the walk ends where the node-wise rewrite does, as long as no collection below the root carries a scene-collection name |
| ViewLayerOps.ApplyContentOverrides | viewlayer_operations.py:47-81 | switch off: False and no change; on: the stored list becomes the sorted included names when it disagrees, and nodes are excluded iff their name was not included |
| ViewLayerOps.ContentOverridesStable | viewlayer_operations.py:47-81 | a second application changes nothing |
| ViewLayerOps.ToggleCollection | viewlayer_operations.py:93-101 | a missing layer raises; otherwise only that layer's tree changes: the first pre-order node of the collection and every node below it get `exclude = not make_visible` through the setter, every other node is kept, the shape stays, and without such a node nothing changes |
| ViewLayerOps.ExcludeFirstAt | viewlayer_operations.py:95-100 | the setter's write at the first match, by position: the labels before the first node of the name and after its subtree are kept, and the subtree's labels all take the written value |
| ViewLayerOps.ToggleCollectionFirstOnly | viewlayer_operations.py:95-100 | positionally: the labels before the first node of the collection and after its subtree are kept, and the subtree's labels all get `exclude = not make_visible` |
| ViewLayerOps.ParseFlag | viewlayer_operations.py:220 | the operator's `flag` string names the flag whose name it is, and no flag for any other string |
| ViewLayerOps.ToggleNode | viewlayer_operations.py:252-262 | on a tree: `exclude` is negated on the first pre-order node of the name through the setter, so its whole subtree takes the node's new value while the labels before and after it are kept; `holdout` and `indirect_only` are negated on that node alone; the shape stays; without such a node nothing changes |
| ViewLayerOps.ToggleFlag | viewlayer_operations.py:234-262 | a missing layer or collection cancels with no change and otherwise the operator finishes; an unknown flag changes nothing; a flag living on the node replaces the named layer's tree with `ToggleNode` of it; `hide_select` and `hide_render` change the collections alone, by `FlipCollectionFlag` |
| ViewLayerOps.ToggleFlagFrame | viewlayer_operations.py:234-262 | a toggle keeps every layer's name, the number of layers, every collection key and every other part of the data; a node flag changes only the named layer's tree and keeps its shape |
| ViewLayerOps.ToggleFlagEffect | viewlayer_operations.py:252-262 | `exclude` rewrites the collection's first subtree with the negation of its root's flag and keeps every label before and after it; `holdout` and `indirect_only` rewrite that root alone; `hide_select` and `hide_render` flip the collection and leave the scene |
| ViewLayerOps.FlipCollectionFlag | viewlayer_operations.py:251-258 | `hide_select` or `hide_render` is negated on the named collection; every other collection, field and flag is kept |
| ViewLayerOps.ToggleHoldoutFirstOnly | viewlayer_operations.py:247-260 | toggling `holdout` negates it on the first pre-order node of the collection and leaves every other node and field as it was |
| ViewLayerOps.ToggleExcludeFirstOnly | viewlayer_operations.py:253-254 | positionally: toggling `exclude` writes the negation of the node's flag on every label of the collection's first subtree and keeps the labels before and after it |
| ViewLayerOps.ToggleExcludeIs | viewlayer_operations.py:253-254 | with the layer and the node present, the toggle is the setter's write of the negated flag at the first match |
| ViewLayerOps.TreeExcludeTwice | viewlayer_operations.py:253-254 | the second `exclude` toggle finds the node again, and the two writes amount to writing the node's original value over its subtree |
| ViewLayerOps.ExcludeFirstKeepIff | viewlayer_operations.py:253-254 | writing the matched node's own value keeps the tree iff the node's subtree is uniform |
| ViewLayerOps.ToggleExcludeTwice | viewlayer_operations.py:253-254 | toggling `exclude` twice writes the node's original value over its subtree, so it restores the scene iff that subtree was uniform |
| ViewLayerOps.TreeToggleTwice | viewlayer_operations.py:247-262 | flipping a node flag twice gives back the tree |
| ViewLayerOps.FlagRuleUndoesItself | viewlayer_operations.py:259-262 | the `holdout` and `indirect_only` rules each undo themselves and keep the name |
| ViewLayerOps.ToggleFlagTwice | viewlayer_operations.py:234-262 | toggling the same flag twice restores the data, and the scene too for every flag but `exclude`; for `exclude` the scene comes back iff the nodes below the toggled one already carried its flag |
| ViewLayerOps.ToggleNodeFlagTwice | viewlayer_operations.py:259-262 | toggling `holdout` or `indirect_only` twice restores the scene and the data |
| ViewLayerOps.ToggleCollFlagTwice | viewlayer_operations.py:255-258 | toggling `hide_select` or `hide_render` twice restores the scene and the data |
| ViewLayerOps.ToggleNodeTwice | viewlayer_operations.py:252-262 | on a tree that has the node, the second toggle finds it again; `holdout` and `indirect_only` come back, and `exclude` ends as the setter's write of the node's own flag |
| ViewLayerOps.ToggleTwiceAt | viewlayer_operations.py:234-262 | two toggles of a node flag write the named layer's tree once, with the node toggled twice, and keep the data |
| ViewLayerOps.NewLayerName | viewlayer_operations.py:115 | the stripped request, or `NewLayer` when that is empty |
| ViewLayerOps.ExcludeTopLevel | viewlayer_operations.py:120-121 | each top-level child is written `exclude = True` through the setter, so the root keeps its flags and every other node, at any depth, ends excluded with its other flags kept; the shape stays |
| ViewLayerOps.MapForestIsSetter | viewlayer_operations.py:120-121 | excluding a list of children node-wise is each child written through the setter |
| ViewLayerOps.AddEmptyViewLayer | viewlayer_operations.py:113-123 | an existing name cancels with no change; otherwise one layer with defaults is appended whose tree has the host tree's shape and root, with every node below the root excluded |
| ViewLayerOps.AddThenAddAgain | viewlayer_operations.py:115-119 | after adding, the layer is found under its name and the same request cancels |
| ViewLayerOps.DropLayerKeys | viewlayer_operations.py:197-200 | every collection loses exactly this layer's key |
| ViewLayerOps.RemoveViewLayer | viewlayer_operations.py:174-207 | the sole `View Layer` and a missing name cancel; another sole layer raises; otherwise exactly that layer is removed and the materials are kept; removing the top drops the new top's keys, restores each mesh visible in it and, when it is active, backs up what has no backup; a new top with an empty name leaves the data as it was |
| ViewLayerOps.RemoveTopClearsNewTopKeys | viewlayer_operations.py:187-200 | after removing the top, the former second layer is the top and no collection keeps its key |
| ViewLayerOps.ActivateObjects | viewlayer_operations.py:140-161 | each mesh, after the optional forced save of its current look, goes through the selective override of the destination; every other object only gets the destination's memorised light state; afterwards every mesh is backed up |
| ViewLayerOps.ActivateLayer | viewlayer_operations.py:152-162 | names and light states are kept; only the destination's tree changes, by its content switch |
| ViewLayerOps.SetActiveViewLayer | viewlayer_operations.py:132-164 | an unknown name raises; otherwise only the destination tree changes; each mesh gets the destination's selective override after the forced save when leaving the top layer; other objects get its lights; switching to the top shows each visible mesh's backup |
| Panel.SelectedNames | main_panel.py:251 | exactly the names of the selected items, empty iff nothing is selected |
| Panel.ResolveTargets | main_panel.py:424-429 | the selected layers; else the active one; empty iff nothing is selected and there is no active layer |
| Panel.StateValue | main_panel.py:431-434 | KEEP gives `None`, ON `True`, OFF `False` |
| Panel.Settings | main_panel.py:436-447 | a collection is in the map iff one of its rules has a non-KEEP state; every entry changes something |
| Panel.SettingsLookup | main_panel.py:436-447 | with one rule per collection, its entry holds its five states |
| Panel.ApplyCollectionSettingsOp | main_panel.py:422-452 | no targets cancel; all-KEEP rules cancel; otherwise the call gets the targets and a non-empty map |
| Panel.DupEntriesSpec | main_panel.py:191-197 | one entry per node in pre-order, root at the given level, `enabled = not exclude`, level = depth |
| Panel.RuleRowsNames | main_panel.py:303-314 | every node except a scene collection is listed once, in pre-order |
| Panel.RuleRowsAreDepths | main_panel.py:309-314 | with no scene collection, every node is listed at its depth |
| Panel.RuleRowsLiftChildren | main_panel.py:304-307 | under a scene-collection root, each node is listed one level above its depth |
| Panel.ApplyCollectionStates | collection_management.py:122-129 | the pre-order walk writes through the setter, so the result is the nearest-ancestor walk: a node with a desired state gets `exclude = not desired`, a node without one takes the value of the nearest node above it that has one; only `exclude` changes; shape kept; with no state on any node the tree is unchanged |
| Panel.ApplyCollectionStatesReachesBelow | collection_management.py:122-129 | a collection with a state and none below it: its whole subtree ends with `exclude = not desired` |
| Panel.ApplyCollectionStatesIdempotent | collection_management.py:122-129 | applying the same states twice is applying them once |
| Panel.DuplicateViewLayer | collection_management.py:132-152 | the copy is appended under a fresh name (`<src>_copy` when free) with the states applied; all else kept |
| Panel.DuplicateOperator | main_panel.py:249-280 | raises iff some target layer exists (the call passes an unknown keyword); else cancels |
| Panel.CopyIntoIdempotent | main_panel.py:621-645 | copying the pop-up into a layer twice is copying once |
| Panel.CopyInto | main_panel.py:621-645 | all fields are copied except the denoise flag; the camera only with `camera_enable`; the world only with `world_enable` |
| Panel.CopyOne | main_panel.py:614-647 | only the layer found under the name gets the copy; names are kept |
| Panel.BulkCopySpec | main_panel.py:612-647 | each layer named by a target is overwritten once; every other layer is unchanged |
| Panel.BulkCopyApplied | main_panel.py:612-647 | the applied names are exactly the targets found in the scene |
| Panel.BulkRenderSettings | main_panel.py:603-659 | cancels with no change iff no target is found; otherwise finishes with the copy and the override of the active layer |
| Panel.RenderLayerNodes | main_panel.py:93 | the Render Layers nodes, in order |
| Panel.AoChain | main_panel.py:97-122 | nodes are only appended, never Render Layers; afterwards each eligible node has its tagged mix |
| Panel.AoChainDone | main_panel.py:115-122 | when every eligible node has its mix, nothing is added |
| Panel.AddAoMultiply | main_panel.py:84-122 | raises iff there is no Render Layers node; otherwise only appends |
| Panel.AddAoMultiplyIdempotent | main_panel.py:115-122 | a second run adds no node |

## Left out

- The compositor node graph is host API and is not modelled: node creation, linking and relinking, locations and File Output format syncing. This covers collection_management.py:235-431, 446-683, the linking part of 684-800, and the AO chain's links and curve points (main_panel.py:124-180). Only the pure parts are modelled: pass selection, path strings, the socket matcher and the AO guard.
- Floating point is not modelled:
  - pixel aspect;
  - frame-rate mapping (render_override.py:344-354, 189-192);
  - float sample rates.
- RenderOverride.RoundHalfEven: rounds the exact rational `size * scale / 100`. The source rounds a binary float, so the two can differ by one on inputs near a tie.
- Memory purging, timers, image cleanup, progress bars, redraws, `bpy.ops` render calls and the ESC / PASS_THROUGH events of the modal operator are host effects (collection_management.py:49-110). The step machine models the TIMER ticks only.
- The render-active operator's `use` flags and its restore of the original layer, engine, frame and world (collection_management.py:835-845, 882-891) are host state. Its animation loop is modelled.
- These handlers are not modelled: the depsgraph handler (material_override.py:59-107), the render_pre handler (505-525) and handler registration. The depsgraph handler applies the same three steps that `ViewLayerOps.SetActiveViewLayer` models.
- UI `draw` methods, pop-up invocation, registration and `__init__.py` are not modelled.
- The JSON encoding of the light dictionary (json library): the stored state is the decoded dictionary, and `None` stands for the empty string.
- `ob.hide_set` raising a RuntimeError that is ignored (light_camera.py:77-80) is not modelled. The model always sets the eye state.
- The second pair of set/clear override operators in collection_management.py:160-229 shares its idnames with material_override.py:240-282. Which one the host keeps depends on registration, so the model follows the material_override pair.
- Panel.ApplyCollectionSettingsOp: `colm.apply_collection_settings` (main_panel.py:452) is defined in none of the files. The model stops at the call, with its targets and settings.
- `_kill_current_external_render` (referenced by `__init__.py`) is not part of this model.
- `VLM_OT_clear_backup_materials` (material_override.py:477-503) is not in the registered classes, so it is left out.
- `VLM_OT_restore_materials` (material_override.py:466-475) only calls `restore_all_materials`, which `Materials.RestoreAll` models.
- Panel.DuplicateViewLayer: the host's copy (`view_layer_add`) is assumed to succeed. The `except` path that returns `None` is not modelled. The copy's temporary host name is left out of the taken names: it is `<src>.NNN`, which never equals `<src>_copy` or `<src>_copy.NNN`.
- Panel.DuplicateOperator: since the call raises, the operator's later steps never run, and so they are not modelled (main_panel.py:281-292).
- Panel.BulkRenderSettings: the `try` around the final `apply_render_override` is not modelled. The active layer is given as an index that exists.
- Panel.BulkRenderSettings: does not model the update callback that each `rs.X = …` assignment of the copy loop fires (main_panel.py:621-645, render_override.py:56-61). On a synced scene each callback re-applies the active layer with the records as they stand mid-copy. An apply leaves some scene values behind that a later apply does not overwrite: the other engine's samples, the Cycles denoise flag, and the camera when none resolves. The model applies the active layer once, after the whole copy, so it can differ from the host. Example: the active layer B is not the top; its engine is Cycles, with `engine_enable` and `samples_enable` off; the top overrides the engine with Cycles and 1000 samples; the scene has 999 Cycles samples; the form switches `engine_enable` on with Eevee Next and 32 samples. The first assignment's callback leaves Cycles at 1000 samples, while the model keeps 999.
- RenderOverride.ApplyRenderOverride: does not model the callback that `_sanitize_engine_values` fires when it rewrites a stored engine id (render_override.py:47). On a synced scene that callback runs a nested apply of the active layer with only part of the layers sanitised. The model sanitises every layer first and applies once. The two agree except for the values a nested apply leaves behind, as for the bulk copy above.
- ViewLayerOps.SetActiveViewLayer: the forced backup's `try`/`except` is not modelled.
- Base.Lower: lower-cases ASCII letters only. Python's `str.lower` also maps non-ASCII letters. `Base.Strip` uses Python's full `isspace` set.
- Names.Join: follows POSIX `os.path.join`. Windows drive letters and backslash separators are not modelled.
- Panel.AoChain: does not model `sc.use_nodes = True` (main_panel.py:87) or switching on the layer's AO pass (main_panel.py:99-103). The `AO` output the chain then reads (main_panel.py:107-114) exists only because of that switch. The model takes each node's outputs as they stand after the switch: the field `hasAo` of `Panel.Node` is the `AO` output after the pass was switched on, so it is false only when the engine offers no AO pass.
- RenderOverride.SyncSceneSettings: each assignment to a property with an update callback can fire `_update_render_settings`. That callback is not modelled inside the sync. Before the marker is set (the first pass) such callbacks return at once. The top layer's five flag assignments come after the marker, so there the callback re-applies the active layer once per flag, and the load handler then applies the top layer.
- Every mesh object is taken to have its own mesh data. In Blender, slots linked to the mesh ('DATA' link) are shared by all objects that use that mesh, so a write through one object shows on the others. The model keeps slots per object. The four contracts named next, and every per-object result built on them, rely on this.
- Materials.SetCollectionMaterial: its per-object frame ("nothing else changes") holds only when no two objects share a mesh.
- Materials.ApplyOverridesForViewLayer: its per-object result holds only when no two objects share a mesh.
- Materials.RestoreViewLayer: its per-object result holds only when no two objects share a mesh.
- Materials.RestoreCollection: its frame (objects outside the collection are unchanged) holds only when no object outside shares a mesh with one inside.
- `sync_scene_settings_to_addon` reads Cycles and Eevee samples behind `hasattr` checks. The model assumes both engines' settings exist.
- `LayerCollection.exclude` is modelled as Blender's setter: a write sets the flag on the node and on every layer collection below it (`LayerTree.ExcludeSubtree`). The host's update code that does this is not part of this model. `holdout` and `indirect_only` are written on the node alone.
- ViewLayerOps.ContentWalk: is stated node-wise. Through the recursive setter the host walk agrees with it only when no collection below the root carries a scene-collection name (`ViewLayerOps.ContentWalkIsSetterWalk`). A nested collection named like that would take its parent's value in the host, and the model does not promise the result for such a tree.
- ViewLayerOps.ToggleFlagTwice: for `exclude` it no longer promises that the scene is restored. The first toggle writes the node's whole subtree, so the scene comes back only when that subtree already carried one value. The same holds for ViewLayerOps.ToggleExcludeTwice.
- ViewLayerOps.ToggleCollectionFirstOnly: no longer promises that only one node changes. The whole subtree of the first match is written.
- Panel.ApplyCollectionStates: no longer promises that a node without a desired state is unchanged. Such a node takes the value of the nearest node above it that has a state, and it keeps its own flag only when there is none.
- BatchRender.Tick: models the layer, frame and path each tick renders, and the `use` flags a run leaves behind (`BatchRender.RunLeavesUseOnLast`). Three host effects of a tick are not modelled: the switch of the window's view layer (collection_management.py:961), the `frame_set` call (collection_management.py:976), and the application of the layer's materials, lights and render override before each render (collection_management.py:972-974). The run does not restore any of them, so after a run the scene carries the last rendered layer's materials, lights and settings.
- Scene.Obj: `hidden` is the eye state in the view layer of the current context. The host keeps one eye state per view layer; the model keeps only this one, so the eye states of other view layers are not modelled.

## Findings

| source | as written | input that shows it | evidently intended | confidence | as-written member | corrected member |
|---|---|---|---|---|---|---|
| collection_management.py:916-920 | the animation progress total adds `((e - s) // st) + 1` per layer | one layer whose resolved range is start 5, end 1, step 1: the total counts -3, while the machine renders frame 5 once | the total equals the number of renders the modal machine performs | medium, not executed | BatchRender.SourceTotalUndercounts | BatchRender.RenderAllSteps |
| light_camera.py:26-29 | memorising records `hide_viewport`, while applying writes the value back with `hide_set` (the eye, line 78) | a light hidden with the eye whose `hide_viewport` is off: after memorise then apply, it is visible | memorising then applying restores the light's eye state | medium, not executed | Lights.MemorizeApplyLosesHiddenLight | Lights.MemorizeVisibleRoundTrip |

=== FILE: base.dfy ===
/** Shared vocabulary of the model: optional values, operator return codes,
    order-preserving filtering and the few Python string operations the
    add-on relies on (`str.strip`, `str.replace`, `str.lower`, `in`). */
module Base {

  /** Python's `None` or a present value. */
  datatype Option<T> = None | Some(value: T) {
    /** `x or default` for an optional reference. */
    function GetOr(default: T): T {
      match this
      case Some(v) => v
      case None => default
    }
  }

  /** What an operator's `execute` ends with.  `Raised` stands for a Python
      exception (a `KeyError` on `collection[name]`, a host `RuntimeError`)
      escaping the operator; the model then leaves the state unchanged. */
  datatype Status = Finished | Cancelled | Raised

  function Max(a: int, b: int): int { if a >= b then a else b }

  function Min(a: int, b: int): int { if a <= b then a else b }

  /** `v` forced into `[lo, hi]`, as Blender does when a value is assigned
      to an integer property with hard limits. */
  function Clamp(v: int, lo: int, hi: int): (r: int)
    requires lo <= hi
    ensures lo <= r <= hi
    ensures lo <= v <= hi ==> r == v
    ensures v < lo ==> r == lo
    ensures v > hi ==> r == hi
  {
    Max(lo, Min(v, hi))
  }

  /** Python's `a or b` on optional references. */
  function Or<T>(a: Option<T>, b: Option<T>): Option<T> {
    if a.Some? then a else b
  }

  // ------------------------------------------------------------------
  // Order-preserving filtering (list comprehensions with an `if`)
  // ------------------------------------------------------------------

  /** `a` is obtained from `b` by deleting elements (relative order kept). */
  predicate IsSubseq<T(==)>(a: seq<T>, b: seq<T>)
    decreases |a| + |b|
  {
    if a == [] then true
    else if b == [] then false
    else if a[0] == b[0] then IsSubseq(a[1..], b[1..])
    else IsSubseq(a, b[1..])
  }

  /** `[x for x in s if p(x)]`. */
  function Filter<T(==,!new)>(s: seq<T>, p: T -> bool): (r: seq<T>)
    ensures |r| <= |s|
    ensures forall x :: x in r <==> x in s && p(x)
    ensures IsSubseq(r, s)
  {
    if s == [] then []
    else if p(s[0]) then
      var rest := Filter(s[1..], p);
      assert ([s[0]] + rest)[1..] == rest;
      [s[0]] + rest
    else
      Filter(s[1..], p)
  }

  /** A filter keeps everything exactly when every element passes. */
  lemma {:induction false} FilterAllPass<T(!new)>(s: seq<T>, p: T -> bool)
    ensures Filter(s, p) == s <==> forall i :: 0 <= i < |s| ==> p(s[i])
  {
    if s != [] {
      FilterAllPass(s[1..], p);
      if !p(s[0]) {
        assert |Filter(s, p)| <= |s[1..]| < |s|;
      } else {
        assert forall i :: 1 <= i < |s| ==> s[1..][i - 1] == s[i];
      }
    }
  }

  // ------------------------------------------------------------------
  // Python string helpers
  // ------------------------------------------------------------------

  /** `c.isspace()` in Python: the ASCII separators and control spaces plus
      the Unicode space characters. */
  predicate IsSpace(c: char) {
    ('\t' <= c <= '\r') || ('\U{1C}' <= c <= '\U{1F}') || c == ' '
    || c == '\U{85}' || c == '\U{A0}' || c == '\U{1680}'
    || ('\U{2000}' <= c <= '\U{200A}') || c == '\U{2028}' || c == '\U{2029}'
    || c == '\U{202F}' || c == '\U{205F}' || c == '\U{3000}'
  }

  predicate AllSpace(s: string) {
    forall i :: 0 <= i < |s| ==> IsSpace(s[i])
  }

  /** True when `s` has no surrounding white space. */
  predicate Trimmed(s: string) {
    s == [] || (!IsSpace(s[0]) && !IsSpace(s[|s| - 1]))
  }

  /** Number of white-space characters `s` starts with. */
  function LeadingSpaces(s: string): (k: nat)
    ensures k <= |s|
    ensures forall i :: 0 <= i < k ==> IsSpace(s[i])
    ensures k < |s| ==> !IsSpace(s[k])
  {
    if s == [] || !IsSpace(s[0]) then 0 else 1 + LeadingSpaces(s[1..])
  }

  /** Number of white-space characters `s` ends with. */
  function TrailingSpaces(s: string): (k: nat)
    ensures k <= |s|
    ensures forall i :: |s| - k <= i < |s| ==> IsSpace(s[i])
    ensures k < |s| ==> !IsSpace(s[|s| - k - 1])
  {
    if s == [] || !IsSpace(s[|s| - 1]) then 0 else 1 + TrailingSpaces(s[..|s| - 1])
  }

  /** `s.strip()`: drops leading and trailing white space only. */
  function Strip(s: string): (r: string)
    ensures |r| <= |s|
    ensures Trimmed(r)
    ensures r == [] <==> AllSpace(s)
    ensures Trimmed(s) ==> r == s
    ensures exists i, j :: 0 <= i <= j <= |s| && r == s[i..j] && AllSpace(s[..i]) && AllSpace(s[j..])
  {
    var k := LeadingSpaces(s);
    if k == |s| then
      assert s[k..k] == [] && AllSpace(s[..k]) && AllSpace(s[k..]);
      []
    else
      var t := TrailingSpaces(s);
      assert AllSpace(s[..k]) && AllSpace(s[|s| - t..]);
      s[k..|s| - t]
  }

  /** Stripping text wrapped in white space gives the text back: `strip`
      removes exactly the surrounding white space. */
  lemma StripSurrounded(a: string, t: string, b: string)
    requires AllSpace(a) && AllSpace(b) && Trimmed(t) && t != []
    ensures Strip(a + t + b) == t
  {
    var s := a + t + b;
    var k := LeadingSpaces(s);
    assert s[|a|] == t[0];
    assert k == |a|;
    var e := TrailingSpaces(s);
    assert s[|a| + |t| - 1] == t[|t| - 1];
    assert e == |b|;
    assert s[k..|s| - e] == t;
  }

  lemma StripIdempotent(s: string)
    ensures Strip(Strip(s)) == Strip(s)
  {
  }

  predicate StartsWith(s: string, p: string) {
    |p| <= |s| && s[..|p|] == p
  }

  /** `sub in s` for Python strings. */
  predicate Contains(s: string, sub: string)
    decreases |s|
  {
    StartsWith(s, sub) || (s != [] && Contains(s[1..], sub))
  }

  /** `"".join(n + c for c in s) + n`: Python's `s.replace("", n)`. */
  function InsertEverywhere(s: string, n: string): (r: string)
    ensures |r| == |s| + (|s| + 1) * |n|
  {
    if s == [] then n else n + [s[0]] + InsertEverywhere(s[1..], n)
  }

  /** `s.replace(o, n)`: every non-overlapping occurrence of `o`, scanned
      left to right, is replaced by `n`. */
  function Replace(s: string, o: string, n: string): string
    decreases |s|
  {
    if |o| == 0 then InsertEverywhere(s, n)
    else if |s| < |o| then s
    else if s[..|o|] == o then n + Replace(s[|o|..], o, n)
    else [s[0]] + Replace(s[1..], o, n)
  }

  /** Replacing a text by itself changes nothing. */
  lemma {:induction false} ReplaceBySelf(s: string, o: string)
    ensures Replace(s, o, o) == s
    decreases |s|
  {
    if |o| == 0 {
      InsertEmpty(s);
    } else if |s| < |o| {
    } else if s[..|o|] == o {
      ReplaceBySelf(s[|o|..], o);
      assert s == s[..|o|] + s[|o|..];
    } else {
      ReplaceBySelf(s[1..], o);
      assert s == [s[0]] + s[1..];
    }
  }

  lemma {:induction false} InsertEmpty(s: string)
    ensures InsertEverywhere(s, []) == s
  {
    if s != [] {
      InsertEmpty(s[1..]);
      assert s == [s[0]] + s[1..];
    }
  }

  /** A non-empty text that does not occur leaves the string unchanged. */
  lemma {:induction false} ReplaceAbsent(s: string, o: string, n: string)
    requires |o| > 0 && !Contains(s, o)
    ensures Replace(s, o, n) == s
    decreases |s|
  {
    if |s| >= |o| {
      assert s[..|o|] != o;
      ReplaceAbsent(s[1..], o, n);
      assert s == [s[0]] + s[1..];
    }
  }

  /** `c.lower()` on the ASCII letters. */
  function LowerChar(c: char): (r: char)
    ensures 'A' <= c <= 'Z' ==> r != c && r as int - c as int == 32
    ensures !('A' <= c <= 'Z') ==> r == c
  {
    if 'A' <= c <= 'Z' then (c as int + 32) as char else c
  }

  function Lower(s: string): (r: string)
    ensures |r| == |s|
    ensures forall i :: 0 <= i < |s| ==> r[i] == LowerChar(s[i])
  {
    if s == [] then [] else [LowerChar(s[0])] + Lower(s[1..])
  }

  /** `s.split(c)` for a one-character separator: the pieces between
      separators, always at least one (`"".split(",") == [""]`). */
  function Split(s: string, c: char): (r: seq<string>)
    ensures |r| >= 1
    ensures forall i :: 0 <= i < |r| ==> c !in r[i]
    decreases |s|
  {
    if s == [] then [[]]
    else
      var rest := Split(s[1..], c);
      if s[0] == c then [[]] + rest else [[s[0]] + rest[0]] + rest[1..]
  }

  /** `c.join(parts)`. */
  function JoinWith(parts: seq<string>, c: char): string
    decreases |parts|
  {
    if parts == [] then []
    else if |parts| == 1 then parts[0]
    else parts[0] + [c] + JoinWith(parts[1..], c)
  }

  /** Joining the pieces of a split gives the string back. */
  lemma {:induction false} JoinSplit(s: string, c: char)
    ensures JoinWith(Split(s, c), c) == s
    decreases |s|
  {
    if s != [] {
      var rest := Split(s[1..], c);
      JoinSplit(s[1..], c);
      if s[0] == c {
        assert JoinWith([[]] + rest, c) == [] + [c] + JoinWith(rest, c);
        assert s == [c] + s[1..];
      } else if |rest| == 1 {
        assert s == [s[0]] + s[1..];
      } else {
        var r := [[s[0]] + rest[0]] + rest[1..];
        assert r[1..] == rest[1..];
        assert JoinWith(r, c) == [s[0]] + (rest[0] + [c] + JoinWith(rest[1..], c));
        assert s == [s[0]] + s[1..];
      }
    }
  }

  lemma {:induction false} SplitNoSeparator(p: string, c: char)
    requires c !in p
    ensures Split(p, c) == [p]
    decreases |p|
  {
    if p != [] {
      SplitNoSeparator(p[1..], c);
      assert p == [p[0]] + p[1..];
    }
  }

  lemma {:induction false} SplitAfterPiece(p: string, c: char, x: string)
    requires c !in p
    ensures Split(p + [c] + x, c) == [p] + Split(x, c)
    decreases |p|
  {
    var s := p + [c] + x;
    if p == [] {
      assert s[1..] == x;
    } else {
      assert s[1..] == p[1..] + [c] + x;
      SplitAfterPiece(p[1..], c, x);
      assert [s[0]] + p[1..] == p;
    }
  }

  /** Splitting a join of separator-free pieces gives the pieces back. */
  lemma {:induction false} SplitJoin(parts: seq<string>, c: char)
    requires |parts| >= 1
    requires forall i :: 0 <= i < |parts| ==> c !in parts[i]
    ensures Split(JoinWith(parts, c), c) == parts
    decreases |parts|
  {
    if |parts| == 1 {
      SplitNoSeparator(parts[0], c);
    } else {
      SplitJoin(parts[1..], c);
      SplitAfterPiece(parts[0], c, JoinWith(parts[1..], c));
      assert parts == [parts[0]] + parts[1..];
    }
  }
}

=== FILE: batch_render.dfy ===
/** Batch rendering: which view layers take part, which frame range each
    uses, the active-layer animation loop, and the timer-driven step machine
    of the "render all layers" operator. */
module BatchRender {
  import opened Base
  import opened Scene
  import opened RenderOverride

  /** A resolved frame range `(start, end, step)`. */
  datatype Range = Range(start: int, end: int, step: int)

  /** The range a layer renders: its own when it overrides the frame range,
      else the top layer's; the step is at least 1, the end is not clamped. */
  function ResolveFrameRange(top: RenderSettings, own: RenderSettings): (r: Range)
    ensures r.step >= 1
    ensures own.frameEnable ==> r.start == own.frameStart && r.end == own.frameEnd
    ensures !own.frameEnable ==> r.start == top.frameStart && r.end == top.frameEnd
    ensures var src := if own.frameEnable then own else top;
      src.frameStep >= 1 ==> r.step == src.frameStep
  {
    var src := if own.frameEnable then own else top;
    Range(src.frameStart, src.frameEnd, Max(1, src.frameStep))
  }

  /** For a well-formed range, the batch renderer and the render override
      agree on the frames the scene ends up with. */
  lemma ResolveFrameRangeAgreesWithApply(s: Scene, k: nat)
    requires k < |s.layers|
    requires var r := ResolveFrameRange(s.layers[0].render, s.layers[k].render);
      0 <= r.start <= r.end
    ensures var r := ResolveFrameRange(s.layers[0].render, s.layers[k].render);
      var a := ApplyRenderOverride(s, k);
      a.frameStart == r.start && a.frameEnd == r.end && a.frameStep == r.step
  {
    FrameRangeRule(s, k);
  }

  // ------------------------------------------------------------------
  // _selected_viewlayers
  // ------------------------------------------------------------------

  /** Layers ticked "render this layer"; if none, those with `use`; if none
      again, every layer. */
  function SelectedViewLayers(layers: seq<ViewLayer>): (r: seq<ViewLayer>)
    ensures IsSubseq(r, layers)
    ensures |layers| > 0 ==> |r| > 0
    ensures (exists i :: 0 <= i < |layers| && layers[i].renderThis) ==>
              forall x :: x in r <==> x in layers && x.renderThis
    ensures (forall i :: 0 <= i < |layers| ==> !layers[i].renderThis)
            && (exists i :: 0 <= i < |layers| && layers[i].use) ==>
              forall x :: x in r <==> x in layers && x.use
    ensures (forall i :: 0 <= i < |layers| ==> !layers[i].renderThis && !layers[i].use) ==> r == layers
  {
    var ticked := Filter(layers, (vl: ViewLayer) => vl.renderThis);
    if ticked != [] then
      assert ticked[0] in layers && ticked[0].renderThis;
      ticked
    else
      assert forall i :: 0 <= i < |layers| ==> layers[i] in layers;
      var used := Filter(layers, (vl: ViewLayer) => vl.use);
      if used != [] then used
      else
        assert IsSubseq(layers, layers) by { SubseqRefl(layers); }
        layers
  }

  lemma {:induction false} SubseqRefl<T>(s: seq<T>)
    ensures IsSubseq(s, s)
  {
    if s != [] {
      SubseqRefl(s[1..]);
    }
  }

  // ------------------------------------------------------------------
  // Frames of one range
  // ------------------------------------------------------------------

  /** `f, f + step, ...` while the frame does not pass `end`. */
  function FramesFrom(f: int, end: int, step: int): seq<int>
    requires step >= 1
    decreases end - f + step
  {
    if f > end then [] else [f] + FramesFrom(f + step, end, step)
  }

  /** Euclidean division is determined by quotient and remainder. */
  lemma DivUnique(n: int, d: int, q: int, r: int)
    requires d > 0 && 0 <= r < d && n == d * q + r
    ensures n / d == q
  {
    var q', r' := n / d, n % d;
    assert n == d * q' + r' && 0 <= r' < d;
    assert d * (q - q') == r' - r;
    MulAwayFromZero(d, q - q');
  }

  lemma MulAwayFromZero(d: int, t: int)
    requires d > 0
    ensures t >= 1 ==> d * t >= d
    ensures t <= -1 ==> d * t <= -d
  {
    if t >= 1 {
      assert d * t == d + d * (t - 1);
    } else if t <= -1 {
      assert d * t == -d + d * (t + 1);
    }
  }

  lemma DivStep(x: int, step: int)
    requires step >= 1 && x >= step
    ensures (x - step) / step == x / step - 1
  {
    var q, r := x / step, x % step;
    assert x == step * q + r;
    assert x - step == step * (q - 1) + r;
    DivUnique(x - step, step, q - 1, r);
  }

  /** The number of frames is the progress formula `((end - f) // step) + 1`. */
  lemma {:induction false} FramesFromCount(f: int, end: int, step: int)
    requires step >= 1
    ensures |FramesFrom(f, end, step)| == if f > end then 0 else (end - f) / step + 1
    decreases end - f + step
  {
    if f <= end {
      FramesFromCount(f + step, end, step);
      if f + step <= end {
        DivStep(end - f, step);
      } else {
        assert 0 <= end - f < step;
      }
    }
  }

  lemma {:induction false} FramesFromBounds(f: int, end: int, step: int)
    requires step >= 1
    ensures forall i :: 0 <= i < |FramesFrom(f, end, step)| ==>
      FramesFrom(f, end, step)[i] == f + i * step && FramesFrom(f, end, step)[i] <= end
    decreases end - f + step
  {
    if f <= end {
      FramesFromBounds(f + step, end, step);
      var rest := FramesFrom(f + step, end, step);
      forall i | 1 <= i < |FramesFrom(f, end, step)|
        ensures FramesFrom(f, end, step)[i] == f + i * step
      {
        assert FramesFrom(f, end, step)[i] == rest[i - 1];
        assert (f + step) + (i - 1) * step == f + i * step;
      }
    }
  }

  // ------------------------------------------------------------------
  // Active-layer animation loop
  // ------------------------------------------------------------------

  /** The `while f <= end` loop of the active-layer render: the frames it
      renders and its step counter. */
  method AnimationLoop(r: Range) returns (frames: seq<int>, done: nat)
    requires r.step >= 1
    ensures frames == FramesFrom(r.start, r.end, r.step)
    ensures done == |frames|
    ensures forall i :: 0 <= i < |frames| ==> frames[i] == r.start + i * r.step && frames[i] <= r.end
    ensures r.start <= r.end ==> done == (r.end - r.start) / r.step + 1
    ensures r.start > r.end ==> done == 0
  {
    frames, done := [], 0;
    var f := r.start;
    while f <= r.end
      invariant frames + FramesFrom(f, r.end, r.step) == FramesFrom(r.start, r.end, r.step)
      invariant done == |frames|
      decreases r.end - f + r.step
    {
      frames := frames + [f];
      done := done + 1;
      f := f + r.step;
    }
    FramesFromCount(r.start, r.end, r.step);
    FramesFromBounds(r.start, r.end, r.step);
  }

  // ------------------------------------------------------------------
  // Render-all step machine
  // ------------------------------------------------------------------

  /** The operator's modal state: `_vl_index`, `_frame`, `_done_steps`,
      `_need_reset_frame`. */
  datatype Modal = Modal(idx: nat, frame: int, done: nat, needReset: bool)

  /** One rendered (layer position, frame) pair. */
  datatype Render = Render(layer: nat, frame: int)

  /** The frame a tick renders: the range start after a layer switch or
      when the stored frame lies outside the range. */
  function EffectiveFrame(m: Modal, r: Range): (f: int)
    ensures m.needReset || m.frame < r.start || m.frame > r.end ==> f == r.start
    ensures !m.needReset && r.start <= m.frame <= r.end ==> f == m.frame
  {
    if m.needReset || m.frame < r.start || m.frame > r.end then r.start else m.frame
  }

  /** One TIMER event: `None` once every layer is done (FINISHED), else the
      render it performs and the next state. */
  function Tick(ranges: seq<Range>, anim: bool, m: Modal): (res: Option<(Render, Modal)>)
    requires forall i :: 0 <= i < |ranges| ==> ranges[i].step >= 1
    ensures res.None? <==> m.idx >= |ranges|
    ensures res.Some? ==> var f := EffectiveFrame(m, ranges[m.idx]);
      res.value.0 == Render(m.idx, f) && res.value.1.done == m.done + 1
    ensures res.Some? && !anim ==> var f := EffectiveFrame(m, ranges[m.idx]);
      res.value.1 == Modal(m.idx + 1, f, m.done + 1, true)
    ensures res.Some? && anim ==> var r, f := ranges[m.idx], EffectiveFrame(m, ranges[m.idx]);
      && res.value.1.frame == f + r.step
      && (f + r.step > r.end ==> res.value.1.idx == m.idx + 1 && res.value.1.needReset)
      && (f + r.step <= r.end ==> res.value.1.idx == m.idx && !res.value.1.needReset)
  {
    if m.idx >= |ranges| then None
    else
      var r := ranges[m.idx];
      var f := EffectiveFrame(m, r);
      var out := Render(m.idx, f);
      if !anim then Some((out, Modal(m.idx + 1, f, m.done + 1, true)))
      else if f + r.step > r.end then Some((out, Modal(m.idx + 1, f + r.step, m.done + 1, true)))
      else Some((out, Modal(m.idx, f + r.step, m.done + 1, false)))
  }

  /** `invoke`: the progress total as the operator computes it and the
      initial state; no layer to render is CANCELLED. */
  datatype Started = Started(ranges: seq<Range>, total: int, m: Modal)

  function Invoke(s: Scene, anim: bool): (r: Option<Started>)
    ensures r.None? <==> |s.layers| == 0
    ensures r.Some? ==> var st := r.value;
      && |st.ranges| == |SelectedViewLayers(s.layers)| > 0
      && (forall i :: 0 <= i < |st.ranges| ==> st.ranges[i].step >= 1)
      && st.m == Modal(0, st.ranges[0].start, 0, false)
      && (!anim ==> st.total == |st.ranges|)
      && (anim ==> st.total == SourceTotal(st.ranges))
  {
    var vls := SelectedViewLayers(s.layers);
    if vls == [] then None
    else
      var ranges := seq(|vls|, i requires 0 <= i < |vls| => ResolveFrameRange(s.layers[0].render, vls[i].render));
      var total := if anim then SourceTotal(ranges) else |ranges|;
      Some(Started(ranges, total, Modal(0, ranges[0].start, 0, false)))
  }

  /** The animation total as written: `((e - s) // st) + 1` per layer. */
  function SourceTotal(ranges: seq<Range>): int
    requires forall i :: 0 <= i < |ranges| ==> ranges[i].step >= 1
  {
    if ranges == [] then 0
    else (ranges[0].end - ranges[0].start) / ranges[0].step + 1 + SourceTotal(ranges[1..])
  }

  /** The frames one layer renders from frame `f` on.  A still render is
      one frame; an animation renders `f` and then keeps stepping while the
      frame does not pass the end, so at least one frame. */
  function LayerRest(i: nat, f: int, r: Range, anim: bool): (out: seq<Render>)
    requires r.step >= 1
    ensures |out| >= 1 && out[0] == Render(i, f)
  {
    if !anim then [Render(i, f)]
    else [Render(i, f)] + Tag(i, FramesFrom(f + r.step, r.end, r.step))
  }

  function Tag(i: nat, frames: seq<int>): (out: seq<Render>)
    ensures |out| == |frames|
    ensures forall j :: 0 <= j < |frames| ==> out[j] == Render(i, frames[j])
  {
    seq(|frames|, j requires 0 <= j < |frames| => Render(i, frames[j]))
  }

  /** Reference schedule: every layer from position `i` on, each from its
      range start. */
  function ScheduleFrom(ranges: seq<Range>, anim: bool, i: nat): seq<Render>
    requires forall j :: 0 <= j < |ranges| ==> ranges[j].step >= 1
    decreases |ranges| - i
  {
    if i >= |ranges| then []
    else LayerRest(i, ranges[i].start, ranges[i], anim) + ScheduleFrom(ranges, anim, i + 1)
  }

  /** The renders a state still owes. */
  function Pending(ranges: seq<Range>, anim: bool, m: Modal): seq<Render>
    requires forall j :: 0 <= j < |ranges| ==> ranges[j].step >= 1
  {
    if m.idx >= |ranges| then []
    else LayerRest(m.idx, EffectiveFrame(m, ranges[m.idx]), ranges[m.idx], anim)
         + ScheduleFrom(ranges, anim, m.idx + 1)
  }

  /** A tick performs the first pending render and owes the rest. */
  lemma TickPending(ranges: seq<Range>, anim: bool, m: Modal)
    requires forall j :: 0 <= j < |ranges| ==> ranges[j].step >= 1
    requires m.idx < |ranges|
    ensures var res := Tick(ranges, anim, m);
      res.Some? && Pending(ranges, anim, m) == [res.value.0] + Pending(ranges, anim, res.value.1)
  {
    var r := ranges[m.idx];
    var f := EffectiveFrame(m, r);
    var res := Tick(ranges, anim, m);
    var m' := res.value.1;
    var later := ScheduleFrom(ranges, anim, m.idx + 1);
    if !anim {
      assert Pending(ranges, anim, m') == later;
    } else if f + r.step > r.end {
      assert FramesFrom(f + r.step, r.end, r.step) == [];
      assert Pending(ranges, anim, m') == later;
    } else {
      var g := f + r.step;
      assert EffectiveFrame(m', r) == g;
      var fr := FramesFrom(g, r.end, r.step);
      assert fr == [g] + FramesFrom(g + r.step, r.end, r.step);
      assert Tag(m.idx, fr) == [Render(m.idx, g)] + Tag(m.idx, FramesFrom(g + r.step, r.end, r.step));
    }
  }

  /** One loop step of `RunAll`: the renders done so far followed by what
      is still owed do not change across a tick. */
  lemma TickStep(ranges: seq<Range>, anim: bool, m: Modal, renders: seq<Render>)
    requires forall j :: 0 <= j < |ranges| ==> ranges[j].step >= 1
    requires m.idx < |ranges|
    ensures var next := Tick(ranges, anim, m).value;
      && renders + Pending(ranges, anim, m) == (renders + [next.0]) + Pending(ranges, anim, next.1)
      && next.1.done == m.done + 1
  {
    TickPending(ranges, anim, m);
  }

  /** Runs the machine from `invoke` until it reports FINISHED. */
  method RunAll(ranges: seq<Range>, anim: bool) returns (renders: seq<Render>, done: nat)
    requires |ranges| > 0
    requires forall j :: 0 <= j < |ranges| ==> ranges[j].step >= 1
    ensures renders == ScheduleFrom(ranges, anim, 0)
    ensures done == |renders|
  {
    var m := Modal(0, ranges[0].start, 0, false);
    renders := [];
    while m.idx < |ranges|
      invariant renders + Pending(ranges, anim, m) == ScheduleFrom(ranges, anim, 0)
      invariant m.done == |renders|
      decreases |Pending(ranges, anim, m)|
    {
      TickStep(ranges, anim, m, renders);
      var next := Tick(ranges, anim, m).value;
      renders := renders + [next.0];
      m := next.1;
    }
    done := m.done;
  }

  /** The number of renders per layer is one per still; in an animation
      it is the number of frames of the range with its end raised to the
      start, which is what the override applies to the scene. */
  function StepsTotal(ranges: seq<Range>, anim: bool): (n: nat)
    requires forall j :: 0 <= j < |ranges| ==> ranges[j].step >= 1
    ensures !anim ==> n == |ranges|
  {
    if ranges == [] then 0
    else
      var r := ranges[0];
      (if anim then (Max(r.start, r.end) - r.start) / r.step + 1 else 1) + StepsTotal(ranges[1..], anim)
  }

  lemma {:induction false} ScheduleLength(ranges: seq<Range>, anim: bool, i: nat)
    requires forall j :: 0 <= j < |ranges| ==> ranges[j].step >= 1
    requires i <= |ranges|
    ensures |ScheduleFrom(ranges, anim, i)| == StepsTotal(ranges[i..], anim)
    decreases |ranges| - i
  {
    if i < |ranges| {
      ScheduleLength(ranges, anim, i + 1);
      var r := ranges[i];
      assert ranges[i..][1..] == ranges[i + 1..];
      if anim {
        FramesFromCount(r.start + r.step, r.end, r.step);
        if r.start + r.step <= r.end {
          DivStep(r.end - r.start, r.step);
        }
      }
    }
  }

  /** The machine performs exactly `StepsTotal` renders. */
  method RenderAllSteps(ranges: seq<Range>, anim: bool) returns (done: nat)
    requires |ranges| > 0
    requires forall j :: 0 <= j < |ranges| ==> ranges[j].step >= 1
    ensures done == StepsTotal(ranges, anim)
  {
    var renders;
    renders, done := RunAll(ranges, anim);
    ScheduleLength(ranges, anim, 0);
  }

  /** When every range has start <= end, the operator's progress total is
      the number of steps the machine takes. */
  lemma {:induction false} SourceTotalMatchesSteps(ranges: seq<Range>)
    requires forall j :: 0 <= j < |ranges| ==> ranges[j].step >= 1 && ranges[j].start <= ranges[j].end
    ensures SourceTotal(ranges) == StepsTotal(ranges, true)
  {
    if ranges != [] {
      SourceTotalMatchesSteps(ranges[1..]);
    }
  }

  /** A layer whose range has start > end still renders one frame, while
      the progress total counts `((end - start) // step) + 1 <= 0` for it. */
  lemma SourceTotalUndercounts()
    ensures var ranges := [Range(5, 1, 1)];
      SourceTotal(ranges) == -3 && StepsTotal(ranges, true) == 1
  {
    var ranges := [Range(5, 1, 1)];
    assert ranges[1..] == [];
  }

  // ------------------------------------------------------------------
  // The `use` flags a run leaves behind
  // ------------------------------------------------------------------

  /** What a tick does to the flags: `v.use = (v == vl)` for every layer,
      so `use` stays on the rendered layer alone (view-layer names are
      unique, so the name identifies the layer). */
  function UseOnly(layers: seq<ViewLayer>, name: string): (r: seq<ViewLayer>)
    ensures |r| == |layers|
    ensures forall i :: 0 <= i < |layers| ==> r[i] == layers[i].(use := r[i].use) && (r[i].use <==> layers[i].name == name)
  {
    seq(|layers|, i requires 0 <= i < |layers| => layers[i].(use := layers[i].name == name))
  }

  /** The flags after the ticks that performed `renders`, where render
      position `k` is the layer `vls[k]`. */
  function UseAfter(layers: seq<ViewLayer>, vls: seq<ViewLayer>, renders: seq<Render>): seq<ViewLayer>
    requires forall k :: 0 <= k < |renders| ==> renders[k].layer < |vls|
    decreases |renders|
  {
    if renders == [] then layers
    else UseAfter(UseOnly(layers, vls[renders[0].layer].name), vls, renders[1..])
  }

  /** Each tick overwrites every flag, so only the last render counts. */
  lemma {:induction false} UseAfterLast(layers: seq<ViewLayer>, vls: seq<ViewLayer>, renders: seq<Render>)
    requires forall k :: 0 <= k < |renders| ==> renders[k].layer < |vls|
    requires renders != []
    ensures UseAfter(layers, vls, renders) == UseOnly(layers, vls[renders[|renders| - 1].layer].name)
    decreases |renders|
  {
    var l1 := UseOnly(layers, vls[renders[0].layer].name);
    if |renders| > 1 {
      UseAfterLast(l1, vls, renders[1..]);
      assert renders[1..][|renders| - 2] == renders[|renders| - 1];
      var n := vls[renders[|renders| - 1].layer].name;
      assert UseOnly(l1, n) == UseOnly(layers, n);
    } else {
      assert UseAfter(l1, vls, renders[1..]) == l1;
    }
  }

  /** Every render of the schedule is of a layer of the list, and the
      schedule ends with the last layer. */
  lemma {:induction false} ScheduleLayers(ranges: seq<Range>, anim: bool, i: nat)
    requires forall j :: 0 <= j < |ranges| ==> ranges[j].step >= 1
    requires i < |ranges|
    ensures var sch := ScheduleFrom(ranges, anim, i);
      sch != [] && (forall k :: 0 <= k < |sch| ==> i <= sch[k].layer < |ranges|)
      && sch[|sch| - 1].layer == |ranges| - 1
    decreases |ranges| - i
  {
    var head := LayerRest(i, ranges[i].start, ranges[i], anim);
    assert forall k :: 0 <= k < |head| ==> head[k].layer == i;
    var sch := ScheduleFrom(ranges, anim, i);
    assert sch == head + ScheduleFrom(ranges, anim, i + 1);
    if i + 1 < |ranges| {
      ScheduleLayers(ranges, anim, i + 1);
      var rest := ScheduleFrom(ranges, anim, i + 1);
      assert sch[|sch| - 1] == rest[|rest| - 1];
      forall k | 0 <= k < |sch| ensures i <= sch[k].layer < |ranges| {
        if k >= |head| { assert sch[k] == rest[k - |head|]; }
      }
    } else {
      assert ScheduleFrom(ranges, anim, i + 1) == [];
      assert sch == head;
    }
  }

  /** After a whole run the `use` flag is on the last selected layer alone:
      the ticks switch it on the layer they render and never restore it. */
  lemma RunLeavesUseOnLast(s: Scene, anim: bool)
    requires |s.layers| > 0
    ensures var vls := SelectedViewLayers(s.layers);
      var st := Invoke(s, anim).value;
      var renders := ScheduleFrom(st.ranges, anim, 0);
      (forall k :: 0 <= k < |renders| ==> renders[k].layer < |vls|)
      && UseAfter(s.layers, vls, renders) == UseOnly(s.layers, vls[|vls| - 1].name)
  {
    var vls := SelectedViewLayers(s.layers);
    var st := Invoke(s, anim).value;
    assert |st.ranges| == |vls| > 0;
    UseAfterRun(s.layers, vls, st.ranges, anim);
  }

  lemma UseAfterRun(layers: seq<ViewLayer>, vls: seq<ViewLayer>, ranges: seq<Range>, anim: bool)
    requires |ranges| == |vls| > 0
    requires forall j :: 0 <= j < |ranges| ==> ranges[j].step >= 1
    ensures var renders := ScheduleFrom(ranges, anim, 0);
      (forall k :: 0 <= k < |renders| ==> renders[k].layer < |vls|)
      && UseAfter(layers, vls, renders) == UseOnly(layers, vls[|vls| - 1].name)
  {
    ScheduleLayers(ranges, anim, 0);
    UseAfterLast(layers, vls, ScheduleFrom(ranges, anim, 0));
  }

  /** So when no layer is ticked for rendering, the next run's fallback
      to the `use` flags selects only the layers carrying the name of the
      last layer rendered. */
  lemma NextRunAfterFallback(layers: seq<ViewLayer>, name: string)
    requires forall i :: 0 <= i < |layers| ==> !layers[i].renderThis
    requires exists i :: 0 <= i < |layers| && layers[i].name == name
    ensures var after := UseOnly(layers, name);
      forall x :: x in SelectedViewLayers(after) <==> x in after && x.name == name
  {
    var after := UseOnly(layers, name);
    var i :| 0 <= i < |layers| && layers[i].name == name;
    assert after[i].use;
  }
}

=== FILE: layer_tree.dfy ===
/** The layer-collection tree of one view layer.  Every node wraps one
    collection (identified by its name) and carries the per-layer flags
    `exclude`, `holdout` and `indirect_only`; the root wraps the scene
    collection.  Pre-order lists of nodes, flags and child counts serve as
    the reference definitions the tree operations are proved against. */
module LayerTree {
  import opened Base

  datatype LC = LC(name: string, exclude: bool, holdout: bool, indirect: bool, children: seq<LC>)

  /** A node's own flags, without its subtree. */
  datatype Info = Info(name: string, exclude: bool, holdout: bool, indirect: bool)

  function Label(t: LC): Info {
    Info(t.name, t.exclude, t.holdout, t.indirect)
  }

  /** The names Blender gives the root (scene) collection. */
  predicate IsSceneCollectionName(n: string) {
    n == "Scene Collection" || n == "シーンコレクション"
  }

  // ------------------------------------------------------------------
  // Pre-order views of a tree
  // ------------------------------------------------------------------

  /** Every subtree, in pre-order, the tree itself first. */
  function Nodes(t: LC): seq<LC>
    decreases t
  {
    [t] + NodesF(t.children)
  }

  function NodesF(cs: seq<LC>): seq<LC>
    decreases cs
  {
    if cs == [] then [] else Nodes(cs[0]) + NodesF(cs[1..])
  }

  /** The flags of every node, in pre-order. */
  function Infos(t: LC): seq<Info>
    decreases t
  {
    [Label(t)] + InfosF(t.children)
  }

  function InfosF(cs: seq<LC>): seq<Info>
    decreases cs
  {
    if cs == [] then [] else Infos(cs[0]) + InfosF(cs[1..])
  }

  /** The number of children of every node, in pre-order: with `Infos` this
      determines the tree, so equal arities mean an unchanged shape. */
  function Arity(t: LC): seq<nat>
    decreases t
  {
    [|t.children|] + ArityF(t.children)
  }

  function ArityF(cs: seq<LC>): seq<nat>
    decreases cs
  {
    if cs == [] then [] else Arity(cs[0]) + ArityF(cs[1..])
  }

  /** The depth of every node, in pre-order, the root at `d`. */
  function Depths(t: LC, d: nat): seq<nat>
    decreases t
  {
    [d] + DepthsF(t.children, d + 1)
  }

  function DepthsF(cs: seq<LC>, d: nat): seq<nat>
    decreases cs
  {
    if cs == [] then [] else Depths(cs[0], d) + DepthsF(cs[1..], d)
  }

  lemma {:induction false} ViewsAgree(t: LC, d: nat)
    ensures |Infos(t)| == |Nodes(t)| == |Arity(t)| == |Depths(t, d)|
    ensures forall i :: 0 <= i < |Nodes(t)| ==> Infos(t)[i] == Label(Nodes(t)[i])
    ensures Depths(t, d)[0] == d && forall i :: 0 <= i < |Nodes(t)| ==> Depths(t, d)[i] >= d
    decreases t
  {
    ViewsAgreeF(t.children, d + 1);
  }

  lemma {:induction false} ViewsAgreeF(cs: seq<LC>, d: nat)
    ensures |InfosF(cs)| == |NodesF(cs)| == |ArityF(cs)| == |DepthsF(cs, d)|
    ensures forall i :: 0 <= i < |NodesF(cs)| ==> InfosF(cs)[i] == Label(NodesF(cs)[i])
    ensures forall i :: 0 <= i < |NodesF(cs)| ==> DepthsF(cs, d)[i] >= d
    decreases cs
  {
    if cs != [] {
      ViewsAgree(cs[0], d);
      ViewsAgreeF(cs[1..], d);
    }
  }

  // ------------------------------------------------------------------
  // Descendants (`_iter_layer_collections_recursive`)
  // ------------------------------------------------------------------

  /** Every proper descendant, in pre-order: the generator yields a child,
      then that child's descendants, then the next child. */
  function Descendants(t: LC): (r: seq<LC>)
    ensures Nodes(t) == [t] + r
  {
    NodesF(t.children)
  }

  /** Every subtree is at most as large as the tree. */
  lemma {:induction false} NodesShrink(t: LC)
    ensures forall x :: x in Nodes(t) ==> |Nodes(x)| <= |Nodes(t)|
    decreases t
  {
    NodesShrinkF(t.children);
  }

  lemma {:induction false} NodesShrinkF(cs: seq<LC>)
    ensures forall x :: x in NodesF(cs) ==> |Nodes(x)| <= |NodesF(cs)|
    decreases cs
  {
    if cs != [] {
      NodesShrink(cs[0]);
      NodesShrinkF(cs[1..]);
    }
  }

  /** The generator never yields the collection it starts from. */
  lemma RootNotDescendant(t: LC)
    ensures t !in Descendants(t)
    ensures |Descendants(t)| == |Nodes(t)| - 1
  {
    NodesShrinkF(t.children);
  }

  // ------------------------------------------------------------------
  // Lookup by collection name (`_find_layer_collection`)
  // ------------------------------------------------------------------

  /** Position of the first element of a list with that name. */
  function FirstNamedIndex(s: seq<LC>, name: string): (r: Option<nat>)
    ensures r.None? <==> forall k :: 0 <= k < |s| ==> s[k].name != name
    ensures r.Some? ==> r.value < |s| && s[r.value].name == name
                        && forall j :: 0 <= j < r.value ==> s[j].name != name
  {
    if s == [] then None
    else if s[0].name == name then Some(0)
    else
      match FirstNamedIndex(s[1..], name)
      case None => None
      case Some(k) => Some(k + 1)
  }

  /** Reference definition: the first element of a list with that name. */
  function FirstNamed(s: seq<LC>, name: string): Option<LC> {
    match FirstNamedIndex(s, name)
    case None => None
    case Some(k) => Some(s[k])
  }

  lemma FirstNamedAppend(a: seq<LC>, b: seq<LC>, name: string)
    ensures FirstNamed(a + b, name) == if FirstNamed(a, name).Some? then FirstNamed(a, name) else FirstNamed(b, name)
  {
    var ia, ib, iab := FirstNamedIndex(a, name), FirstNamedIndex(b, name), FirstNamedIndex(a + b, name);
    if ia.Some? {
      assert (a + b)[ia.value] == a[ia.value];
    } else if ib.Some? {
      assert (a + b)[|a| + ib.value] == b[ib.value];
    } else {
      forall k | 0 <= k < |a + b| ensures (a + b)[k].name != name {
        if k < |a| { assert (a + b)[k] == a[k]; } else { assert (a + b)[k] == b[k - |a|]; }
      }
    }
  }

  /** The depth-first search of `_find_layer_collection`. */
  function Find(t: LC, name: string): Option<LC>
    decreases t
  {
    if t.name == name then Some(t) else FindF(t.children, name)
  }

  function FindF(cs: seq<LC>, name: string): Option<LC>
    decreases cs
  {
    if cs == [] then None
    else
      match Find(cs[0], name)
      case Some(x) => Some(x)
      case None => FindF(cs[1..], name)
  }

  /** The search returns the first pre-order node carrying the name, and
      `None` exactly when no node does. */
  lemma {:induction false} FindIsFirstInPreorder(t: LC, name: string)
    ensures Find(t, name) == FirstNamed(Nodes(t), name)
    decreases t
  {
    FirstNamedAppend([t], NodesF(t.children), name);
    FindFIsFirst(t.children, name);
  }

  lemma {:induction false} FindFIsFirst(cs: seq<LC>, name: string)
    ensures FindF(cs, name) == FirstNamed(NodesF(cs), name)
    decreases cs
  {
    if cs != [] {
      FindIsFirstInPreorder(cs[0], name);
      FindFIsFirst(cs[1..], name);
      FirstNamedAppend(Nodes(cs[0]), NodesF(cs[1..]), name);
    }
  }

  // ------------------------------------------------------------------
  // Node-wise rewriting (the `_walk` helpers)
  // ------------------------------------------------------------------

  function Relabel(t: LC, i: Info, children: seq<LC>): LC {
    LC(i.name, i.exclude, i.holdout, i.indirect, children)
  }

  /** Rewrite every node's flags with `f`, keeping the shape. */
  function MapTree(t: LC, f: Info -> Info): LC
    decreases t
  {
    Relabel(t, f(Label(t)), MapForest(t.children, f))
  }

  function MapForest(cs: seq<LC>, f: Info -> Info): (r: seq<LC>)
    ensures |r| == |cs|
    decreases cs
  {
    if cs == [] then [] else [MapTree(cs[0], f)] + MapForest(cs[1..], f)
  }

  function MapInfos(s: seq<Info>, f: Info -> Info): (r: seq<Info>)
    ensures |r| == |s| && forall i :: 0 <= i < |s| ==> r[i] == f(s[i])
  {
    seq(|s|, i requires 0 <= i < |s| => f(s[i]))
  }

  /** A node-wise rewrite changes each pre-order label by `f` and nothing else. */
  lemma {:induction false} MapTreeSpec(t: LC, f: Info -> Info)
    ensures Infos(MapTree(t, f)) == MapInfos(Infos(t), f)
    ensures Arity(MapTree(t, f)) == Arity(t)
    decreases t
  {
    MapForestSpec(t.children, f);
  }

  lemma {:induction false} MapForestSpec(cs: seq<LC>, f: Info -> Info)
    ensures InfosF(MapForest(cs, f)) == MapInfos(InfosF(cs), f)
    ensures ArityF(MapForest(cs, f)) == ArityF(cs)
    decreases cs
  {
    if cs != [] {
      var m := MapForest(cs, f);
      assert m[0] == MapTree(cs[0], f) && m[1..] == MapForest(cs[1..], f);
      MapTreeSpec(cs[0], f);
      MapForestSpec(cs[1..], f);
    }
  }

  /** Two rewrites in a row are one rewrite by the composed function. */
  lemma {:induction false} MapTreeCompose(t: LC, f: Info -> Info, g: Info -> Info, h: Info -> Info)
    requires forall i :: h(i) == g(f(i))
    ensures MapTree(MapTree(t, f), g) == MapTree(t, h)
    decreases t
  {
    MapForestCompose(t.children, f, g, h);
  }

  lemma {:induction false} MapForestCompose(cs: seq<LC>, f: Info -> Info, g: Info -> Info, h: Info -> Info)
    requires forall i :: h(i) == g(f(i))
    ensures MapForest(MapForest(cs, f), g) == MapForest(cs, h)
    decreases cs
  {
    if cs != [] {
      var m := MapForest(cs, f);
      assert m[0] == MapTree(cs[0], f) && m[1..] == MapForest(cs[1..], f);
      MapTreeCompose(cs[0], f, g, h);
      MapForestCompose(cs[1..], f, g, h);
    }
  }

  /** A rewrite that changes no label leaves the tree as it is. */
  lemma {:induction false} MapTreeIdentity(t: LC, f: Info -> Info)
    requires forall i :: f(i) == i
    ensures MapTree(t, f) == t
    decreases t
  {
    MapForestIdentity(t.children, f);
  }

  lemma {:induction false} MapForestIdentity(cs: seq<LC>, f: Info -> Info)
    requires forall i :: f(i) == i
    ensures MapForest(cs, f) == cs
    decreases cs
  {
    if cs != [] {
      MapTreeIdentity(cs[0], f);
      MapForestIdentity(cs[1..], f);
      assert cs == [cs[0]] + cs[1..];
    }
  }

  // ------------------------------------------------------------------
  // Changing the first node with a name (the toggle operators)
  // ------------------------------------------------------------------

  predicate HasName(s: seq<Info>, name: string) {
    exists k :: 0 <= k < |s| && s[k].name == name
  }

  /** Reference definition: apply `g` to the first label with that name. */
  function UpdateFirstInfo(s: seq<Info>, name: string, g: Info -> Info): (r: seq<Info>)
    ensures |r| == |s|
  {
    if s == [] then []
    else if s[0].name == name then [g(s[0])] + s[1..]
    else [s[0]] + UpdateFirstInfo(s[1..], name, g)
  }

  lemma {:induction false} UpdateFirstInfoAppend(a: seq<Info>, b: seq<Info>, name: string, g: Info -> Info)
    ensures UpdateFirstInfo(a + b, name, g)
            == if HasName(a, name) then UpdateFirstInfo(a, name, g) + b else a + UpdateFirstInfo(b, name, g)
  {
    if a == [] {
      assert a + b == b;
    } else {
      var ab := a + b;
      assert ab[0] == a[0] && ab[1..] == a[1..] + b;
      HasNameCons(a, name);
      if a[0].name == name {
        calc {
          UpdateFirstInfo(ab, name, g);
          [g(a[0])] + (a[1..] + b);
          ([g(a[0])] + a[1..]) + b;
        }
      } else {
        UpdateFirstInfoAppend(a[1..], b, name, g);
        if HasName(a, name) {
          calc {
            UpdateFirstInfo(ab, name, g);
            [a[0]] + UpdateFirstInfo(a[1..] + b, name, g);
            [a[0]] + (UpdateFirstInfo(a[1..], name, g) + b);
            ([a[0]] + UpdateFirstInfo(a[1..], name, g)) + b;
          }
        } else {
          calc {
            UpdateFirstInfo(ab, name, g);
            [a[0]] + UpdateFirstInfo(a[1..] + b, name, g);
            [a[0]] + (a[1..] + UpdateFirstInfo(b, name, g));
            ([a[0]] + a[1..]) + UpdateFirstInfo(b, name, g);
            { assert [a[0]] + a[1..] == a; }
            a + UpdateFirstInfo(b, name, g);
          }
        }
      }
    }
  }

  lemma HasNameCons(a: seq<Info>, name: string)
    requires a != []
    ensures HasName(a, name) <==> a[0].name == name || HasName(a[1..], name)
  {
    if HasName(a, name) && a[0].name != name {
      var k :| 0 <= k < |a| && a[k].name == name;
      assert a[1..][k - 1].name == name;
    }
    if HasName(a[1..], name) {
      var k :| 0 <= k < |a[1..]| && a[1..][k].name == name;
      assert a[k + 1].name == name;
    }
    if a[0].name == name {
      assert a[0].name == name;
    }
  }

  /** The stop-at-first-match traversal: change the first pre-order node
      named `name` by `g`; `found` reports whether there was one. */
  function UpdateFirst(t: LC, name: string, g: Info -> Info): (res: (LC, bool))
    decreases t
  {
    if t.name == name then (Relabel(t, g(Label(t)), t.children), true)
    else
      var (cs, found) := UpdateFirstF(t.children, name, g);
      (Relabel(t, Label(t), cs), found)
  }

  function UpdateFirstF(cs: seq<LC>, name: string, g: Info -> Info): (res: (seq<LC>, bool))
    ensures |res.0| == |cs|
    decreases cs
  {
    if cs == [] then ([], false)
    else
      var (c, found) := UpdateFirst(cs[0], name, g);
      if found then ([c] + cs[1..], true)
      else
        var (rest, found') := UpdateFirstF(cs[1..], name, g);
        ([c] + rest, found')
  }

  lemma {:induction false} UpdateFirstSpec(t: LC, name: string, g: Info -> Info)
    ensures var (r, found) := UpdateFirst(t, name, g);
      && found == HasName(Infos(t), name)
      && Infos(r) == UpdateFirstInfo(Infos(t), name, g)
      && Arity(r) == Arity(t)
      && (!found ==> r == t)
    decreases t
  {
    var (r, found) := UpdateFirst(t, name, g);
    var s := Infos(t);
    if t.name == name {
      assert s[0].name == name;
      assert s[1..] == InfosF(t.children);
    } else {
      UpdateFirstFSpec(t.children, name, g);
      UpdateFirstInfoAppend([Label(t)], InfosF(t.children), name, g);
      assert !HasName([Label(t)], name);
      assert HasName(s, name) <==> HasName(InfosF(t.children), name) by {
        if HasName(s, name) {
          var k :| 0 <= k < |s| && s[k].name == name;
          assert InfosF(t.children)[k - 1].name == name;
        }
        if HasName(InfosF(t.children), name) {
          var k :| 0 <= k < |InfosF(t.children)| && InfosF(t.children)[k].name == name;
          assert s[k + 1].name == name;
        }
      }
    }
  }

  lemma {:induction false} UpdateFirstFSpec(cs: seq<LC>, name: string, g: Info -> Info)
    ensures var (r, found) := UpdateFirstF(cs, name, g);
      && found == HasName(InfosF(cs), name)
      && InfosF(r) == UpdateFirstInfo(InfosF(cs), name, g)
      && ArityF(r) == ArityF(cs)
      && (!found ==> r == cs)
    decreases cs
  {
    if cs != [] {
      var (c, f0) := UpdateFirst(cs[0], name, g);
      UpdateFirstSpec(cs[0], name, g);
      UpdateFirstInfoAppend(Infos(cs[0]), InfosF(cs[1..]), name, g);
      HasNameAppend(Infos(cs[0]), InfosF(cs[1..]), name);
      var (r, found) := UpdateFirstF(cs, name, g);
      if f0 {
        assert r == [c] + cs[1..];
        assert r[1..] == cs[1..];
      } else {
        UpdateFirstFSpec(cs[1..], name, g);
        var (rest, f1) := UpdateFirstF(cs[1..], name, g);
        assert r == [c] + rest;
        assert r[1..] == rest;
        assert c == cs[0];
        if !found {
          assert r == [cs[0]] + cs[1..];
        }
      }
    }
  }

  /** The reference update changes exactly the first label carrying the
      name. */
  lemma {:induction false} UpdateFirstInfoAt(s: seq<Info>, name: string, g: Info -> Info, k: nat)
    requires k < |s| && s[k].name == name
    requires forall j :: 0 <= j < k ==> s[j].name != name
    ensures UpdateFirstInfo(s, name, g) == s[..k] + [g(s[k])] + s[k + 1..]
    decreases k
  {
    if k > 0 {
      UpdateFirstInfoAt(s[1..], name, g, k - 1);
      assert s[1..][..k - 1] == s[1..k] && s[1..][k - 1 + 1..] == s[k + 1..];
      assert s[..k] == [s[0]] + s[1..k];
    }
  }

  /** Updating twice by a rewrite that undoes itself and keeps the name
      gives back the tree (the same node is found both times). */
  lemma {:induction false} UpdateFirstTwice(t: LC, name: string, g: Info -> Info)
    requires forall i :: g(g(i)) == i && g(i).name == i.name
    ensures UpdateFirst(UpdateFirst(t, name, g).0, name, g) == (t, UpdateFirst(t, name, g).1)
    decreases t
  {
    if t.name == name {
      assert g(g(Label(t))) == Label(t);
    } else {
      UpdateFirstFTwice(t.children, name, g);
    }
  }

  lemma {:induction false} UpdateFirstFTwice(cs: seq<LC>, name: string, g: Info -> Info)
    requires forall i :: g(g(i)) == i && g(i).name == i.name
    ensures UpdateFirstF(UpdateFirstF(cs, name, g).0, name, g) == (cs, UpdateFirstF(cs, name, g).1)
    decreases cs
  {
    if cs != [] {
      UpdateFirstTwice(cs[0], name, g);
      var (c, found) := UpdateFirst(cs[0], name, g);
      if found {
        var r := [c] + cs[1..];
        assert r[0] == c && r[1..] == cs[1..];
      } else {
        UpdateFirstFTwice(cs[1..], name, g);
        var rest := UpdateFirstF(cs[1..], name, g).0;
        var r := [c] + rest;
        assert r[0] == c && r[1..] == rest;
      }
      assert cs == [cs[0]] + cs[1..];
    }
  }

  lemma HasNameAppend(a: seq<Info>, b: seq<Info>, name: string)
    ensures HasName(a + b, name) <==> HasName(a, name) || HasName(b, name)
  {
    if HasName(a + b, name) {
      var k :| 0 <= k < |a + b| && (a + b)[k].name == name;
      if k >= |a| { assert b[k - |a|].name == name; }
    }
    if HasName(b, name) {
      var k :| 0 <= k < |b| && b[k].name == name;
      assert (a + b)[k + |a|].name == name;
    }
    if HasName(a, name) {
      var k :| 0 <= k < |a| && a[k].name == name;
      assert (a + b)[k].name == name;
    }
  }

  /** A node carries the name iff the search finds one. */
  lemma FindAgreesWithHasName(t: LC, name: string)
    ensures Find(t, name).Some? <==> HasName(Infos(t), name)
  {
    FindIsFirstInPreorder(t, name);
    ViewsAgree(t, 0);
    if HasName(Infos(t), name) {
      var k :| 0 <= k < |Infos(t)| && Infos(t)[k].name == name;
      assert Nodes(t)[k].name == name;
    }
    if FirstNamed(Nodes(t), name).Some? {
      var k :| 0 <= k < |Nodes(t)| && Nodes(t)[k].name == name;
      assert Infos(t)[k].name == name;
    }
  }

  // ------------------------------------------------------------------
  // The `exclude` setter
  // ------------------------------------------------------------------

  function SetExclude(x: bool): Info -> Info {
    (i: Info) => i.(exclude := x)
  }

  /** Blender's setter of `LayerCollection.exclude`: writing the flag on a
      node writes the same value on every node below it. */
  function ExcludeSubtree(t: LC, x: bool): (r: LC)
    ensures r.name == t.name && r.exclude == x
    ensures Infos(r) == MapInfos(Infos(t), SetExclude(x)) && Arity(r) == Arity(t)
  {
    MapTreeSpec(t, SetExclude(x));
    MapTree(t, SetExclude(x))
  }

  /** A later write of the setter wins over an earlier one. */
  lemma ExcludeSubtreeOverwrite(t: LC, a: bool, b: bool)
    ensures ExcludeSubtree(ExcludeSubtree(t, a), b) == ExcludeSubtree(t, b)
  {
    MapTreeCompose(t, SetExclude(a), SetExclude(b), SetExclude(b));
  }

  /** A rewrite that changes no label occurring in the tree leaves it as it is. */
  lemma {:induction false} MapTreeFixes(t: LC, f: Info -> Info)
    requires forall i :: i in Infos(t) ==> f(i) == i
    ensures MapTree(t, f) == t
    decreases t
  {
    assert Infos(t)[0] == Label(t);
    MapForestFixes(t.children, f);
  }

  lemma {:induction false} MapForestFixes(cs: seq<LC>, f: Info -> Info)
    requires forall i :: i in InfosF(cs) ==> f(i) == i
    ensures MapForest(cs, f) == cs
    decreases cs
  {
    if cs != [] {
      MapTreeFixes(cs[0], f);
      MapForestFixes(cs[1..], f);
      assert cs == [cs[0]] + cs[1..];
    }
  }

  /** Every node of the subtree already carries its root's `exclude`. */
  predicate UniformExclude(t: LC) {
    forall i :: i in Infos(t) ==> i.exclude == t.exclude
  }

  /** Writing a node's own value through the setter changes nothing exactly
      when its subtree is uniform. */
  lemma ExcludeSubtreeSame(t: LC)
    ensures ExcludeSubtree(t, t.exclude) == t <==> UniformExclude(t)
  {
    if UniformExclude(t) {
      MapTreeFixes(t, SetExclude(t.exclude));
    }
    if ExcludeSubtree(t, t.exclude) == t {
      forall i | i in Infos(t) ensures i.exclude == t.exclude {
        var k :| 0 <= k < |Infos(t)| && Infos(t)[k] == i;
        assert Infos(ExcludeSubtree(t, t.exclude))[k] == i.(exclude := t.exclude);
      }
    }
  }

  /** `s` is `pre`, then `mid`, then `post`. */
  predicate Spliced(s: seq<Info>, pre: seq<Info>, mid: seq<Info>, post: seq<Info>) {
    s == pre + mid + post
  }

  /** `after` is `before` with the segment `was` replaced by `now`, where
      no label in front of the segment carries `name`. */
  ghost predicate Replaced(before: seq<Info>, after: seq<Info>, name: string, was: seq<Info>, now: seq<Info>) {
    exists pre, post :: Spliced(before, pre, was, post) && Spliced(after, pre, now, post) && !HasName(pre, name)
  }

  /** When the segment starts with the first label carrying the name, the
      replacement happens at that label's position. */
  lemma ReplacedAt(before: seq<Info>, after: seq<Info>, name: string, was: seq<Info>, now: seq<Info>, k: nat)
    requires Replaced(before, after, name, was, now)
    requires was != [] && was[0].name == name
    requires k < |before| && before[k].name == name && forall i :: 0 <= i < k ==> before[i].name != name
    ensures k + |was| <= |before| && before[k..k + |was|] == was
    ensures after == before[..k] + now + before[k + |was|..]
  {
    var pre, post :| Spliced(before, pre, was, post) && Spliced(after, pre, now, post) && !HasName(pre, name);
    assert before[|pre|] == was[0];
    assert |pre| == k;
    assert before[..k] == pre && before[k..k + |was|] == was && before[k + |was|..] == post;
    assert after == pre + now + post;
  }

  /** A replacement that leaves the sequence as it was put in a segment of
      the same length equal to the one it took out. */
  lemma ReplacedSame(s: seq<Info>, name: string, was: seq<Info>, now: seq<Info>)
    requires Replaced(s, s, name, was, now) && |was| == |now|
    ensures was == now
  {
    var pre, post :| Spliced(s, pre, was, post) && Spliced(s, pre, now, post) && !HasName(pre, name);
    assert was == s[|pre|..|pre| + |was|];
    assert now == s[|pre|..|pre| + |now|];
  }

  lemma ReplacedWhole(was: seq<Info>, now: seq<Info>, name: string)
    ensures Replaced(was, now, name, was, now)
  {
    assert Spliced(was, [], was, []) && Spliced(now, [], now, []);
    assert !HasName([], name);
  }

  /** A prefix without the name, in front of both sides, keeps a replacement. */
  lemma ReplacedPrefix(h: seq<Info>, before: seq<Info>, after: seq<Info>, name: string, was: seq<Info>, now: seq<Info>)
    requires Replaced(before, after, name, was, now) && !HasName(h, name)
    ensures Replaced(h + before, h + after, name, was, now)
  {
    var pre, post :| Spliced(before, pre, was, post) && Spliced(after, pre, now, post) && !HasName(pre, name);
    HasNameAppend(h, pre, name);
    assert h + before == (h + pre) + was + post;
    assert h + after == (h + pre) + now + post;
    assert Spliced(h + before, h + pre, was, post);
  }

  /** A common suffix behind both sides keeps a replacement. */
  lemma ReplacedSuffix(before: seq<Info>, after: seq<Info>, tail: seq<Info>, name: string, was: seq<Info>, now: seq<Info>)
    requires Replaced(before, after, name, was, now)
    ensures Replaced(before + tail, after + tail, name, was, now)
  {
    var pre, post :| Spliced(before, pre, was, post) && Spliced(after, pre, now, post) && !HasName(pre, name);
    assert before + tail == pre + was + (post + tail);
    assert after + tail == pre + now + (post + tail);
    assert Spliced(before + tail, pre, was, post + tail);
  }

  /** The host's setter applied at the first pre-order node named `name`,
      with the value `v` of that node's own flag; the search stops there. */
  function ExcludeFirst(t: LC, name: string, v: bool -> bool): (res: (LC, bool))
    decreases t
  {
    if t.name == name then (ExcludeSubtree(t, v(t.exclude)), true)
    else
      var (cs, found) := ExcludeFirstF(t.children, name, v);
      (Relabel(t, Label(t), cs), found)
  }

  function ExcludeFirstF(cs: seq<LC>, name: string, v: bool -> bool): (res: (seq<LC>, bool))
    ensures |res.0| == |cs|
    decreases cs
  {
    if cs == [] then ([], false)
    else
      var (c, found) := ExcludeFirst(cs[0], name, v);
      if found then ([c] + cs[1..], true)
      else
        var (rest, found') := ExcludeFirstF(cs[1..], name, v);
        ([c] + rest, found')
  }

  /** The search finds a node carrying the name. */
  lemma FindNamed(t: LC, name: string)
    ensures Find(t, name).Some? ==> Find(t, name).value.name == name
  {
    FindIsFirstInPreorder(t, name);
  }

  /** Against the pre-order labels: the first subtree named `name` has all
      its labels rewritten by the setter, everything in front of it and
      behind it is kept, and the shape stays. */
  lemma {:induction false} ExcludeFirstSpec(t: LC, name: string, v: bool -> bool)
    ensures var (r, found) := ExcludeFirst(t, name, v);
      && found == Find(t, name).Some?
      && Arity(r) == Arity(t)
      && (!found ==> r == t)
      && (found ==> var x := Find(t, name).value;
            Replaced(Infos(t), Infos(r), name, Infos(x), MapInfos(Infos(x), SetExclude(v(x.exclude)))))
    decreases t
  {
    var (r, found) := ExcludeFirst(t, name, v);
    if t.name == name {
      ReplacedWhole(Infos(t), Infos(r), name);
    } else {
      ExcludeFirstFSpec(t.children, name, v);
      var cs := ExcludeFirstF(t.children, name, v).0;
      assert Label(r) == Label(t) && r.children == cs;
      if found {
        var x := FindF(t.children, name).value;
        assert !HasName([Label(t)], name);
        ReplacedPrefix([Label(t)], InfosF(t.children), InfosF(cs), name, Infos(x), MapInfos(Infos(x), SetExclude(v(x.exclude))));
      }
    }
  }

  lemma {:induction false} ExcludeFirstFSpec(cs: seq<LC>, name: string, v: bool -> bool)
    ensures var (r, found) := ExcludeFirstF(cs, name, v);
      && found == FindF(cs, name).Some?
      && ArityF(r) == ArityF(cs)
      && (!found ==> r == cs)
      && (found ==> var x := FindF(cs, name).value;
            Replaced(InfosF(cs), InfosF(r), name, Infos(x), MapInfos(Infos(x), SetExclude(v(x.exclude)))))
    decreases cs
  {
    if cs != [] {
      var (c, f0) := ExcludeFirst(cs[0], name, v);
      ExcludeFirstSpec(cs[0], name, v);
      var (r, found) := ExcludeFirstF(cs, name, v);
      if f0 {
        assert r[0] == c && r[1..] == cs[1..];
        var x := Find(cs[0], name).value;
        ReplacedSuffix(Infos(cs[0]), Infos(c), InfosF(cs[1..]), name, Infos(x), MapInfos(Infos(x), SetExclude(v(x.exclude))));
      } else {
        ExcludeFirstFSpec(cs[1..], name, v);
        var rest := ExcludeFirstF(cs[1..], name, v).0;
        assert r[0] == c && r[1..] == rest && c == cs[0];
        if found {
          var x := FindF(cs[1..], name).value;
          FindAgreesWithHasName(cs[0], name);
          ReplacedPrefix(Infos(cs[0]), InfosF(cs[1..]), InfosF(rest), name, Infos(x), MapInfos(Infos(x), SetExclude(v(x.exclude))));
        } else {
          assert r == [cs[0]] + cs[1..];
        }
      }
    }
  }

  /** Two setter writes at the first match are one write with the composed
      value; the search finds the node again. */
  lemma {:induction false} ExcludeFirstTwice(t: LC, name: string, v: bool -> bool, w: bool -> bool, u: bool -> bool)
    requires forall b :: u(b) == w(v(b))
    ensures ExcludeFirst(ExcludeFirst(t, name, v).0, name, w) == (ExcludeFirst(t, name, u).0, ExcludeFirst(t, name, v).1)
    ensures ExcludeFirst(t, name, u).1 == ExcludeFirst(t, name, v).1
    decreases t
  {
    if t.name == name {
      ExcludeSubtreeOverwrite(t, v(t.exclude), w(v(t.exclude)));
    } else {
      ExcludeFirstFTwice(t.children, name, v, w, u);
    }
  }

  lemma {:induction false} ExcludeFirstFTwice(cs: seq<LC>, name: string, v: bool -> bool, w: bool -> bool, u: bool -> bool)
    requires forall b :: u(b) == w(v(b))
    ensures ExcludeFirstF(ExcludeFirstF(cs, name, v).0, name, w) == (ExcludeFirstF(cs, name, u).0, ExcludeFirstF(cs, name, v).1)
    ensures ExcludeFirstF(cs, name, u).1 == ExcludeFirstF(cs, name, v).1
    decreases cs
  {
    if cs != [] {
      ExcludeFirstTwice(cs[0], name, v, w, u);
      var (c, found) := ExcludeFirst(cs[0], name, v);
      if found {
        var r := [c] + cs[1..];
        assert r[0] == c && r[1..] == cs[1..];
      } else {
        ExcludeFirstFTwice(cs[1..], name, v, w, u);
        var rest := ExcludeFirstF(cs[1..], name, v).0;
        var r := [c] + rest;
        assert r[0] == c && r[1..] == rest;
      }
    }
  }

  /** Writing the matched node's own value changes nothing when its subtree
      is uniform. */
  lemma {:induction false} ExcludeFirstKeep(t: LC, name: string, v: bool -> bool)
    requires forall b :: v(b) == b
    requires Find(t, name).Some? ==> UniformExclude(Find(t, name).value)
    ensures ExcludeFirst(t, name, v).0 == t
    decreases t
  {
    if t.name == name {
      ExcludeSubtreeSame(t);
    } else {
      ExcludeFirstFKeep(t.children, name, v);
    }
  }

  lemma {:induction false} ExcludeFirstFKeep(cs: seq<LC>, name: string, v: bool -> bool)
    requires forall b :: v(b) == b
    requires FindF(cs, name).Some? ==> UniformExclude(FindF(cs, name).value)
    ensures ExcludeFirstF(cs, name, v).0 == cs
    decreases cs
  {
    if cs != [] {
      ExcludeFirstSpec(cs[0], name, v);
      if Find(cs[0], name).Some? {
        ExcludeFirstKeep(cs[0], name, v);
      } else {
        ExcludeFirstFKeep(cs[1..], name, v);
      }
      assert cs == [cs[0]] + cs[1..];
    }
  }

  // ------------------------------------------------------------------
  // Pre-order walks that write the setter (the `_walk` helpers)
  // ------------------------------------------------------------------

  /** The host's walk: in pre-order, every node whose name `pick` maps to
      a value is written through the setter, which also overwrites the
      nodes below it that the walk has not reached yet. */
  function SetterWalk(t: LC, pick: string -> Option<bool>): (r: LC)
    decreases |Infos(t)|, 0
  {
    var t1 := if pick(t.name).Some? then ExcludeSubtree(t, pick(t.name).value) else t;
    assert |Infos(t1)| == |Infos(t)|;
    Relabel(t1, Label(t1), SetterWalkF(t1.children, pick))
  }

  function SetterWalkF(cs: seq<LC>, pick: string -> Option<bool>): (r: seq<LC>)
    ensures |r| == |cs|
    decreases |InfosF(cs)|, 1
  {
    if cs == [] then [] else [SetterWalk(cs[0], pick)] + SetterWalkF(cs[1..], pick)
  }

  /** Reference definition: a node ends with the value `pick` gives the
      nearest node on its path from the root, itself included, that has
      one; `inh` is that value from above the tree.  With none, the node
      keeps its flag. */
  function InheritWalk(t: LC, pick: string -> Option<bool>, inh: Option<bool>): LC
    decreases t
  {
    var own := if pick(t.name).Some? then pick(t.name) else inh;
    LC(t.name, if own.Some? then own.value else t.exclude, t.holdout, t.indirect, InheritWalkF(t.children, pick, own))
  }

  function InheritWalkF(cs: seq<LC>, pick: string -> Option<bool>, inh: Option<bool>): (r: seq<LC>)
    ensures |r| == |cs|
    decreases cs
  {
    if cs == [] then [] else [InheritWalk(cs[0], pick, inh)] + InheritWalkF(cs[1..], pick, inh)
  }

  /** The tree as it stands once the setter has written `inh` above it. */
  function Pending(t: LC, inh: Option<bool>): LC {
    if inh.Some? then ExcludeSubtree(t, inh.value) else t
  }

  function PendingF(cs: seq<LC>, inh: Option<bool>): (r: seq<LC>)
    ensures |r| == |cs|
  {
    if inh.Some? then MapForest(cs, SetExclude(inh.value)) else cs
  }

  /** The host's walk, started on a tree a write above has already
      reached, ends where the nearest-ancestor definition says. */
  lemma {:induction false} SetterWalkIsInherit(t: LC, pick: string -> Option<bool>, inh: Option<bool>)
    ensures SetterWalk(Pending(t, inh), pick) == InheritWalk(t, pick, inh)
    decreases t
  {
    var t0 := Pending(t, inh);
    var own := if pick(t.name).Some? then pick(t.name) else inh;
    var t1 := if pick(t0.name).Some? then ExcludeSubtree(t0, pick(t0.name).value) else t0;
    if inh.Some? && pick(t.name).Some? {
      ExcludeSubtreeOverwrite(t, inh.value, own.value);
    }
    assert t1 == Pending(t, own);
    assert t1.children == PendingF(t.children, own);
    SetterWalkFIsInherit(t.children, pick, own);
  }

  lemma {:induction false} SetterWalkFIsInherit(cs: seq<LC>, pick: string -> Option<bool>, inh: Option<bool>)
    ensures SetterWalkF(PendingF(cs, inh), pick) == InheritWalkF(cs, pick, inh)
    decreases cs
  {
    if cs != [] {
      var p := PendingF(cs, inh);
      assert p[0] == Pending(cs[0], inh) && p[1..] == PendingF(cs[1..], inh);
      SetterWalkIsInherit(cs[0], pick, inh);
      SetterWalkFIsInherit(cs[1..], pick, inh);
    }
  }

  /** The host's walk on a whole tree is the nearest-ancestor definition. */
  lemma SetterWalkIsInheritFromRoot(t: LC, pick: string -> Option<bool>)
    ensures SetterWalk(t, pick) == InheritWalk(t, pick, None)
  {
    SetterWalkIsInherit(t, pick, None);
  }

  /** `b` is `a` with only `exclude` changed, and every label whose name
      `pick` maps to a value carries that value. */
  predicate ExcludeOnly(a: seq<Info>, b: seq<Info>, pick: string -> Option<bool>) {
    |a| == |b|
    && forall i :: 0 <= i < |a| ==>
         b[i] == a[i].(exclude := b[i].exclude) && (pick(a[i].name).Some? ==> b[i].exclude == pick(a[i].name).value)
  }

  lemma ExcludeOnlyAppend(a1: seq<Info>, b1: seq<Info>, a2: seq<Info>, b2: seq<Info>, pick: string -> Option<bool>)
    requires ExcludeOnly(a1, b1, pick) && ExcludeOnly(a2, b2, pick)
    ensures ExcludeOnly(a1 + a2, b1 + b2, pick)
  {
    forall i | 0 <= i < |a1 + a2|
      ensures (b1 + b2)[i] == (a1 + a2)[i].(exclude := (b1 + b2)[i].exclude)
      ensures pick((a1 + a2)[i].name).Some? ==> (b1 + b2)[i].exclude == pick((a1 + a2)[i].name).value
    {
      if i < |a1| {
        assert (a1 + a2)[i] == a1[i] && (b1 + b2)[i] == b1[i];
      } else {
        assert (a1 + a2)[i] == a2[i - |a1|] && (b1 + b2)[i] == b2[i - |a1|];
      }
    }
  }

  /** The walk keeps the shape, changes only `exclude`, and gives every
      node with a value of its own that value. */
  lemma {:induction false} InheritWalkSpec(t: LC, pick: string -> Option<bool>, inh: Option<bool>)
    ensures Arity(InheritWalk(t, pick, inh)) == Arity(t)
    ensures ExcludeOnly(Infos(t), Infos(InheritWalk(t, pick, inh)), pick)
    decreases t
  {
    var own := if pick(t.name).Some? then pick(t.name) else inh;
    InheritWalkFSpec(t.children, pick, own);
    var r := InheritWalk(t, pick, inh);
    assert ExcludeOnly([Label(t)], [Label(r)], pick);
    ExcludeOnlyAppend([Label(t)], [Label(r)], InfosF(t.children), InfosF(r.children), pick);
  }

  lemma {:induction false} InheritWalkFSpec(cs: seq<LC>, pick: string -> Option<bool>, inh: Option<bool>)
    ensures ArityF(InheritWalkF(cs, pick, inh)) == ArityF(cs)
    ensures ExcludeOnly(InfosF(cs), InfosF(InheritWalkF(cs, pick, inh)), pick)
    decreases cs
  {
    var r := InheritWalkF(cs, pick, inh);
    if cs == [] {
      assert ExcludeOnly([], [], pick);
    } else {
      assert r[0] == InheritWalk(cs[0], pick, inh) && r[1..] == InheritWalkF(cs[1..], pick, inh);
      InheritWalkSpec(cs[0], pick, inh);
      InheritWalkFSpec(cs[1..], pick, inh);
      ExcludeOnlyAppend(Infos(cs[0]), Infos(r[0]), InfosF(cs[1..]), InfosF(r[1..]), pick);
    }
  }

  /** With no value anywhere and none from above, the walk changes nothing. */
  lemma {:induction false} InheritWalkNone(t: LC, pick: string -> Option<bool>)
    requires forall i :: i in Infos(t) ==> pick(i.name).None?
    ensures InheritWalk(t, pick, None) == t
    decreases t
  {
    assert Infos(t)[0] == Label(t);
    InheritWalkFNone(t.children, pick);
  }

  lemma {:induction false} InheritWalkFNone(cs: seq<LC>, pick: string -> Option<bool>)
    requires forall i :: i in InfosF(cs) ==> pick(i.name).None?
    ensures InheritWalkF(cs, pick, None) == cs
    decreases cs
  {
    if cs != [] {
      InheritWalkNone(cs[0], pick);
      InheritWalkFNone(cs[1..], pick);
      assert cs == [cs[0]] + cs[1..];
    }
  }

  /** A second walk with the same values changes nothing. */
  lemma {:induction false} InheritWalkIdempotent(t: LC, pick: string -> Option<bool>, inh: Option<bool>)
    ensures InheritWalk(InheritWalk(t, pick, inh), pick, inh) == InheritWalk(t, pick, inh)
    decreases t
  {
    var own := if pick(t.name).Some? then pick(t.name) else inh;
    InheritWalkFIdempotent(t.children, pick, own);
  }

  lemma {:induction false} InheritWalkFIdempotent(cs: seq<LC>, pick: string -> Option<bool>, inh: Option<bool>)
    ensures InheritWalkF(InheritWalkF(cs, pick, inh), pick, inh) == InheritWalkF(cs, pick, inh)
    decreases cs
  {
    if cs != [] {
      var r := InheritWalkF(cs, pick, inh);
      assert r[0] == InheritWalk(cs[0], pick, inh) && r[1..] == InheritWalkF(cs[1..], pick, inh);
      InheritWalkIdempotent(cs[0], pick, inh);
      InheritWalkFIdempotent(cs[1..], pick, inh);
    }
  }

  /** When the root has a value and no node below it has one, the walk is
      the setter's write of that value on the whole tree. */
  lemma {:induction false} InheritWalkUnder(t: LC, pick: string -> Option<bool>, x: bool)
    requires pick(t.name) == Some(x)
    requires forall i :: i in InfosF(t.children) ==> pick(i.name).None?
    ensures InheritWalk(t, pick, None) == ExcludeSubtree(t, x)
  {
    InheritWalkFBelow(t.children, pick, x);
  }

  lemma {:induction false} InheritWalkFBelow(cs: seq<LC>, pick: string -> Option<bool>, x: bool)
    requires forall i :: i in InfosF(cs) ==> pick(i.name).None?
    ensures InheritWalkF(cs, pick, Some(x)) == MapForest(cs, SetExclude(x))
    decreases cs
  {
    if cs != [] {
      assert Infos(cs[0])[0] == Label(cs[0]);
      InheritWalkFBelow(cs[0].children, pick, x);
      InheritWalkFBelow(cs[1..], pick, x);
    }
  }

  /** When every node below the root has a value, nothing is inherited:
      the walk is the node-wise rewrite `f` that applies each node's own
      value. */
  lemma {:induction false} InheritWalkNodewise(t: LC, pick: string -> Option<bool>, f: Info -> Info, inh: Option<bool>)
    requires forall i :: f(i) == if pick(i.name).Some? then i.(exclude := pick(i.name).value) else i
    requires pick(t.name).Some? || inh.None?
    requires forall i :: i in InfosF(t.children) ==> pick(i.name).Some?
    ensures InheritWalk(t, pick, inh) == MapTree(t, f)
    decreases t
  {
    var own := if pick(t.name).Some? then pick(t.name) else inh;
    InheritWalkFNodewise(t.children, pick, f, own);
  }

  lemma {:induction false} InheritWalkFNodewise(cs: seq<LC>, pick: string -> Option<bool>, f: Info -> Info, inh: Option<bool>)
    requires forall i :: f(i) == if pick(i.name).Some? then i.(exclude := pick(i.name).value) else i
    requires forall i :: i in InfosF(cs) ==> pick(i.name).Some?
    ensures InheritWalkF(cs, pick, inh) == MapForest(cs, f)
    decreases cs
  {
    if cs != [] {
      assert Infos(cs[0])[0] == Label(cs[0]);
      InheritWalkNodewise(cs[0], pick, f, inh);
      InheritWalkFNodewise(cs[1..], pick, f, inh);
    }
  }
}

=== FILE: lex_order.dfy ===
/** Python's ordering of `str` values (code point by code point, a proper
    prefix first) and `sorted(names)` for a set of names. */
module LexOrder {

  /** `a < b` for Python strings. */
  predicate Less(a: string, b: string)
    decreases |a|
  {
    if a == [] then b != []
    else if b == [] then false
    else if a[0] != b[0] then a[0] < b[0]
    else Less(a[1..], b[1..])
  }

  lemma {:induction false} LessIrreflexive(a: string)
    ensures !Less(a, a)
    decreases |a|
  {
    if a != [] {
      LessIrreflexive(a[1..]);
    }
  }

  lemma {:induction false} LessAsymmetric(a: string, b: string)
    requires Less(a, b)
    ensures !Less(b, a)
    decreases |a|
  {
    if a != [] && b != [] && a[0] == b[0] {
      LessAsymmetric(a[1..], b[1..]);
    }
  }

  lemma {:induction false} LessTransitive(a: string, b: string, c: string)
    requires Less(a, b) && Less(b, c)
    ensures Less(a, c)
    decreases |a|
  {
    if a != [] && a[0] == b[0] && b[0] == c[0] {
      LessTransitive(a[1..], b[1..], c[1..]);
    }
  }

  lemma {:induction false} LessTotal(a: string, b: string)
    requires a != b
    ensures Less(a, b) || Less(b, a)
    decreases |a|
  {
    if a != [] && b != [] && a[0] == b[0] {
      assert a == [a[0]] + a[1..] && b == [b[0]] + b[1..];
      LessTotal(a[1..], b[1..]);
    }
  }

  /** Strictly increasing, hence also free of duplicates. */
  predicate StrictlySorted(s: seq<string>) {
    forall i, j :: 0 <= i < j < |s| ==> Less(s[i], s[j])
  }

  predicate IsMin(m: string, names: set<string>) {
    m in names && forall y :: y in names && y != m ==> Less(m, y)
  }

  /** Every finite non-empty set of names has a least element. */
  lemma {:induction false} MinExists(names: set<string>)
    requires names != {}
    ensures exists m :: IsMin(m, names)
    decreases |names|
  {
    var x :| x in names;
    var rest := names - {x};
    if rest == {} {
      assert names == {x};
      assert IsMin(x, names);
    } else {
      MinExists(rest);
      var m :| IsMin(m, rest);
      if Less(x, m) {
        forall y | y in names && y != x ensures Less(x, y) {
          if y != m { LessTransitive(x, m, y); }
        }
        assert IsMin(x, names);
      } else {
        LessTotal(x, m);
        assert IsMin(m, names);
      }
    }
  }

  /** `sorted(names)` for a set of names. */
  method SortedNames(names: set<string>) returns (r: seq<string>)
    ensures StrictlySorted(r)
    ensures forall x :: x in r <==> x in names
    ensures |r| == |names|
  {
    r := [];
    var rest := names;
    while rest != {}
      invariant rest <= names
      invariant forall x :: x in r <==> x in names && x !in rest
      invariant StrictlySorted(r)
      invariant forall i, y :: 0 <= i < |r| && y in rest ==> Less(r[i], y)
      invariant |r| + |rest| == |names|
      decreases |rest|
    {
      MinExists(rest);
      var m :| IsMin(m, rest);
      r := r + [m];
      rest := rest - {m};
    }
  }

  /** Two strictly sorted lists with the same elements are the same list:
      the result of `sorted` does not depend on how it was computed. */
  lemma {:induction false} SortedUnique(a: seq<string>, b: seq<string>)
    requires StrictlySorted(a) && StrictlySorted(b)
    requires forall x :: x in a <==> x in b
    ensures a == b
    decreases |a|
  {
    assert (a != [] ==> a[0] in b) && (b != [] ==> b[0] in a);
    if a != [] {
      if a[0] != b[0] {
        assert b[0] in a;
        var i :| 0 <= i < |a| && a[i] == b[0];
        assert a[0] in b;
        var j :| 0 <= j < |b| && b[j] == a[0];
        assert i > 0 && j > 0;
        LessAsymmetric(a[0], a[i]);
      }
      forall x ensures x in a[1..] <==> x in b[1..] {
        if x in a[1..] {
          var i :| 1 <= i < |a| && a[i] == x;
          LessIrreflexive(a[0]);
          assert x in b && x != b[0];
        }
        if x in b[1..] {
          var j :| 1 <= j < |b| && b[j] == x;
          LessIrreflexive(b[0]);
          assert x in a && x != a[0];
        }
      }
      SortedUnique(a[1..], b[1..]);
      assert a == [a[0]] + a[1..] && b == [b[0]] + b[1..];
    }
  }
}

=== FILE: lights.dfy ===
/** Memorising the lights' visibility in a view layer and re-applying it
    when that layer is shown or rendered. */
module Lights {
  import opened Base
  import opened Scene

  predicate IsLightAt(objs: seq<Obj>, i: int) {
    0 <= i < |objs| && objs[i].kind == Light
  }

  /** The dictionary built from every light object, keyed by name, one entry
      per light made by `f` (a later object of the same name overwrites an
      earlier one, as assignment into a dict does). */
  function Snapshot(objs: seq<Obj>, f: Obj -> LightRecord): (d: map<string, LightRecord>)
    ensures forall n :: n in d <==> exists i :: IsLightAt(objs, i) && objs[i].name == n
    decreases |objs|
  {
    if objs == [] then map[]
    else
      var init := objs[..|objs| - 1];
      var o := objs[|objs| - 1];
      var d0 := Snapshot(init, f);
      assert forall i :: IsLightAt(init, i) ==> IsLightAt(objs, i);
      if o.kind == Light then d0[o.name := f(o)] else d0
  }

  /** With unique names, each light's entry is the record made from it. */
  lemma {:induction false} SnapshotLookup(objs: seq<Obj>, f: Obj -> LightRecord, i: nat)
    requires UniqueNames(objs) && IsLightAt(objs, i)
    ensures objs[i].name in Snapshot(objs, f)
    ensures Snapshot(objs, f)[objs[i].name] == f(objs[i])
    decreases |objs|
  {
    var init := objs[..|objs| - 1];
    if i < |objs| - 1 {
      assert UniqueNames(init) && IsLightAt(init, i) && init[i] == objs[i];
      SnapshotLookup(init, f, i);
    }
  }

  /** The entry the source writes: `hide_viewport` and `hide_render`. */
  function RecordAsWritten(o: Obj): LightRecord {
    LightRecord(Some(o.hideViewport), Some(o.hideRender))
  }

  /** The entry that makes re-applying restore what was memorised: the eye
      state that applying writes back with `hide_set`. */
  function RecordVisible(o: Obj): LightRecord {
    LightRecord(Some(o.hidden), Some(o.hideRender))
  }

  /** The memorise operator as written: stores one record of
      (`hide_viewport`, `hide_render`) per light of the file on the current
      view layer; nothing else of the layer changes. */
  function MemorizeLights(vl: ViewLayer, objs: seq<Obj>): (r: ViewLayer)
    ensures r == vl.(lightState := r.lightState)
    ensures r.lightState.Some?
    ensures forall n :: n in r.lightState.value <==> exists i :: IsLightAt(objs, i) && objs[i].name == n
  {
    vl.(lightState := Some(Snapshot(objs, RecordAsWritten)))
  }

  /** The memorise operator recording the eye state instead. */
  function MemorizeLightsVisible(vl: ViewLayer, objs: seq<Obj>): (r: ViewLayer)
    ensures r == vl.(lightState := r.lightState)
    ensures r.lightState.Some?
    ensures forall n :: n in r.lightState.value <==> exists i :: IsLightAt(objs, i) && objs[i].name == n
  {
    vl.(lightState := Some(Snapshot(objs, RecordVisible)))
  }

  /** Reading the stored dictionary: an empty stored string reads as `{}`. */
  function StoredState(raw: Option<map<string, LightRecord>>): (d: map<string, LightRecord>)
    ensures raw.None? ==> d == map[]
    ensures raw.Some? ==> d == raw.value
  {
    raw.GetOr(map[])
  }

  /** `(hide_render, eye hidden)` for a light given its entry, if any. An
      entry with no fields is an empty dict, which is falsy and counts as
      no entry. */
  function Resolve(rec: Option<LightRecord>): (r: (bool, bool))
    ensures r.0 ==> r.1
    ensures rec.None? || rec.value == LightRecord(None, None) ==> r == (false, false)
    ensures rec.Some? && rec.value.hideRender == Some(true) ==> r == (true, true)
    ensures rec.Some? && rec.value.hideRender != Some(true) ==> !r.0 && (r.1 <==> rec.value.hideViewport == Some(true))
  {
    if rec.Some? && rec.value != LightRecord(None, None) then
      var rnd := rec.value.hideRender.GetOr(false);
      var vp := rec.value.hideViewport.GetOr(false);
      (rnd, rnd || vp)
    else (false, false)
  }

  function ApplyOne(o: Obj, inLayer: set<string>, state: map<string, LightRecord>): Obj {
    if o.kind != Light || o.name !in inLayer then o
    else
      var hs := Resolve(if o.name in state then Some(state[o.name]) else None);
      o.(hideRender := hs.0, hidden := hs.1)
  }

  /** `apply_lights_for_viewlayer`: every light present in the layer
      (`inLayer` is the host's `vl.objects`) gets its memorised
      `hide_render` and eye state; other objects are left alone. */
  function ApplyLights(objs: seq<Obj>, inLayer: set<string>, state: map<string, LightRecord>): (r: seq<Obj>)
    ensures |r| == |objs|
    ensures forall i :: 0 <= i < |r| ==> r[i] == objs[i].(hideRender := r[i].hideRender, hidden := r[i].hidden)
    ensures forall i :: 0 <= i < |r| && (objs[i].kind != Light || objs[i].name !in inLayer) ==> r[i] == objs[i]
    ensures forall i :: IsLightAt(objs, i) && objs[i].name in inLayer ==> (r[i].hideRender ==> r[i].hidden)
    ensures forall i :: IsLightAt(objs, i) && objs[i].name in inLayer && objs[i].name !in state ==>
      !r[i].hideRender && !r[i].hidden
    ensures forall i :: IsLightAt(objs, i) && objs[i].name in inLayer && objs[i].name in state ==>
      (r[i].hideRender, r[i].hidden) == Resolve(Some(state[objs[i].name]))
  {
    seq(|objs|, i requires 0 <= i < |objs| => ApplyOne(objs[i], inLayer, state))
  }

  /** The apply operator and the render-time call for one view layer. */
  function ApplyLightsForViewLayer(vl: ViewLayer, objs: seq<Obj>, inLayer: set<string>): (r: seq<Obj>)
    ensures |r| == |objs|
    ensures vl.lightState.None? ==> forall i :: IsLightAt(objs, i) && objs[i].name in inLayer ==>
      !r[i].hideRender && !r[i].hidden
    ensures forall i :: 0 <= i < |r| && (objs[i].kind != Light || objs[i].name !in inLayer) ==> r[i] == objs[i]
    ensures vl.lightState.Some? ==> forall i :: IsLightAt(objs, i) && objs[i].name in inLayer ==>
      var entry := if objs[i].name in vl.lightState.value then Some(vl.lightState.value[objs[i].name]) else None;
      r[i] == objs[i].(hideRender := Resolve(entry).0, hidden := Resolve(entry).1)
  {
    ApplyLights(objs, inLayer, StoredState(vl.lightState))
  }

  /** Applying is idempotent: it depends on the stored entries only. */
  lemma ApplyLightsIdempotent(objs: seq<Obj>, inLayer: set<string>, state: map<string, LightRecord>)
    ensures ApplyLights(ApplyLights(objs, inLayer, state), inLayer, state) == ApplyLights(objs, inLayer, state)
  {
  }

  /** As written, memorising and then applying can show a light that was
      hidden: a light whose eye is closed but whose `hide_viewport` is off
      is recorded as visible and re-applied as visible. */
  lemma MemorizeApplyLosesHiddenLight(vl: ViewLayer)
    ensures var objs := [Obj("Light", Light, [], [], None, false, false, true)];
            var r := ApplyLightsForViewLayer(MemorizeLights(vl, objs), objs, {"Light"});
            objs[0].hidden && !r[0].hidden
  {
    var objs := [Obj("Light", Light, [], [], None, false, false, true)];
    assert IsLightAt(objs, 0);
    SnapshotLookup(objs, RecordAsWritten, 0);
  }

  /** With the eye state recorded, memorising then applying restores every
      light of the layer, except that a light excluded from rendering is
      also hidden in the viewport; nothing else changes. */
  lemma {:induction false} MemorizeVisibleRoundTrip(vl: ViewLayer, objs: seq<Obj>, inLayer: set<string>)
    requires UniqueNames(objs)
    ensures var r := ApplyLightsForViewLayer(MemorizeLightsVisible(vl, objs), objs, inLayer);
            |r| == |objs| &&
            forall i :: 0 <= i < |objs| ==>
              r[i] == if objs[i].kind == Light && objs[i].name in inLayer
                      then objs[i].(hidden := objs[i].hidden || objs[i].hideRender)
                      else objs[i]
  {
    var st := Snapshot(objs, RecordVisible);
    forall i | IsLightAt(objs, i) && objs[i].name in inLayer
      ensures ApplyOne(objs[i], inLayer, st) == objs[i].(hidden := objs[i].hidden || objs[i].hideRender)
    {
      SnapshotLookup(objs, RecordVisible, i);
    }
  }
}

=== FILE: materials.dfy ===
/** Per-view-layer material overrides: the slot backup every mesh keeps,
    restoring from it, and re-applying the collection overrides recorded
    for a view layer. Materials are identified by name; an empty slot is
    `None`. Visibility in a view layer (`visible_get`) is computed by the
    host and passed in as the set of visible object names. */
module Materials {
  import opened Base
  import opened Scene
  import opened LayerTree
  import Names
  import Lights

  /** Every one of `n` slots set to material `m`. */
  function Fill(n: nat, m: string): (r: seq<Option<string>>)
    ensures |r| == n && forall i :: 0 <= i < n ==> r[i] == Some(m)
  {
    seq(n, _ => Some(m))
  }

  /** Two objects that differ at most in which materials their slots hold. */
  predicate SameButSlots(a: Obj, b: Obj) {
    b == a.(slots := b.slots) && |b.slots| == |a.slots|
  }

  // ---------------------------------------------------------------------
  // Backup

  function BackupOne(o: Obj): Obj {
    if o.kind != Mesh || o.backup != [] then o
    else o.(backup := o.slots, legacy := Some(""))
  }

  /** A mesh is backed up when it has a pointer backup, or has no slots at
      all and carries the compatibility flag. */
  predicate BackedUpObj(o: Obj) {
    o.kind == Mesh ==> o.backup != [] || (o.slots == [] && o.legacy == Some(""))
  }

  predicate BackedUp(objs: seq<Obj>) {
    forall i :: 0 <= i < |objs| ==> BackedUpObj(objs[i])
  }

  /** `backup_all_materials`: a mesh without a pointer backup gets one
      holding its current slot materials in order, and the legacy key is set
      to the empty string; every other object is left alone. */
  function BackupAll(objs: seq<Obj>): (r: seq<Obj>)
    ensures |r| == |objs|
    ensures forall i :: 0 <= i < |objs| && (objs[i].kind != Mesh || objs[i].backup != []) ==> r[i] == objs[i]
    ensures forall i :: 0 <= i < |objs| && objs[i].kind == Mesh && objs[i].backup == [] ==>
      r[i].backup == objs[i].slots && r[i].legacy == Some("") && r[i] == objs[i].(backup := r[i].backup, legacy := r[i].legacy)
    ensures BackedUp(r)
  {
    seq(|objs|, i requires 0 <= i < |objs| => BackupOne(objs[i]))
  }

  /** Backing up objects that are all backed up changes nothing; in
      particular a second `backup_all_materials` is a no-op. */
  lemma BackupAllNoOp(objs: seq<Obj>)
    requires BackedUp(objs)
    ensures BackupAll(objs) == objs
  {
    forall i | 0 <= i < |objs| ensures BackupOne(objs[i]) == objs[i] {
      assert BackedUpObj(objs[i]);
    }
  }

  lemma BackupAllIdempotent(objs: seq<Obj>)
    ensures BackupAll(BackupAll(objs)) == BackupAll(objs)
  {
    BackupAllNoOp(BackupAll(objs));
  }

  // ---------------------------------------------------------------------
  // Restore

  /** Slot `i` takes backup item `i` for `i < min(|backup|, |slots|)`. */
  function RestoreSlots(slots: seq<Option<string>>, backup: seq<Option<string>>): (r: seq<Option<string>>)
    ensures |r| == |slots|
    ensures forall i :: 0 <= i < |slots| && i < |backup| ==> r[i] == backup[i]
    ensures forall i :: |backup| <= i < |slots| ==> r[i] == slots[i]
  {
    seq(|slots|, i requires 0 <= i < |slots| => if i < |backup| then backup[i] else slots[i])
  }

  /** `bpy.data.materials.get(name) if name else None`. */
  function LegacySlot(name: string, mats: set<string>): (r: Option<string>)
    ensures r.Some? <==> name != "" && name in mats
    ensures r.Some? ==> r.value == name
  {
    if name == "" then None else if name in mats then Some(name) else None
  }

  /** The legacy restore: slot `i` takes the material named by item `i`
      of the stored list, for `i` below both lengths. */
  function RestoreFromNames(slots: seq<Option<string>>, names: seq<string>, mats: set<string>): (r: seq<Option<string>>)
    ensures |r| == |slots|
    ensures forall i :: 0 <= i < |slots| && i < |names| ==> r[i] == LegacySlot(names[i], mats)
    ensures forall i :: |names| <= i < |slots| ==> r[i] == slots[i]
  {
    seq(|slots|, i requires 0 <= i < |slots| => if i < |names| then LegacySlot(names[i], mats) else slots[i])
  }

  /** Restoring one mesh: from the pointer backup when there is one, else
      from the legacy comma-separated name list when the key exists. */
  function RestoreObj(o: Obj, mats: set<string>): (r: Obj)
    ensures SameButSlots(o, r)
    ensures o.backup != [] ==> r.slots == RestoreSlots(o.slots, o.backup)
    ensures o.backup == [] && o.legacy.Some? ==> r.slots == RestoreFromNames(o.slots, Split(o.legacy.value, ','), mats)
    ensures o.backup == [] && o.legacy.None? ==> r == o
  {
    if o.backup != [] then o.(slots := RestoreSlots(o.slots, o.backup))
    else if o.legacy.Some? then o.(slots := RestoreFromNames(o.slots, Split(o.legacy.value, ','), mats))
    else o
  }

  lemma RestoreObjIdempotent(o: Obj, mats: set<string>)
    ensures RestoreObj(RestoreObj(o, mats), mats) == RestoreObj(o, mats)
  {
  }

  /** The legacy format round-trips: a key holding the slot materials'
      names joined by commas restores exactly those materials. */
  lemma LegacyRestoreRoundTrip(o: Obj, names: seq<string>, mats: set<string>)
    requires o.backup == [] && |names| == |o.slots| >= 1
    requires o.legacy == Some(JoinWith(names, ','))
    requires forall i :: 0 <= i < |names| ==> names[i] != "" && ',' !in names[i] && names[i] in mats
    ensures |RestoreObj(o, mats).slots| == |names|
    ensures forall i :: 0 <= i < |names| ==> RestoreObj(o, mats).slots[i] == Some(names[i])
  {
    SplitJoin(names, ',');
  }

  /** `restore_all_materials`: every mesh's slots are restored from its
      pointer backup (an empty backup leaves the slots as they are). */
  function RestoreAll(objs: seq<Obj>): (r: seq<Obj>)
    ensures |r| == |objs|
    ensures forall i :: 0 <= i < |objs| ==> SameButSlots(objs[i], r[i])
    ensures forall i :: 0 <= i < |objs| && objs[i].kind != Mesh ==> r[i] == objs[i]
    ensures forall i :: 0 <= i < |objs| && objs[i].kind == Mesh ==> r[i].slots == RestoreSlots(objs[i].slots, objs[i].backup)
  {
    seq(|objs|, i requires 0 <= i < |objs| =>
      if objs[i].kind == Mesh then objs[i].(slots := RestoreSlots(objs[i].slots, objs[i].backup)) else objs[i])
  }

  /** Backing up objects that had no backup and then restoring gives back
      the slots they had; already backed-up meshes get their old backup. */
  lemma BackupThenRestoreAll(objs: seq<Obj>)
    ensures forall i :: 0 <= i < |objs| && objs[i].backup == [] ==>
      RestoreAll(BackupAll(objs))[i].slots == objs[i].slots
    ensures forall i :: 0 <= i < |objs| && objs[i].kind == Mesh && objs[i].backup != [] ==>
      RestoreAll(BackupAll(objs))[i].slots == RestoreSlots(objs[i].slots, objs[i].backup)
  {
  }

  /** What `_restore_viewlayer_materials` does to one object. */
  function RestoreIfVisible(o: Obj, visible: set<string>, mats: set<string>): Obj {
    if o.kind == Mesh && o.name in visible then RestoreObj(o, mats) else o
  }

  /** A mesh that was just restored, then backed up, rolls back to itself:
      a second restore after a backup changes nothing. */
  lemma RestoreBackupRestore(o: Obj, visible: set<string>, mats: set<string>)
    ensures var x := RestoreIfVisible(o, visible, mats);
      RestoreIfVisible(BackupOne(x), visible, mats) == BackupOne(x)
  {
    var x := RestoreIfVisible(o, visible, mats);
    if o.kind == Mesh && o.name in visible {
      RestoreObjIdempotent(o, mats);
      if x.backup == [] {
        if x.slots == [] {
          assert RestoreFromNames([], Split("", ','), mats) == [];
        } else {
          assert RestoreSlots(x.slots, x.slots) == x.slots;
        }
      }
    }
  }

  /** `_restore_viewlayer_materials`: every mesh visible in the layer is
      restored; other objects are left alone. */
  function RestoreViewLayer(objs: seq<Obj>, visible: set<string>, mats: set<string>): (r: seq<Obj>)
    ensures |r| == |objs|
    ensures forall i :: 0 <= i < |objs| ==> SameButSlots(objs[i], r[i])
    ensures forall i :: 0 <= i < |objs| && objs[i].kind == Mesh && objs[i].name in visible ==> r[i] == RestoreObj(objs[i], mats)
    ensures forall i :: 0 <= i < |objs| && (objs[i].kind != Mesh || objs[i].name !in visible) ==> r[i] == objs[i]
    ensures BackedUp(objs) ==> BackedUp(r)
  {
    seq(|objs|, i requires 0 <= i < |objs| => RestoreIfVisible(objs[i], visible, mats))
  }

  /** `_restore_collection_materials`: as for the view layer, but only for
      the collection's objects, nested collections included. */
  function RestoreCollection(objs: seq<Obj>, col: Coll, visible: set<string>, mats: set<string>): (r: seq<Obj>)
    ensures |r| == |objs|
    ensures forall i :: 0 <= i < |objs| ==> SameButSlots(objs[i], r[i])
    ensures forall i :: 0 <= i < |objs| && objs[i].kind == Mesh && objs[i].name in visible && objs[i].name in col.allObjects ==>
      r[i] == RestoreObj(objs[i], mats)
    ensures forall i :: 0 <= i < |objs| && objs[i].name !in col.allObjects ==> r[i] == objs[i]
  {
    seq(|objs|, i requires 0 <= i < |objs| =>
      if objs[i].kind == Mesh && objs[i].name in visible && objs[i].name in col.allObjects
      then RestoreObj(objs[i], mats) else objs[i])
  }

  // ---------------------------------------------------------------------
  // Overrides

  /** Whether `_set_collection_material(col, m, …)` rewrites the object. */
  predicate Affects(o: Obj, col: Coll, m: string, mats: set<string>, visible: set<string>) {
    m in mats && o.kind == Mesh && o.name in visible && o.name in col.objects
  }

  /** `_set_collection_material`: when the material exists, every slot of
      each visible mesh directly in the collection gets it; nothing else
      changes. */
  function SetCollectionMaterial(objs: seq<Obj>, col: Coll, m: string, mats: set<string>, visible: set<string>): (r: seq<Obj>)
    ensures |r| == |objs|
    ensures m !in mats ==> r == objs
    ensures forall i :: 0 <= i < |objs| && Affects(objs[i], col, m, mats, visible) ==>
      r[i] == objs[i].(slots := Fill(|objs[i].slots|, m))
    ensures forall i :: 0 <= i < |objs| && !Affects(objs[i], col, m, mats, visible) ==> r[i] == objs[i]
  {
    seq(|objs|, i requires 0 <= i < |objs| =>
      if Affects(objs[i], col, m, mats, visible) then objs[i].(slots := Fill(|objs[i].slots|, m)) else objs[i])
  }

  /** The material a layer collection's override assigns to objects of the
      given name and kind, if it applies to them. */
  function StepMaterial(name: string, kind: ObjKind, colls: map<string, Coll>, mats: set<string>,
                        layer: string, lc: LC, visible: set<string>): Option<string>
  {
    var key := Names.OverrideKey(layer, lc.name);
    if lc.name in colls && key in colls[lc.name].props
       && colls[lc.name].props[key] in mats && kind == Mesh && name in visible && name in colls[lc.name].objects
    then Some(colls[lc.name].props[key])
    else None
  }

  /** One iteration of the override walk: a collection carrying the
      layer's key has its material applied. */
  function OverrideStep(objs: seq<Obj>, colls: map<string, Coll>, mats: set<string>,
                        layer: string, lc: LC, visible: set<string>): seq<Obj>
  {
    var key := Names.OverrideKey(layer, lc.name);
    if lc.name in colls && key in colls[lc.name].props
    then SetCollectionMaterial(objs, colls[lc.name], colls[lc.name].props[key], mats, visible)
    else objs
  }

  function OverrideWalk(objs: seq<Obj>, colls: map<string, Coll>, mats: set<string>,
                        layer: string, lcs: seq<LC>, visible: set<string>): seq<Obj>
    decreases |lcs|
  {
    if lcs == [] then objs
    else OverrideWalk(OverrideStep(objs, colls, mats, layer, lcs[0], visible), colls, mats, layer, lcs[1..], visible)
  }

  /** The material the last applicable collection of the walk assigns. */
  function LastOverride(name: string, kind: ObjKind, colls: map<string, Coll>, mats: set<string>,
                        layer: string, lcs: seq<LC>, visible: set<string>): (r: Option<string>)
    ensures kind != Mesh || name !in visible ==> r.None?
    ensures r.Some? ==> r.value in mats && exists j :: 0 <= j < |lcs| && StepMaterial(name, kind, colls, mats, layer, lcs[j], visible) == r
    decreases |lcs|
  {
    if lcs == [] then None
    else
      var later := LastOverride(name, kind, colls, mats, layer, lcs[1..], visible);
      if later.Some? then later else StepMaterial(name, kind, colls, mats, layer, lcs[0], visible)
  }

  function Overridden(o: Obj, m: Option<string>): Obj {
    if m.None? then o else o.(slots := Fill(|o.slots|, m.value))
  }

  /** The walk acts object by object: each object ends with all its slots
      set to the material of the last collection that applies to it, or
      untouched when none does. */
  lemma {:induction false} OverrideWalkObjectwise(objs: seq<Obj>, colls: map<string, Coll>, mats: set<string>,
                                                  layer: string, lcs: seq<LC>, visible: set<string>)
    ensures |OverrideWalk(objs, colls, mats, layer, lcs, visible)| == |objs|
    ensures forall i :: 0 <= i < |objs| ==>
      OverrideWalk(objs, colls, mats, layer, lcs, visible)[i]
        == Overridden(objs[i], LastOverride(objs[i].name, objs[i].kind, colls, mats, layer, lcs, visible))
    decreases |lcs|
  {
    if lcs != [] {
      var next := OverrideStep(objs, colls, mats, layer, lcs[0], visible);
      assert |next| == |objs|;
      assert forall i :: 0 <= i < |objs| ==>
        next[i] == Overridden(objs[i], StepMaterial(objs[i].name, objs[i].kind, colls, mats, layer, lcs[0], visible));
      OverrideWalkObjectwise(next, colls, mats, layer, lcs[1..], visible);
    }
  }

  /** `_apply_overrides_for_viewlayer`: nothing on the top layer; on any
      other layer, the descendants of its root collection are walked in
      pre-order and every collection carrying this layer's key has its
      material applied. Only the slots of visible meshes change. */
  function ApplyOverridesForViewLayer(objs: seq<Obj>, colls: map<string, Coll>, mats: set<string>,
                                      layer: string, topName: string, tree: LC, visible: set<string>): (r: seq<Obj>)
    ensures |r| == |objs|
    ensures layer == topName ==> r == objs
    ensures forall i :: 0 <= i < |objs| ==> SameButSlots(objs[i], r[i])
    ensures forall i :: 0 <= i < |objs| && (objs[i].kind != Mesh || objs[i].name !in visible) ==> r[i] == objs[i]
    ensures layer != topName ==> forall i :: 0 <= i < |objs| ==>
      r[i] == Overridden(objs[i], LastOverride(objs[i].name, objs[i].kind, colls, mats, layer, Descendants(tree), visible))
  {
    if layer == topName then objs
    else
      OverrideWalkObjectwise(objs, colls, mats, layer, Descendants(tree), visible);
      OverrideWalk(objs, colls, mats, layer, Descendants(tree), visible)
  }

  /** One object after the selective override: backed up if it had no
      backup, rolled back to its backup when it is a visible mesh, then, on
      a layer other than the top one, given the material of the last
      descendant collection whose override applies to it. */
  function SelectiveObj(o: Obj, colls: map<string, Coll>, mats: set<string>,
                        layer: string, topName: string, tree: LC, visible: set<string>): Obj
  {
    var rolled := RestoreIfVisible(BackupOne(o), visible, mats);
    if layer == topName then rolled
    else Overridden(rolled, LastOverride(o.name, o.kind, colls, mats, layer, Descendants(tree), visible))
  }

  /** `_apply_selective_material_overrides`: back up what has no backup,
      roll the visible meshes back to their backup, then re-apply the
      layer's overrides. */
  function ApplySelective(objs: seq<Obj>, colls: map<string, Coll>, mats: set<string>,
                          layer: string, topName: string, tree: LC, visible: set<string>): (r: seq<Obj>)
    ensures |r| == |objs|
    ensures BackedUp(r)
    ensures forall i :: 0 <= i < |objs| ==> SameButSlots(BackupAll(objs)[i], r[i])
    ensures forall i :: 0 <= i < |objs| ==> r[i] == SelectiveObj(objs[i], colls, mats, layer, topName, tree, visible)
  {
    var b := BackupAll(objs);
    var r := ApplyOverridesForViewLayer(RestoreViewLayer(b, visible, mats), colls, mats, layer, topName, tree, visible);
    assert forall i :: 0 <= i < |r| ==> BackedUpObj(r[i]) by {
      forall i | 0 <= i < |r| ensures BackedUpObj(r[i]) {
        assert BackedUpObj(b[i]);
      }
    }
    r
  }

  /** On the top layer the selective override shows every visible mesh's
      backup: a mesh that had one gets its slots from it, and one that had
      none keeps its slots. No override material is applied there. */
  lemma SelectiveOnTopShowsBackup(objs: seq<Obj>, colls: map<string, Coll>, mats: set<string>,
                                  topName: string, tree: LC, visible: set<string>)
    ensures var r := ApplySelective(objs, colls, mats, topName, topName, tree, visible);
      forall i :: 0 <= i < |objs| && objs[i].kind == Mesh ==>
        r[i].slots == if objs[i].name in visible && objs[i].backup != [] then RestoreSlots(objs[i].slots, objs[i].backup)
                      else objs[i].slots
  {
    var r := ApplySelective(objs, colls, mats, topName, topName, tree, visible);
    forall i | 0 <= i < |objs| && objs[i].kind == Mesh && objs[i].backup == [] && objs[i].name in visible
      ensures r[i].slots == objs[i].slots
    {
      assert RestoreSlots(objs[i].slots, objs[i].slots) == objs[i].slots;
    }
  }

  /** Running the selective override twice gives the same objects as
      running it once. */
  lemma {:induction false} ApplySelectiveIdempotent(objs: seq<Obj>, colls: map<string, Coll>, mats: set<string>,
                                                    layer: string, topName: string, tree: LC, visible: set<string>)
    ensures var once := ApplySelective(objs, colls, mats, layer, topName, tree, visible);
            ApplySelective(once, colls, mats, layer, topName, tree, visible) == once
  {
    var b := BackupAll(objs);
    var rv := RestoreViewLayer(b, visible, mats);
    var y := ApplySelective(objs, colls, mats, layer, topName, tree, visible);
    BackupAllNoOp(y);
    var rv2 := RestoreViewLayer(y, visible, mats);
    var z := ApplyOverridesForViewLayer(rv2, colls, mats, layer, topName, tree, visible);
    assert ApplySelective(y, colls, mats, layer, topName, tree, visible) == z;
    if layer != topName {
      var lcs := Descendants(tree);
      OverrideWalkObjectwise(rv, colls, mats, layer, lcs, visible);
      OverrideWalkObjectwise(rv2, colls, mats, layer, lcs, visible);
      forall i | 0 <= i < |y| ensures z[i] == y[i] {
        var t := LastOverride(rv[i].name, rv[i].kind, colls, mats, layer, lcs, visible);
        assert y[i] == Overridden(rv[i], t);
        assert rv2[i].name == rv[i].name && rv2[i].kind == rv[i].kind;
        assert z[i] == Overridden(rv2[i], t);
        if rv[i].kind == Mesh && rv[i].name in visible {
          RestoreObjIdempotent(b[i], mats);
        }
      }
    } else {
      forall i | 0 <= i < |y| ensures z[i] == y[i] {
        if b[i].kind == Mesh && b[i].name in visible {
          RestoreObjIdempotent(b[i], mats);
        }
      }
    }
  }

  // ---------------------------------------------------------------------
  // Backup operators

  /** `force_create_initial_backup`: deletes the legacy key of every mesh,
      then backs up. Pointer backups are not cleared, so a mesh that had one
      keeps it (and is left without a legacy key). */
  function ForceCreateInitialBackup(objs: seq<Obj>): (r: seq<Obj>)
    ensures |r| == |objs|
    ensures forall i :: 0 <= i < |objs| && objs[i].kind != Mesh ==> r[i] == objs[i]
    ensures forall i :: 0 <= i < |objs| && objs[i].kind == Mesh && objs[i].backup != [] ==>
      r[i] == objs[i].(legacy := None)
    ensures forall i :: 0 <= i < |objs| && objs[i].kind == Mesh && objs[i].backup == [] ==>
      r[i] == objs[i].(backup := objs[i].slots, legacy := Some(""))
    ensures BackedUp(r)
  {
    BackupAll(seq(|objs|, i requires 0 <= i < |objs| =>
      if objs[i].kind == Mesh then objs[i].(legacy := None) else objs[i]))
  }

  /** The "save current look" and "material backup" operators: every
      mesh's backups are cleared and re-made, so each mesh's backup becomes
      its current slots. */
  function BackupCurrent(objs: seq<Obj>): (r: seq<Obj>)
    ensures |r| == |objs|
    ensures forall i :: 0 <= i < |objs| && objs[i].kind != Mesh ==> r[i] == objs[i]
    ensures forall i :: 0 <= i < |objs| && objs[i].kind == Mesh ==>
      r[i] == objs[i].(backup := objs[i].slots, legacy := Some(""))
  {
    BackupAll(seq(|objs|, i requires 0 <= i < |objs| =>
      if objs[i].kind == Mesh then objs[i].(backup := [], legacy := None) else objs[i]))
  }

  /** After the forced backup, restoring every mesh gives a mesh that had
      no pointer backup its slots back, and one that had a pointer backup
      that backup, as before; no stale legacy name list is left behind. */
  lemma ForceBackupThenRestore(objs: seq<Obj>)
    ensures var f := ForceCreateInitialBackup(objs);
      forall i :: 0 <= i < |objs| && objs[i].kind == Mesh ==>
        && RestoreAll(f)[i].slots == (if objs[i].backup == [] then objs[i].slots else RestoreSlots(objs[i].slots, objs[i].backup))
        && (f[i].legacy.None? || f[i].legacy == Some(""))
  {
    var f := ForceCreateInitialBackup(objs);
    forall i | 0 <= i < |objs| && objs[i].kind == Mesh && objs[i].backup == []
      ensures RestoreAll(f)[i].slots == objs[i].slots
    {
      assert f[i].backup == objs[i].slots;
      assert RestoreSlots(objs[i].slots, objs[i].slots) == objs[i].slots;
    }
  }

  /** Restoring every mesh right after saving the current look changes no
      slot. */
  lemma BackupCurrentThenRestore(objs: seq<Obj>)
    ensures RestoreAll(BackupCurrent(objs)) == BackupCurrent(objs)
    ensures forall i :: 0 <= i < |objs| ==> RestoreAll(BackupCurrent(objs))[i].slots == objs[i].slots
  {
    var b := BackupCurrent(objs);
    forall i | 0 <= i < |objs| ensures RestoreAll(b)[i] == b[i] {
      if objs[i].kind == Mesh {
        assert RestoreSlots(b[i].slots, b[i].backup) == b[i].slots;
      }
    }
  }

  /** Names of the collections in a view layer's tree, root included. */
  function TreeCollections(tree: LC): (r: set<string>)
    ensures forall x :: x in Nodes(tree) ==> x.name in r
    ensures forall n :: n in r ==> exists x :: x in Nodes(tree) && x.name == n
  {
    set x | x in Nodes(tree) :: x.name
  }

  /** Collections of the tree that carry an override for the layer. */
  function OverriddenCollections(colls: map<string, Coll>, layer: string, tree: LC): (r: set<string>)
    ensures forall n :: n in r <==> n in TreeCollections(tree) && n in colls && Names.OverrideKey(layer, n) in colls[n].props
  {
    set n | n in TreeCollections(tree) && n in colls && Names.OverrideKey(layer, n) in colls[n].props
  }

  predicate InOverridden(o: Obj, colls: map<string, Coll>, over: set<string>) {
    exists n :: n in over && n in colls && o.name in colls[n].objects
  }

  function PlanOne(o: Obj, colls: map<string, Coll>, over: set<string>): Obj {
    if o.kind != Mesh then o
    else if InOverridden(o, colls, over) && o.backup != [] then o.(legacy := Some(""))
    else o.(backup := o.slots, legacy := Some(""))
  }

  /** The "save base state" operator: a mesh in a collection overridden on
      this layer that already has a backup keeps it; every other mesh is
      backed up from its current slots. The flag reports whether some
      overridden mesh had no backup to keep. No slot changes. */
  function BackupBase(objs: seq<Obj>, colls: map<string, Coll>, layer: string, tree: LC): (r: (seq<Obj>, bool))
    ensures |r.0| == |objs|
    ensures forall i :: 0 <= i < |objs| && objs[i].kind != Mesh ==> r.0[i] == objs[i]
    ensures forall i :: 0 <= i < |objs| && objs[i].kind == Mesh ==>
      r.0[i] == objs[i].(backup := r.0[i].backup, legacy := Some(""))
    ensures forall i :: 0 <= i < |objs| && objs[i].kind == Mesh ==>
      r.0[i].backup == if InOverridden(objs[i], colls, OverriddenCollections(colls, layer, tree)) && objs[i].backup != []
                       then objs[i].backup else objs[i].slots
    ensures r.1 <==> exists i :: 0 <= i < |objs| && objs[i].kind == Mesh && objs[i].backup == []
                                && InOverridden(objs[i], colls, OverriddenCollections(colls, layer, tree))
    ensures BackedUp(r.0)
  {
    var over := OverriddenCollections(colls, layer, tree);
    var plan := seq(|objs|, i requires 0 <= i < |objs| => PlanOne(objs[i], colls, over));
    var fallback := exists i :: 0 <= i < |objs| && objs[i].kind == Mesh && objs[i].backup == [] && InOverridden(objs[i], colls, over);
    (plan, fallback)
  }

  /** Without overrides on the layer, saving the base state is the same
      as saving the current look. */
  lemma BackupBaseWithoutOverrides(objs: seq<Obj>, colls: map<string, Coll>, layer: string, tree: LC)
    requires OverriddenCollections(colls, layer, tree) == {}
    ensures BackupBase(objs, colls, layer, tree).0 == BackupCurrent(objs)
    ensures !BackupBase(objs, colls, layer, tree).1
  {
  }

  // ---------------------------------------------------------------------
  // Override operators

  /** The set operator: a missing collection raises; otherwise the key for
      (`layerName`, collection) is set to the material name, and the active
      layer `k` gets the selective override and then its lights. `visible`
      and `inLayer` are the host's visibility and object set for layer `k`. */
  function SetCollectionOverride(d: BlendData, collName: string, matName: string, layerName: string,
                                 s: Scene, k: nat, visible: set<string>, inLayer: set<string>): (r: (Status, BlendData))
    requires k < |s.layers|
    ensures r.0 == Raised <==> collName !in d.collections
    ensures r.0 == Raised ==> r.1 == d
    ensures r.0 != Raised ==> r.0 == Finished && r.1.materials == d.materials && |r.1.objects| == |d.objects|
    ensures r.0 != Raised ==> r.1.collections == d.collections[collName :=
      d.collections[collName].(props := d.collections[collName].props[Names.OverrideKey(layerName, collName) := matName])]
    ensures r.0 != Raised ==> forall i :: 0 <= i < |d.objects| && d.objects[i].kind != Mesh && d.objects[i].kind != Light ==>
      r.1.objects[i] == d.objects[i]
    ensures r.0 != Raised ==> forall i :: 0 <= i < |d.objects| && d.objects[i].kind == Mesh ==>
      r.1.objects[i] == SelectiveObj(d.objects[i], r.1.collections, d.materials, s.layers[k].name, s.layers[0].name,
                                     s.layers[k].tree, visible)
    ensures r.0 != Raised ==> forall i :: 0 <= i < |d.objects| && d.objects[i].kind != Mesh ==>
      r.1.objects[i] == Lights.ApplyOne(d.objects[i], inLayer, Lights.StoredState(s.layers[k].lightState))
  {
    if collName !in d.collections then (Raised, d)
    else
      var col := d.collections[collName];
      var colls := d.collections[collName := col.(props := col.props[Names.OverrideKey(layerName, collName) := matName])];
      var vl := s.layers[k];
      var objs := ApplySelective(d.objects, colls, d.materials, vl.name, s.layers[0].name, vl.tree, visible);
      (Finished, d.(collections := colls, objects := Lights.ApplyLightsForViewLayer(vl, objs, inLayer)))
  }

  /** The clear operator: removes this layer's key from the collection,
      restores the collection's meshes and re-applies the layer's remaining
      overrides. `visible` is visibility in the named layer. */
  function ClearCollectionOverride(d: BlendData, collName: string, layerName: string,
                                   s: Scene, visible: set<string>): (r: (Status, BlendData))
    ensures r.0 == Raised <==> collName !in d.collections || LayerIndex(s.layers, layerName).None?
    ensures r.0 == Raised ==> r.1 == d
    ensures r.0 != Raised ==> r.0 == Finished && r.1.materials == d.materials
    ensures r.0 != Raised ==> r.1.collections == d.collections[collName :=
      d.collections[collName].(props := d.collections[collName].props - {Names.OverrideKey(layerName, collName)})]
    ensures r.0 != Raised ==> |r.1.objects| == |d.objects|
    ensures r.0 != Raised ==> forall i :: 0 <= i < |d.objects| ==> SameButSlots(d.objects[i], r.1.objects[i])
    ensures r.0 != Raised && layerName == s.layers[0].name ==>
      forall i :: 0 <= i < |d.objects| && d.objects[i].name !in d.collections[collName].allObjects ==>
        r.1.objects[i] == d.objects[i]
    ensures r.0 != Raised ==> var j := LayerIndex(s.layers, layerName).value;
      forall i :: 0 <= i < |d.objects| ==>
        var o := d.objects[i];
        var back := if o.kind == Mesh && o.name in visible && o.name in d.collections[collName].allObjects
                    then RestoreObj(o, d.materials) else o;
        r.1.objects[i] == if layerName == s.layers[0].name then back
                          else Overridden(back, LastOverride(o.name, o.kind, r.1.collections, d.materials,
                                                             layerName, Descendants(s.layers[j].tree), visible))
  {
    if collName !in d.collections then (Raised, d)
    else
      match LayerIndex(s.layers, layerName)
      case None => (Raised, d)
      case Some(j) =>
        var vl := s.layers[j];
        var col := d.collections[collName];
        var col' := col.(props := col.props - {Names.OverrideKey(layerName, collName)});
        var colls := d.collections[collName := col'];
        var restored := RestoreCollection(d.objects, col', visible, d.materials);
        var objs := ApplyOverridesForViewLayer(restored, colls, d.materials, vl.name, s.layers[0].name, vl.tree, visible);
        (Finished, d.(collections := colls, objects := objs))
  }

  /** Clearing a key just set gives back the original collection. */
  lemma PropsRoundTrip(cs: map<string, Coll>, name: string, key: string, value: string)
    requires name in cs && key !in cs[name].props
    ensures var c1 := cs[name].(props := cs[name].props[key := value]);
            cs[name := c1][name := c1.(props := c1.props - {key})] == cs
  {
    var c := cs[name];
    var c1 := c.(props := c.props[key := value]);
    assert c1.props - {key} == c.props;
    assert c1.(props := c1.props - {key}) == c;
  }

  /** Setting an override and clearing it again leaves the collections as
      they were, when the key was not set before. */
  lemma SetThenClear(d: BlendData, collName: string, matName: string, layerName: string,
                     s: Scene, k: nat, visible: set<string>, inLayer: set<string>)
    requires k < |s.layers| && collName in d.collections && LayerIndex(s.layers, layerName).Some?
    requires Names.OverrideKey(layerName, collName) !in d.collections[collName].props
    ensures var set1 := SetCollectionOverride(d, collName, matName, layerName, s, k, visible, inLayer);
            var clear := ClearCollectionOverride(set1.1, collName, layerName, s, visible);
            set1.0 == Finished && clear.0 == Finished && clear.1.collections == d.collections
  {
    var key := Names.OverrideKey(layerName, collName);
    var set1 := SetCollectionOverride(d, collName, matName, layerName, s, k, visible, inLayer);
    var col1 := d.collections[collName].(props := d.collections[collName].props[key := matName]);
    assert set1.1.collections == d.collections[collName := col1];
    PropsRoundTrip(d.collections, collName, key, matName);
  }
}

=== FILE: names.dfy ===
/** Name and string helpers: file-name sanitising, unique view-layer
    names, the material-override property key, the AO socket matcher, the
    render-pass selection and the managed output paths. */
module Names {
  import opened Base

  // ------------------------------------------------------------------
  // _sanitize
  // ------------------------------------------------------------------

  /** The characters `[0-9A-Za-z_-]` that survive sanitising. */
  predicate SafeChar(c: char) {
    ('0' <= c <= '9') || ('A' <= c <= 'Z') || ('a' <= c <= 'z') || c == '_' || c == '-'
  }

  /** `re.sub(r'[^0-9A-Za-z_\-]', '_', name)`. */
  function Sanitize(name: string): (r: string)
    ensures |r| == |name|
    ensures forall i :: 0 <= i < |name| ==> SafeChar(name[i]) ==> r[i] == name[i]
    ensures forall i :: 0 <= i < |name| ==> !SafeChar(name[i]) ==> r[i] == '_'
    ensures forall i :: 0 <= i < |r| ==> SafeChar(r[i])
  {
    if name == [] then []
    else [if SafeChar(name[0]) then name[0] else '_'] + Sanitize(name[1..])
  }

  lemma SanitizeIdempotent(name: string)
    ensures Sanitize(Sanitize(name)) == Sanitize(name)
  {
  }

  /** A name made of safe characters only is its own sanitised form. */
  lemma SanitizeSafe(name: string)
    requires forall i :: 0 <= i < |name| ==> SafeChar(name[i])
    ensures Sanitize(name) == name
  {
  }

  // ------------------------------------------------------------------
  // Decimal numerals
  // ------------------------------------------------------------------

  function DigitChar(d: nat): char
    requires d < 10
  {
    ('0' as int + d) as char
  }

  predicate IsDigit(c: char) {
    '0' <= c <= '9'
  }

  /** `str(n)`. */
  function Decimal(n: nat): (r: string)
    ensures |r| >= 1 && forall i :: 0 <= i < |r| ==> IsDigit(r[i])
    ensures n >= 1 ==> r[0] != '0'
    ensures n < 10 ==> |r| == 1
    ensures n < 100 ==> |r| <= 2
    ensures n < 1000 ==> |r| <= 3
    decreases n
  {
    if n < 10 then [DigitChar(n)] else Decimal(n / 10) + [DigitChar(n % 10)]
  }

  /** The value of a string of digits (leading zeros allowed). */
  function DigitsValue(s: string): nat
    requires forall i :: 0 <= i < |s| ==> IsDigit(s[i])
  {
    if s == [] then 0
    else
      assert IsDigit(s[|s| - 1]);
      DigitsValue(s[..|s| - 1]) * 10 + (s[|s| - 1] as int - '0' as int)
  }

  lemma {:induction false} DecimalValue(n: nat)
    ensures DigitsValue(Decimal(n)) == n
    decreases n
  {
    if n >= 10 {
      DecimalValue(n / 10);
      var s := Decimal(n);
      assert s[..|s| - 1] == Decimal(n / 10);
    }
  }

  lemma {:induction false} LeadingZeroValue(s: string)
    requires forall i :: 0 <= i < |s| ==> IsDigit(s[i])
    ensures DigitsValue(['0'] + s) == DigitsValue(s)
  {
    if s != [] {
      var t := ['0'] + s;
      assert t[..|t| - 1] == ['0'] + s[..|s| - 1];
      LeadingZeroValue(s[..|s| - 1]);
    }
  }

  /** `f"{i:03d}"`: at least three digits, zero-padded. */
  function Pad3(i: nat): (r: string)
    ensures |r| >= 3 && forall j :: 0 <= j < |r| ==> IsDigit(r[j])
    ensures i < 1000 ==> |r| == 3
    ensures |r| > 3 ==> r[0] != '0'
    ensures DigitsValue(r) == i
  {
    DecimalValue(i);
    var d := Decimal(i);
    if |d| == 1 then
      LeadingZeroValue(d);
      LeadingZeroValue(['0'] + d);
      assert ['0', '0'] + d == ['0'] + (['0'] + d);
      ['0', '0'] + d
    else if |d| == 2 then LeadingZeroValue(d); ['0'] + d
    else d
  }

  lemma Pad3Injective(i: nat, j: nat)
    requires Pad3(i) == Pad3(j)
    ensures i == j
  {
  }

  // ------------------------------------------------------------------
  // _unique_view_layer_name
  // ------------------------------------------------------------------

  /** `f"{base}.{i:03d}"`. */
  function Numbered(base: string, i: nat): (r: string)
    ensures |r| > |base| && r[..|base|] == base
  {
    base + "." + Pad3(i)
  }

  lemma NumberedInjective(base: string, i: nat, j: nat)
    requires Numbered(base, i) == Numbered(base, j)
    ensures i == j
  {
    var a, b := Numbered(base, i), Numbered(base, j);
    assert Pad3(i) == a[|base| + 1..];
    assert Pad3(j) == b[|base| + 1..];
    Pad3Injective(i, j);
  }

  /** `base` when free, else `base.NNN` for the smallest free `i >= 1`. */
  method UniqueViewLayerName(existing: set<string>, base: string) returns (name: string)
    ensures name !in existing
    ensures base !in existing ==> name == base
    ensures base in existing ==>
      exists i :: 1 <= i && name == Numbered(base, i) && forall j :: 1 <= j < i ==> Numbered(base, j) in existing
  {
    name := base;
    if name !in existing {
      return;
    }
    var i: nat := 1;
    name := Numbered(base, i);
    while name in existing
      invariant i >= 1 && name == Numbered(base, i)
      invariant forall j :: 1 <= j < i ==> Numbered(base, j) in existing
      decreases |existing - Taken(base, i)|
    {
      TakenGrows(existing, base, i);
      i := i + 1;
      name := Numbered(base, i);
    }
    assert name == Numbered(base, i) && forall j :: 1 <= j < i ==> Numbered(base, j) in existing;
  }

  lemma TakenGrows(existing: set<string>, base: string, i: nat)
    requires i >= 1 && Numbered(base, i) in existing
    ensures |existing - Taken(base, i + 1)| < |existing - Taken(base, i)|
  {
    var name := Numbered(base, i);
    var before := Taken(base, i);
    forall x | x in before ensures x != name {
      var j :| 1 <= j < i && x == Numbered(base, j);
      if x == name { NumberedInjective(base, j, i); }
    }
    assert Taken(base, i + 1) == before + {name};
    assert existing - Taken(base, i + 1) == (existing - before) - {name};
    assert name in existing - before;
  }

  /** The numbered names `base.001` ... below `base.NNN` for `i`. */
  ghost function Taken(base: string, i: nat): set<string> {
    set j | 1 <= j < i :: Numbered(base, j)
  }

  // ------------------------------------------------------------------
  // _override_key
  // ------------------------------------------------------------------

  const OverridePrefix: string := "_vlm_mat_override_"

  /** The custom-property key that stores a collection's material override
      for one view layer (the same format in both files that define it). */
  function OverrideKey(layer: string, collection: string): (r: string)
    ensures |r| == |OverridePrefix| + |layer| + 1 + |collection|
    ensures r[..|OverridePrefix|] == OverridePrefix
    ensures r[|OverridePrefix|..|OverridePrefix| + |layer|] == layer
    ensures r[|OverridePrefix| + |layer|] == '_'
    ensures r[|r| - |collection|..] == collection
  {
    OverridePrefix + layer + "_" + collection
  }

  /** For a fixed layer, different collections get different keys. */
  lemma OverrideKeyInjectiveInCollection(layer: string, c1: string, c2: string)
    requires OverrideKey(layer, c1) == OverrideKey(layer, c2)
    ensures c1 == c2
  {
    var k1, k2 := OverrideKey(layer, c1), OverrideKey(layer, c2);
    assert c1 == k1[|k1| - |c1|..];
    assert c2 == k2[|k2| - |c2|..];
  }

  /** For a fixed collection, different layers get different keys. */
  lemma OverrideKeyInjectiveInLayer(l1: string, l2: string, collection: string)
    requires OverrideKey(l1, collection) == OverrideKey(l2, collection)
    ensures l1 == l2
  {
    var k1, k2 := OverrideKey(l1, collection), OverrideKey(l2, collection);
    assert l1 == k1[|OverridePrefix|..|OverridePrefix| + |l1|];
    assert l2 == k2[|OverridePrefix|..|OverridePrefix| + |l2|];
  }

  /** The key is ambiguous when names contain `_`: two different pairs can
      share one key. */
  lemma OverrideKeyAmbiguous()
    ensures OverrideKey("a_b", "c") == OverrideKey("a", "b_c")
  {
  }

  // ------------------------------------------------------------------
  // _find_ao_socket
  // ------------------------------------------------------------------

  /** A socket name that looks like ambient occlusion after `strip().lower()`. */
  predicate AoLike(name: string) {
    var nm := Lower(Strip(name));
    Contains(nm, "ambient occlusion") || Contains(nm, "occlusion") || Contains(nm, "ao")
  }

  function FirstIndexOf(s: seq<string>, x: string): (r: Option<nat>)
    ensures r.None? <==> x !in s
    ensures r.Some? ==> r.value < |s| && s[r.value] == x && forall j :: 0 <= j < r.value ==> s[j] != x
  {
    if s == [] then None
    else if s[0] == x then Some(0)
    else match FirstIndexOf(s[1..], x)
      case None => None
      case Some(i) => Some(i + 1)
  }

  /** The first position whose name satisfies `p`. */
  function FirstWhere(s: seq<string>, p: string -> bool): (r: Option<nat>)
    ensures r.None? <==> forall i :: 0 <= i < |s| ==> !p(s[i])
    ensures r.Some? ==> r.value < |s| && p(s[r.value]) && forall j :: 0 <= j < r.value ==> !p(s[j])
  {
    if s == [] then None
    else if p(s[0]) then Some(0)
    else match FirstWhere(s[1..], p)
      case None => None
      case Some(i) => Some(i + 1)
  }

  /** The keyword fallback: the first output that looks like AO. */
  function FirstAoLike(s: seq<string>): (r: Option<nat>)
    ensures r.None? <==> forall i :: 0 <= i < |s| ==> !AoLike(s[i])
    ensures r.Some? ==> r.value < |s| && AoLike(s[r.value]) && forall j :: 0 <= j < r.value ==> !AoLike(s[j])
  {
    FirstWhere(s, AoLike)
  }

  /** The position of the AO output among a node's output names: an output
      named exactly `AO` first, else the first one that looks like AO. */
  function FindAoSocket(outputs: seq<string>): (r: Option<nat>)
    ensures "AO" in outputs ==>
      r.Some? && r.value < |outputs| && outputs[r.value] == "AO" && forall j :: 0 <= j < r.value ==> outputs[j] != "AO"
    ensures "AO" !in outputs ==> r == FirstAoLike(outputs)
    ensures r.None? <==> forall i :: 0 <= i < |outputs| ==> !AoLike(outputs[i])
  {
    var exact := FirstIndexOf(outputs, "AO");
    if exact.Some? then
      assert AoLike("AO") by {
        assert Lower(Strip("AO")) == "ao";
        assert StartsWith("ao", "ao");
      }
      exact
    else FirstAoLike(outputs)
  }

  // ------------------------------------------------------------------
  // Pass selection (`_prepare_compositor_nodes`)
  // ------------------------------------------------------------------

  /** The pass toggles of a view layer the selection consults. */
  datatype PassFlags = PassFlags(
    z: bool, mist: bool, normal: bool, vector: bool, position: bool,
    diffuseDirect: bool, diffuseColor: bool, glossyDirect: bool, glossyColor: bool,
    emit: bool, environment: bool, shadow: bool, ao: bool)

  const StandardNames: seq<string> := [
    "Image", "Z", "Mist", "Normal", "Vector", "Position",
    "Diffuse Direct", "Diffuse Color", "Glossy Direct", "Glossy Color",
    "Emit", "Emission", "Environment", "Shadow", "Ambient Occlusion"]

  /** `is_enabled`: `Image` always, each standard pass by its toggle, any
      other name (an AOV) by the presence of its socket alone. */
  predicate PassEnabled(f: PassFlags, name: string) {
    if name == "Image" then true
    else if name == "Z" then f.z
    else if name == "Mist" then f.mist
    else if name == "Normal" then f.normal
    else if name == "Vector" then f.vector
    else if name == "Position" then f.position
    else if name == "Diffuse Direct" then f.diffuseDirect
    else if name == "Diffuse Color" then f.diffuseColor
    else if name == "Glossy Direct" then f.glossyDirect
    else if name == "Glossy Color" then f.glossyColor
    else if name == "Emit" || name == "Emission" then f.emit
    else if name == "Environment" then f.environment
    else if name == "Shadow" then f.shadow
    else if name == "Ambient Occlusion" then f.ao
    else true
  }

  /** The standard passes that get a File Output node, in list order. */
  function ActivePasses(f: PassFlags, sockets: seq<string>): (r: seq<string>)
    ensures IsSubseq(r, StandardNames)
    ensures forall n :: n in r <==> n in StandardNames && n in sockets && PassEnabled(f, n)
    ensures "Image" in sockets ==> |r| > 0 && r[0] == "Image"
  {
    var r := Filter(StandardNames, (n: string) => n in sockets && PassEnabled(f, n));
    if "Image" in sockets then
      assert StandardNames[0] == "Image";
      assert r == [StandardNames[0]] + Filter(StandardNames[1..], (n: string) => n in sockets && PassEnabled(f, n));
      r
    else r
  }

  /** AOV outputs: the layer's AOVs with a non-empty name that the node
      actually exposes, in the layer's order. */
  function AovPasses(aovs: seq<string>, sockets: seq<string>): (r: seq<string>)
    ensures IsSubseq(r, aovs)
    ensures forall n :: n in r <==> n in aovs && n != [] && n in sockets
  {
    Filter(aovs, (n: string) => n != [] && n in sockets)
  }

  // ------------------------------------------------------------------
  // Managed File Output paths (`_update_dynamic_file_output_paths`)
  // ------------------------------------------------------------------

  /** `os.path.join(a, b)` on POSIX. */
  function Join(a: string, b: string): string {
    if |b| > 0 && b[0] == '/' then b
    else if a == [] || a[|a| - 1] == '/' then a + b
    else a + "/" + b
  }

  function OrDefault(s: string, d: string): string {
    if s == [] then d else s
  }

  /** The node's directory and its single slot path, from the blend file's
      stem, the stored layer name and the stored pass name. */
  function ManagedPaths(baseFp: string, blendStem: string, layer: string, pass: string): (r: (string, string))
    ensures var b, v, p := Sanitize(OrDefault(blendStem, "Untitled")), Sanitize(OrDefault(layer, "ViewLayer")),
                          Sanitize(OrDefault(pass, "Image"));
      && r.1 == b + "_" + v + "_" + p + "_"
      && (baseFp == [] || baseFp[|baseFp| - 1] == '/' ==> r.0 == baseFp + b + "/" + v + "/" + p + "/")
      && (baseFp != [] && baseFp[|baseFp| - 1] != '/' ==> r.0 == baseFp + "/" + b + "/" + v + "/" + p + "/")
  {
    var b := Sanitize(OrDefault(blendStem, "Untitled"));
    var v := Sanitize(OrDefault(layer, "ViewLayer"));
    var p := Sanitize(OrDefault(pass, "Image"));
    assert b[0] != '/' && v[0] != '/' && p[0] != '/';
    (Join(Join(Join(baseFp, b), v), p) + "/", b + "_" + v + "_" + p + "_")
  }

  // ------------------------------------------------------------------
  // Duplicate-layer naming (main panel)
  // ------------------------------------------------------------------

  /** The name requested for a copy of layer `name`: a non-empty stripped
      custom name replaces it (and disables renaming); otherwise a
      non-empty stripped `renameFrom` is replaced by `renameTo`, keeping the
      original if that empties it; then prefix and suffix are added. */
  function DuplicateName(name: string, custom: string, renameFrom: string, renameTo: string,
                         prefix: string, suffix: string): (r: string)
    ensures |r| >= |prefix| + |suffix|
    ensures r[..|prefix|] == prefix && r[|r| - |suffix|..] == suffix
    ensures Strip(custom) != [] ==> r == prefix + Strip(custom) + suffix
    ensures Strip(custom) == [] && Strip(renameFrom) == [] ==> r == prefix + name + suffix
    ensures Strip(custom) == [] && Strip(renameFrom) != [] ==>
      var x := Replace(name, Strip(renameFrom), renameTo);
      r == prefix + (if x != [] then x else name) + suffix
  {
    var c := Strip(custom);
    var from := Strip(renameFrom);
    var base := if c != [] then c else name;
    var renamed :=
      if from != [] && c == [] then
        var replaced := Replace(base, from, renameTo);
        if replaced != [] then replaced else base
      else base;
    prefix + renamed + suffix
  }

  /** Two requests: a rename inside the name, and a rename that would
      empty the name and so keeps it. */
  lemma DuplicateNameExamples()
    ensures DuplicateName("Main", "", "Main", "Alt", "P_", "_S") == "P_Alt_S"
    ensures DuplicateName("Main", "", "Main", "", "", "") == "Main"
  {
    assert Strip("") == [];
    assert Strip("Main") == "Main" by { assert Trimmed("Main"); }
    assert "Main"[..4] == "Main" && "Main"[4..] == [];
    assert Replace("Main", "Main", "Alt") == "Alt";
    assert Replace("Main", "Main", "") == [];
  }

  /** Renaming a text that does not occur, or renaming it to itself, keeps
      the layer's own name. */
  lemma DuplicateNameNoOpRename(name: string, renameFrom: string, renameTo: string, prefix: string, suffix: string)
    requires Strip(renameFrom) != []
    requires !Contains(name, Strip(renameFrom)) || renameTo == Strip(renameFrom)
    ensures DuplicateName(name, "", renameFrom, renameTo, prefix, suffix) == prefix + name + suffix
  {
    assert Strip("") == [];
    if renameTo == Strip(renameFrom) {
      ReplaceBySelf(name, renameTo);
    } else {
      ReplaceAbsent(name, Strip(renameFrom), renameTo);
    }
  }
}

=== FILE: panel.dfy ===
/** The decision logic behind the panel's operators: which layers an
    operator acts on, the tri-state collection rules, the two tree
    flatteners feeding the pop-ups, duplicating a layer, the bulk copy of
    render settings and the guard that keeps the AO chain from being added
    twice. */
module Panel {
  import opened Base
  import opened Scene
  import opened LayerTree
  import Names
  import RenderOverride

  // ---------------------------------------------------------------------
  // Targets

  /** One row of a pop-up's layer list. */
  datatype TargetItem = TargetItem(name: string, selected: bool)

  function SelectedNames(items: seq<TargetItem>): (r: seq<string>)
    ensures |r| <= |items|
    ensures forall x :: x in r <==> exists i :: 0 <= i < |items| && items[i].selected && items[i].name == x
    ensures r == [] <==> forall i :: 0 <= i < |items| ==> !items[i].selected
    decreases |items|
  {
    if items == [] then []
    else
      var rest := SelectedNames(items[1..]);
      assert forall i :: 1 <= i < |items| ==> items[i] == items[1..][i - 1];
      assert rest != [] ==> rest[0] in rest;
      if items[0].selected then [items[0].name] + rest else rest
  }

  /** The selected layers, or else the active one (if any). */
  function ResolveTargets(items: seq<TargetItem>, active: Option<string>): (r: seq<string>)
    ensures SelectedNames(items) != [] ==> r == SelectedNames(items)
    ensures SelectedNames(items) == [] && active.Some? ==> r == [active.value]
    ensures r == [] <==> active.None? && forall i :: 0 <= i < |items| ==> !items[i].selected
  {
    var sel := SelectedNames(items);
    if sel != [] then sel
    else if active.Some? then [active.value]
    else []
  }

  // ---------------------------------------------------------------------
  // Collection rules

  datatype TriState = Keep | On | Off

  /** `_state`: KEEP means "leave alone". */
  function StateValue(v: TriState): (r: Option<bool>)
    ensures r.None? <==> v == Keep
    ensures r == Some(true) <==> v == On
    ensures r == Some(false) <==> v == Off
  {
    match v
    case Keep => None
    case On => Some(true)
    case Off => Some(false)
  }

  datatype Rule = Rule(name: string, content: TriState, select: TriState, render: TriState,
                       holdout: TriState, indirect: TriState)

  datatype Conf = Conf(content: Option<bool>, select: Option<bool>, render: Option<bool>,
                       holdout: Option<bool>, indirect: Option<bool>)

  function ConfOf(rule: Rule): Conf {
    Conf(StateValue(rule.content), StateValue(rule.select), StateValue(rule.render),
         StateValue(rule.holdout), StateValue(rule.indirect))
  }

  predicate ChangesSomething(c: Conf) {
    c.content.Some? || c.select.Some? || c.render.Some? || c.holdout.Some? || c.indirect.Some?
  }

  predicate AllKeep(rule: Rule) {
    rule.content == Keep && rule.select == Keep && rule.render == Keep && rule.holdout == Keep && rule.indirect == Keep
  }

  /** The settings dictionary: a rule enters it iff one of its five states
      is not KEEP (a later rule of the same name overwrites). */
  function Settings(rules: seq<Rule>): (r: map<string, Conf>)
    ensures forall n :: n in r <==> exists i :: 0 <= i < |rules| && rules[i].name == n && !AllKeep(rules[i])
    ensures forall n :: n in r ==> ChangesSomething(r[n])
    decreases |rules|
  {
    if rules == [] then map[]
    else
      var init := rules[..|rules| - 1];
      var last := rules[|rules| - 1];
      var m := Settings(init);
      assert forall i :: 0 <= i < |init| ==> init[i] == rules[i];
      if ChangesSomething(ConfOf(last)) then m[last.name := ConfOf(last)] else m
  }

  predicate UniqueRuleNames(rules: seq<Rule>) {
    forall i, j :: 0 <= i < j < |rules| ==> rules[i].name != rules[j].name
  }

  /** With one rule per collection, the dictionary holds each changing
      rule's states. */
  lemma {:induction false} SettingsLookup(rules: seq<Rule>, i: nat)
    requires UniqueRuleNames(rules) && i < |rules| && !AllKeep(rules[i])
    ensures rules[i].name in Settings(rules) && Settings(rules)[rules[i].name] == ConfOf(rules[i])
    decreases |rules|
  {
    var init := rules[..|rules| - 1];
    if i < |rules| - 1 {
      assert UniqueRuleNames(init) && init[i] == rules[i];
      SettingsLookup(init, i);
    }
  }

  /** What the apply-settings operator does before handing over to
      `apply_collection_settings`, which is not part of this model. */
  datatype SettingsOutcome = NoTargets | NoChanges | Apply(targets: seq<string>, settings: map<string, Conf>)

  function ApplyCollectionSettingsOp(items: seq<TargetItem>, active: Option<string>, rules: seq<Rule>): (r: SettingsOutcome)
    ensures r == NoTargets <==> ResolveTargets(items, active) == []
    ensures r == NoChanges <==> ResolveTargets(items, active) != [] && forall i :: 0 <= i < |rules| ==> AllKeep(rules[i])
    ensures r.Apply? ==> r.targets == ResolveTargets(items, active) && r.settings == Settings(rules) && r.settings != map[]
  {
    var targets := ResolveTargets(items, active);
    if targets == [] then NoTargets
    else
      var settings := Settings(rules);
      if settings == map[] then
        assert forall i :: 0 <= i < |rules| ==> AllKeep(rules[i]) by {
          forall i | 0 <= i < |rules| ensures AllKeep(rules[i]) {
            assert rules[i].name !in settings;
          }
        }
        NoChanges
      else
        assert exists i :: 0 <= i < |rules| && !AllKeep(rules[i]) by {
          var n :| n in settings;
        }
        Apply(targets, settings)
  }

  // ---------------------------------------------------------------------
  // Flatteners

  /** A row of the duplicate pop-up: collection, included, depth. */
  datatype Entry = Entry(name: string, enabled: bool, level: nat)

  function DupEntries(t: LC, level: nat): seq<Entry>
    decreases t
  {
    [Entry(t.name, !t.exclude, level)] + DupEntriesF(t.children, level + 1)
  }

  function DupEntriesF(cs: seq<LC>, level: nat): seq<Entry>
    decreases cs
  {
    if cs == [] then [] else DupEntries(cs[0], level) + DupEntriesF(cs[1..], level)
  }

  /** Pairing the pre-order labels with the pre-order depths. */
  function Zip(s: seq<Info>, ds: seq<nat>): (r: seq<Entry>)
    requires |s| == |ds|
    ensures |r| == |s| && forall i :: 0 <= i < |s| ==> r[i] == Entry(s[i].name, !s[i].exclude, ds[i])
  {
    seq(|s|, i requires 0 <= i < |s| => Entry(s[i].name, !s[i].exclude, ds[i]))
  }

  /** The duplicate pop-up lists every node in pre-order, the root at the
      given level, each marked enabled iff it is not excluded. */
  lemma {:induction false} DupEntriesSpec(t: LC, level: nat)
    ensures |Infos(t)| == |Depths(t, level)|
    ensures DupEntries(t, level) == Zip(Infos(t), Depths(t, level))
    decreases t
  {
    ViewsAgree(t, level);
    DupEntriesFSpec(t.children, level + 1);
  }

  lemma {:induction false} DupEntriesFSpec(cs: seq<LC>, level: nat)
    ensures |InfosF(cs)| == |DepthsF(cs, level)|
    ensures DupEntriesF(cs, level) == Zip(InfosF(cs), DepthsF(cs, level))
    decreases cs
  {
    ViewsAgreeF(cs, level);
    if cs != [] {
      DupEntriesSpec(cs[0], level);
      DupEntriesFSpec(cs[1..], level);
    }
  }

  /** A row of the apply-settings pop-up: collection and depth. */
  datatype RuleRow = RuleRow(name: string, level: nat)

  /** The scene collection is skipped and its children take its level. */
  function RuleRows(t: LC, level: nat): seq<RuleRow>
    decreases t
  {
    if IsSceneCollectionName(t.name) then RuleRowsF(t.children, level)
    else [RuleRow(t.name, level)] + RuleRowsF(t.children, level + 1)
  }

  function RuleRowsF(cs: seq<LC>, level: nat): seq<RuleRow>
    decreases cs
  {
    if cs == [] then [] else RuleRows(cs[0], level) + RuleRowsF(cs[1..], level)
  }

  predicate NoSceneNode(s: seq<Info>) {
    forall i :: 0 <= i < |s| ==> !IsSceneCollectionName(s[i].name)
  }

  /** The names the apply-settings pop-up lists: the pre-order names with
      the scene collection's dropped. */
  function KeptNames(s: seq<Info>): (r: seq<string>)
    ensures |r| <= |s|
  {
    if s == [] then []
    else if IsSceneCollectionName(s[0].name) then KeptNames(s[1..])
    else [s[0].name] + KeptNames(s[1..])
  }

  lemma {:induction false} KeptNamesAppend(a: seq<Info>, b: seq<Info>)
    ensures KeptNames(a + b) == KeptNames(a) + KeptNames(b)
    decreases |a|
  {
    if a == [] {
      assert a + b == b;
    } else {
      assert (a + b)[0] == a[0] && (a + b)[1..] == a[1..] + b;
      KeptNamesAppend(a[1..], b);
      if IsSceneCollectionName(a[0].name) {
        assert KeptNames(a + b) == KeptNames(a[1..] + b);
      } else {
        assert KeptNames(a + b) == [a[0].name] + KeptNames(a[1..] + b);
      }
    }
  }

  function RowNames(rows: seq<RuleRow>): (r: seq<string>)
    ensures |r| == |rows| && forall i :: 0 <= i < |rows| ==> r[i] == rows[i].name
  {
    seq(|rows|, i requires 0 <= i < |rows| => rows[i].name)
  }

  /** Every node other than a scene collection is listed once, in
      pre-order. */
  lemma {:induction false} RuleRowsNames(t: LC, level: nat)
    ensures RowNames(RuleRows(t, level)) == KeptNames(Infos(t))
    decreases t
  {
    KeptNamesAppend([Label(t)], InfosF(t.children));
    if IsSceneCollectionName(t.name) {
      RuleRowsFNames(t.children, level);
    } else {
      RuleRowsFNames(t.children, level + 1);
    }
  }

  lemma {:induction false} RuleRowsFNames(cs: seq<LC>, level: nat)
    ensures RowNames(RuleRowsF(cs, level)) == KeptNames(InfosF(cs))
    decreases cs
  {
    if cs != [] {
      RuleRowsNames(cs[0], level);
      RuleRowsFNames(cs[1..], level);
      KeptNamesAppend(Infos(cs[0]), InfosF(cs[1..]));
    }
  }

  /** Without scene collections, the two pop-ups list the same collections
      at the same levels. */
  lemma {:induction false} RuleRowsAreDepths(t: LC, level: nat)
    requires NoSceneNode(Infos(t))
    ensures |RuleRows(t, level)| == |Infos(t)| == |Depths(t, level)|
    ensures forall i :: 0 <= i < |Infos(t)| ==> RuleRows(t, level)[i] == RuleRow(Infos(t)[i].name, Depths(t, level)[i])
    decreases t
  {
    ViewsAgree(t, level);
    assert Infos(t)[0] == Label(t);
    assert forall i :: 0 <= i < |InfosF(t.children)| ==> InfosF(t.children)[i] == Infos(t)[i + 1];
    RuleRowsFAreDepths(t.children, level + 1);
  }

  lemma {:induction false} RuleRowsFAreDepths(cs: seq<LC>, level: nat)
    requires NoSceneNode(InfosF(cs))
    ensures |RuleRowsF(cs, level)| == |InfosF(cs)| == |DepthsF(cs, level)|
    ensures forall i :: 0 <= i < |InfosF(cs)| ==> RuleRowsF(cs, level)[i] == RuleRow(InfosF(cs)[i].name, DepthsF(cs, level)[i])
    decreases cs
  {
    ViewsAgreeF(cs, level);
    if cs != [] {
      var a, b := Infos(cs[0]), InfosF(cs[1..]);
      assert forall i :: 0 <= i < |a| ==> a[i] == (a + b)[i];
      assert forall i :: 0 <= i < |b| ==> b[i] == (a + b)[|a| + i];
      RuleRowsAreDepths(cs[0], level);
      RuleRowsFAreDepths(cs[1..], level);
    }
  }

  /** Under a scene-collection root with no other scene collection, every
      node below the root is listed one level higher than its depth: the
      root's children take the root's level. */
  lemma RuleRowsLiftChildren(t: LC, level: nat)
    requires IsSceneCollectionName(t.name) && NoSceneNode(InfosF(t.children))
    ensures |RuleRows(t, level)| + 1 == |Infos(t)| == |Depths(t, level)|
    ensures forall i :: 0 <= i < |RuleRows(t, level)| ==>
      RuleRows(t, level)[i].name == Infos(t)[i + 1].name && RuleRows(t, level)[i].level + 1 == Depths(t, level)[i + 1]
  {
    ViewsAgree(t, level);
    RuleRowsFAreDepths(t.children, level);
    DepthsFShift(t.children, level);
    assert InfosF(t.children) == Infos(t)[1..];
    assert DepthsF(t.children, level + 1) == Depths(t, level)[1..];
  }

  /** Depths measured from one level lower are all one larger. */
  lemma {:induction false} DepthsShift(t: LC, level: nat)
    ensures |Depths(t, level + 1)| == |Depths(t, level)|
    ensures forall i :: 0 <= i < |Depths(t, level)| ==> Depths(t, level + 1)[i] == Depths(t, level)[i] + 1
    decreases t
  {
    DepthsFShift(t.children, level + 1);
  }

  lemma {:induction false} DepthsFShift(cs: seq<LC>, level: nat)
    ensures |DepthsF(cs, level + 1)| == |DepthsF(cs, level)|
    ensures forall i :: 0 <= i < |DepthsF(cs, level)| ==> DepthsF(cs, level + 1)[i] == DepthsF(cs, level)[i] + 1
    decreases cs
  {
    if cs != [] {
      DepthsShift(cs[0], level);
      DepthsFShift(cs[1..], level);
    }
  }

  // ---------------------------------------------------------------------
  // Duplicating a layer

  /** The value `_walk` writes for a name: `not desired` when the name has
      a desired state, none otherwise. */
  function StatePick(states: map<string, bool>): string -> Option<bool> {
    n => if n in states then Some(!states[n]) else None
  }

  /** `_apply_collection_states_to_viewlayer`: in pre-order, every node
      whose collection has a desired state is written `exclude = not
      desired` through the host's setter, which also reaches every node
      below it. So a node ends with the value of the nearest node on its
      path from the root that has a state, and keeps its flag when there
      is none; the shape and the other flags stay. */
  function ApplyCollectionStates(t: LC, states: map<string, bool>): (r: LC)
    ensures Arity(r) == Arity(t) && |Infos(r)| == |Infos(t)|
    ensures forall i :: 0 <= i < |Infos(t)| ==>
      var a, b := Infos(t)[i], Infos(r)[i];
      b == a.(exclude := b.exclude) && (a.name in states ==> b.exclude == !states[a.name])
    ensures r == InheritWalk(t, StatePick(states), None)
    ensures (forall i :: i in Infos(t) ==> i.name !in states) ==> r == t
  {
    SetterWalkIsInheritFromRoot(t, StatePick(states));
    InheritWalkSpec(t, StatePick(states), None);
    assert (forall i :: i in Infos(t) ==> i.name !in states) ==> InheritWalk(t, StatePick(states), None) == t by {
      if forall i :: i in Infos(t) ==> i.name !in states {
        InheritWalkNone(t, StatePick(states));
      }
    }
    SetterWalk(t, StatePick(states))
  }

  /** A collection with a state and none below it: the setter carries its
      value to the whole subtree. */
  lemma ApplyCollectionStatesReachesBelow(t: LC, states: map<string, bool>)
    requires t.name in states
    requires forall i :: i in InfosF(t.children) ==> i.name !in states
    ensures forall i :: i in Infos(ApplyCollectionStates(t, states)) ==> i.exclude == !states[t.name]
  {
    var r := ApplyCollectionStates(t, states);
    SetterWalkIsInheritFromRoot(t, StatePick(states));
    InheritWalkUnder(t, StatePick(states), !states[t.name]);
    assert r == ExcludeSubtree(t, !states[t.name]);
  }

  /** Applying the same states again changes nothing. */
  lemma ApplyCollectionStatesIdempotent(t: LC, states: map<string, bool>)
    ensures ApplyCollectionStates(ApplyCollectionStates(t, states), states) == ApplyCollectionStates(t, states)
  {
    InheritWalkIdempotent(t, StatePick(states), None);
  }

  /** `duplicate_view_layer_with_collections`: the copy of layer `j` is
      appended under the first free name among `<src>_copy`,
      `<src>_copy.001`, …, with the requested states applied to its tree. */
  method DuplicateViewLayer(s: Scene, j: nat, states: map<string, bool>) returns (r: Scene)
    requires j < |s.layers|
    ensures |r.layers| == |s.layers| + 1 && r.layers[..|s.layers|] == s.layers && r == s.(layers := r.layers)
    ensures var src, n := s.layers[j], r.layers[|s.layers|];
      n == src.(name := n.name, tree := n.tree)
      && (forall m :: 0 <= m < |s.layers| ==> s.layers[m].name != n.name)
      && ((forall m :: 0 <= m < |s.layers| ==> s.layers[m].name != src.name + "_copy") ==> n.name == src.name + "_copy")
      && n.tree == ApplyCollectionStates(src.tree, states)
  {
    var src := s.layers[j];
    var existing := set m | 0 <= m < |s.layers| :: s.layers[m].name;
    var name := Names.UniqueViewLayerName(existing, src.name + "_copy");
    var tree := if states != map[] then ApplyCollectionStates(src.tree, states) else src.tree;
    r := s.(layers := s.layers + [src.(name := name, tree := tree)]);
  }

  /** The duplicate operator passes a `desired_name` keyword that the
      duplication function does not accept, so the call raises as soon as
      one target layer exists; with none it cancels. */
  function DuplicateOperator(s: Scene, items: seq<TargetItem>, active: Option<string>): (r: Status)
    ensures r == Raised <==> exists t :: t in ResolveTargets(items, active) && LayerIndex(s.layers, t).Some?
    ensures r != Raised ==> r == Cancelled
  {
    var targets := ResolveTargets(items, active);
    if exists t :: t in targets && LayerIndex(s.layers, t).Some? then Raised else Cancelled
  }

  // ---------------------------------------------------------------------
  // Bulk render settings

  /** The bulk pop-up's values: its render settings and its world. */
  datatype BulkForm = BulkForm(rs: RenderSettings, world: Option<string>)

  /** Copying the pop-up into a layer: everything but the denoise flag is
      copied; the camera only when its toggle is on and the world likewise. */
  function CopyInto(form: BulkForm, vl: ViewLayer): (r: ViewLayer)
    ensures r.name == vl.name && r == vl.(render := r.render, world := r.world)
    ensures r.render == form.rs.(camera := r.render.camera, useDenoise := vl.render.useDenoise)
    ensures r.render.camera == (if form.rs.cameraEnable then form.rs.camera else vl.render.camera)
    ensures r.world == (if form.rs.worldEnable then form.world else vl.world)
  {
    vl.(render := form.rs.(camera := if form.rs.cameraEnable then form.rs.camera else vl.render.camera,
                            useDenoise := vl.render.useDenoise),
        world := if form.rs.worldEnable then form.world else vl.world)
  }

  lemma CopyIntoIdempotent(form: BulkForm, vl: ViewLayer)
    ensures CopyInto(form, CopyInto(form, vl)) == CopyInto(form, vl)
  {
  }

  predicate Targeted(layers: seq<ViewLayer>, targets: seq<string>, m: int) {
    exists t :: t in targets && LayerIndex(layers, t) == Some(m)
  }

  /** One pass of the copy loop: the layer named `t`, if any, gets the
      pop-up's values. */
  function CopyOne(layers: seq<ViewLayer>, form: BulkForm, t: string): (r: seq<ViewLayer>)
    ensures |r| == |layers| && forall m :: 0 <= m < |layers| ==> r[m].name == layers[m].name
    ensures forall m :: 0 <= m < |layers| ==>
      r[m] == if LayerIndex(layers, t) == Some(m) then CopyInto(form, layers[m]) else layers[m]
  {
    match LayerIndex(layers, t)
    case None => layers
    case Some(j) => layers[j := CopyInto(form, layers[j])]
  }

  /** The copy loop: each target name found in the scene gets the pop-up's
      values; names not found are skipped. Returns the names applied. */
  function BulkCopy(layers: seq<ViewLayer>, form: BulkForm, targets: seq<string>): (r: (seq<ViewLayer>, seq<string>))
    ensures |r.0| == |layers| && forall m :: 0 <= m < |layers| ==> r.0[m].name == layers[m].name
    decreases |targets|
  {
    if targets == [] then (layers, [])
    else
      var t := targets[0];
      var rest := BulkCopy(CopyOne(layers, form, t), form, targets[1..]);
      (rest.0, if LayerIndex(layers, t).Some? then [t] + rest.1 else rest.1)
  }

  lemma CopyOneKeepsIndex(layers: seq<ViewLayer>, form: BulkForm, t: string)
    ensures forall x :: LayerIndex(CopyOne(layers, form, t), x) == LayerIndex(layers, x)
  {
    forall x ensures LayerIndex(CopyOne(layers, form, t), x) == LayerIndex(layers, x) {
      LayerIndexByNames(layers, CopyOne(layers, form, t), x);
    }
  }

  lemma TargetedCons(layers: seq<ViewLayer>, targets: seq<string>, m: int)
    requires targets != []
    ensures Targeted(layers, targets, m) <==> LayerIndex(layers, targets[0]) == Some(m) || Targeted(layers, targets[1..], m)
  {
    assert forall x :: x in targets <==> x == targets[0] || x in targets[1..];
  }

  /** The names reported applied are exactly the targets found. */
  lemma {:induction false} BulkCopyApplied(layers: seq<ViewLayer>, form: BulkForm, targets: seq<string>)
    ensures forall x :: x in BulkCopy(layers, form, targets).1 <==> x in targets && LayerIndex(layers, x).Some?
    decreases |targets|
  {
    if targets != [] {
      var next := CopyOne(layers, form, targets[0]);
      BulkCopyApplied(next, form, targets[1..]);
      CopyOneKeepsIndex(layers, form, targets[0]);
      assert forall x :: x in targets <==> x == targets[0] || x in targets[1..];
    }
  }

  /** Every layer named by some target is overwritten with the pop-up's
      values (a name listed twice makes no difference); every other layer
      is left alone. */
  lemma {:induction false} BulkCopySpec(layers: seq<ViewLayer>, form: BulkForm, targets: seq<string>)
    ensures var r := BulkCopy(layers, form, targets);
      forall m :: 0 <= m < |layers| ==>
        r.0[m] == if Targeted(layers, targets, m) then CopyInto(form, layers[m]) else layers[m]
    decreases |targets|
  {
    if targets != [] {
      var t := targets[0];
      var next := CopyOne(layers, form, t);
      var r := BulkCopy(layers, form, targets);
      assert r.0 == BulkCopy(next, form, targets[1..]).0;
      BulkCopySpec(next, form, targets[1..]);
      CopyOneKeepsIndex(layers, form, t);
      forall m | 0 <= m < |layers|
        ensures r.0[m] == if Targeted(layers, targets, m) then CopyInto(form, layers[m]) else layers[m]
      {
        TargetedCons(layers, targets, m);
        assert Targeted(next, targets[1..], m) <==> Targeted(layers, targets[1..], m);
        CopyIntoIdempotent(form, layers[m]);
      }
    }
  }

  /** The bulk render-settings operator: with no targets, or none found,
      it cancels; otherwise the values are copied and the render override
      is applied for the active layer `k`. */
  function BulkRenderSettings(s: Scene, form: BulkForm, items: seq<TargetItem>, active: Option<string>, k: nat): (r: (Status, Scene))
    requires k < |s.layers|
    ensures r.0 == Cancelled <==> forall t :: t in ResolveTargets(items, active) ==> LayerIndex(s.layers, t).None?
    ensures r.0 == Cancelled ==> r.1 == s
    ensures r.0 != Cancelled ==> r.0 == Finished
    ensures r.0 != Cancelled ==>
      r.1 == RenderOverride.ApplyRenderOverride(s.(layers := BulkCopy(s.layers, form, ResolveTargets(items, active)).0), k)
  {
    var targets := ResolveTargets(items, active);
    if targets == [] then (Cancelled, s)
    else
      var copied := BulkCopy(s.layers, form, targets);
      BulkCopyApplied(s.layers, form, targets);
      if copied.1 == [] then (Cancelled, s)
      else
        assert copied.1[0] in copied.1;
        (Finished, RenderOverride.ApplyRenderOverride(s.(layers := copied.0), k))
  }

  // ---------------------------------------------------------------------
  // The AO chain guard

  /** A compositor node as the AO chain sees it. For a Render Layers node,
      `hasImage` and `hasAo` say whether its `Image` and `AO` outputs exist
      AFTER the layer's AO pass has been switched on: that switch is what
      adds the `AO` output, so `hasAo` is false only when the render engine
      has no AO pass. */
  datatype Node =
    | RenderLayers(layer: string, name: string, hasImage: bool, hasAo: bool)
    | MixRgb(tag: string)
    | RgbCurves(tag: string)
    | OtherNode

  /** `f"VLM_AO_Mix__{vl_name or rl.name}"`. */
  function MixTag(rl: Node): (r: string)
    requires rl.RenderLayers?
  {
    "VLM_AO_Mix__" + (if rl.layer != "" then rl.layer else rl.name)
  }

  function CurvesTag(rl: Node): string
    requires rl.RenderLayers?
  {
    "VLM_AO_Curves__" + (if rl.layer != "" then rl.layer else rl.name)
  }

  predicate HasMix(nodes: seq<Node>, tag: string) {
    exists i :: 0 <= i < |nodes| && nodes[i] == MixRgb(tag)
  }

  predicate Eligible(rl: Node) {
    rl.RenderLayers? && rl.hasImage && rl.hasAo
  }

  /** The Render Layers nodes, in order. */
  function RenderLayerNodes(nodes: seq<Node>): (r: seq<Node>)
    ensures forall i :: 0 <= i < |r| ==> r[i].RenderLayers?
  {
    if nodes == [] then []
    else (if nodes[0].RenderLayers? then [nodes[0]] else []) + RenderLayerNodes(nodes[1..])
  }

  lemma {:induction false} RenderLayerNodesAppend(a: seq<Node>, b: seq<Node>)
    ensures RenderLayerNodes(a + b) == RenderLayerNodes(a) + RenderLayerNodes(b)
    decreases |a|
  {
    if a == [] {
      assert a + b == b;
    } else {
      assert (a + b)[0] == a[0] && (a + b)[1..] == a[1..] + b;
      RenderLayerNodesAppend(a[1..], b);
      assert RenderLayerNodes(a + b) == (if a[0].RenderLayers? then [a[0]] else []) + RenderLayerNodes(a[1..] + b);
    }
  }

  lemma {:induction false} NoRenderLayerNodes(b: seq<Node>)
    requires forall i :: 0 <= i < |b| ==> !b[i].RenderLayers?
    ensures RenderLayerNodes(b) == []
    decreases |b|
  {
    if b != [] {
      NoRenderLayerNodes(b[1..]);
    }
  }

  /** The loop over Render Layers nodes: a node without an Image or an AO
      output is skipped, and so is one whose tagged mix node already
      exists; otherwise a tagged mix and curves pair is added. */
  function AoChain(nodes: seq<Node>, rls: seq<Node>): (r: seq<Node>)
    requires forall i :: 0 <= i < |rls| ==> rls[i].RenderLayers?
    ensures |r| >= |nodes| && r[..|nodes|] == nodes
    ensures forall i :: |nodes| <= i < |r| ==> !r[i].RenderLayers?
    ensures forall i :: 0 <= i < |rls| && Eligible(rls[i]) ==> HasMix(r, MixTag(rls[i]))
    decreases |rls|
  {
    if rls == [] then nodes
    else
      var rl := rls[0];
      var next := if !Eligible(rl) || HasMix(nodes, MixTag(rl)) then nodes
                  else nodes + [MixRgb(MixTag(rl)), RgbCurves(CurvesTag(rl))];
      assert HasMix(next, MixTag(rl)) || !Eligible(rl) by {
        if Eligible(rl) && !HasMix(nodes, MixTag(rl)) {
          assert next[|nodes|] == MixRgb(MixTag(rl));
        }
      }
      var r := AoChain(next, rls[1..]);
      assert forall tag :: HasMix(next, tag) ==> HasMix(r, tag) by {
        forall tag | HasMix(next, tag) ensures HasMix(r, tag) {
          var i :| 0 <= i < |next| && next[i] == MixRgb(tag);
          assert r[i] == next[i];
        }
      }
      assert forall i :: 1 <= i < |rls| ==> rls[i] == rls[1..][i - 1];
      r
  }

  /** When every eligible node already has its mix, nothing is added. */
  lemma {:induction false} AoChainDone(nodes: seq<Node>, rls: seq<Node>)
    requires forall i :: 0 <= i < |rls| ==> rls[i].RenderLayers?
    requires forall i :: 0 <= i < |rls| && Eligible(rls[i]) ==> HasMix(nodes, MixTag(rls[i]))
    ensures AoChain(nodes, rls) == nodes
    decreases |rls|
  {
    if rls != [] {
      AoChainDone(nodes, rls[1..]);
    }
  }

  /** The AO-multiply operator: without a Render Layers node it raises;
      otherwise it runs the loop over them. */
  function AddAoMultiply(nodes: seq<Node>): (r: (Status, seq<Node>))
    ensures r.0 == Raised <==> RenderLayerNodes(nodes) == []
    ensures r.0 == Raised ==> r.1 == nodes
    ensures r.0 != Raised ==> r.0 == Finished && |r.1| >= |nodes| && r.1[..|nodes|] == nodes
  {
    var rls := RenderLayerNodes(nodes);
    if rls == [] then (Raised, nodes) else (Finished, AoChain(nodes, rls))
  }

  /** Running the operator again adds no node. */
  lemma AddAoMultiplyIdempotent(nodes: seq<Node>)
    requires AddAoMultiply(nodes).0 == Finished
    ensures AddAoMultiply(AddAoMultiply(nodes).1) == (Finished, AddAoMultiply(nodes).1)
  {
    var rls := RenderLayerNodes(nodes);
    var r := AoChain(nodes, rls);
    assert r == nodes + r[|nodes|..];
    RenderLayerNodesAppend(nodes, r[|nodes|..]);
    NoRenderLayerNodes(r[|nodes|..]);
    assert RenderLayerNodes(r) == rls;
    AoChainDone(r, rls);
  }
}

=== FILE: render_override.dfy ===
/** Per-view-layer render overrides: each setting is taken from the layer
    itself or falls back to the top (first) layer, samples have a third,
    scene-wide forced tier, and legacy engine ids are normalised first. */
module RenderOverride {
  import opened Base
  import opened Scene

  // ------------------------------------------------------------------
  // Engine ids
  // ------------------------------------------------------------------

  /** Legacy and unknown engine ids are mapped to Eevee Next; the three
      valid ids pass through. */
  function NormalizeEngineId(v: string): (r: string)
    ensures ValidEngine(r)
    ensures ValidEngine(v) ==> r == v
    ensures !ValidEngine(v) ==> r == EEVEE_NEXT
  {
    if v == [] then EEVEE_NEXT
    else if v == "BLENDER_EEVEE" || v == "EEVEE" then EEVEE_NEXT
    else if !ValidEngine(v) then EEVEE_NEXT
    else v
  }

  lemma NormalizeEngineIdIdempotent(v: string)
    ensures NormalizeEngineId(NormalizeEngineId(v)) == NormalizeEngineId(v)
    ensures NormalizeEngineId("") == EEVEE_NEXT
    ensures NormalizeEngineId("BLENDER_EEVEE") == EEVEE_NEXT && NormalizeEngineId("EEVEE") == EEVEE_NEXT
  {
  }

  function SanitizeLayer(vl: ViewLayer): ViewLayer {
    vl.(render := vl.render.(engine := NormalizeEngineId(vl.render.engine)))
  }

  /** Rewrites every stored engine id in place. */
  function SanitizeEngineValues(layers: seq<ViewLayer>): (r: seq<ViewLayer>)
    ensures |r| == |layers|
    ensures forall i :: 0 <= i < |r| ==> ValidEngine(r[i].render.engine)
    ensures forall i :: 0 <= i < |r| && ValidEngine(layers[i].render.engine) ==> r[i] == layers[i]
    ensures forall i :: 0 <= i < |r| ==> r[i].(render := r[i].render.(engine := layers[i].render.engine)) == layers[i]
  {
    seq(|layers|, i requires 0 <= i < |layers| => SanitizeLayer(layers[i]))
  }

  lemma SanitizeEngineValuesIdempotent(layers: seq<ViewLayer>)
    ensures SanitizeEngineValues(SanitizeEngineValues(layers)) == SanitizeEngineValues(layers)
  {
  }

  // ------------------------------------------------------------------
  // Resolution scaling above 100 %
  // ------------------------------------------------------------------

  /** Python's `round` of the exact quotient `n / m`: to the nearest
      integer, halves to the even neighbour. */
  function RoundHalfEven(n: int, m: int): (r: int)
    requires m > 0
    ensures 2 * (r * m - n) <= m && 2 * (n - r * m) <= m
    ensures 2 * (r * m - n) == m || 2 * (n - r * m) == m ==> r % 2 == 0
  {
    var q, rem := n / m, n % m;
    if 2 * rem < m then q
    else if 2 * rem > m then q + 1
    else if q % 2 == 0 then q
    else q + 1
  }

  const MaxDim: int := 16384

  /** One dimension rendered at `scale` percent (`scale > 100`), capped. */
  function ScaleDim(d: int, scale: int): (r: int)
    requires scale > 100
    ensures r <= MaxDim
    ensures r < MaxDim <==> RoundHalfEven(d * scale, 100) < MaxDim
    ensures r < MaxDim ==> 2 * (r * 100 - d * scale) <= 100 && 2 * (d * scale - r * 100) <= 100
  {
    Min(RoundHalfEven(d * scale, 100), MaxDim)
  }

  /** Scaling up never shrinks a dimension that is in range. */
  lemma ScaleDimGrows(d: int, scale: int)
    requires scale > 100 && 1 <= d <= MaxDim
    ensures d <= ScaleDim(d, scale)
  {
    var e := scale - 101;
    assert d * scale == d * 101 + d * e;
    assert d * e >= 0;
  }

  /** The scaled format: clamps the percentage to [1, 1000]; at 100 or
      below copies the size, above scales it and reports 100 %. */
  function ResolveFormat(resX: int, resY: int, pct: int): (r: (int, int, int))
    ensures 1 <= r.2 <= 100
    ensures var scale := Max(1, Min(pct, 1000));
      && (scale <= 100 ==> r == (resX, resY, scale))
      && (scale > 100 ==> r == (ScaleDim(resX, scale), ScaleDim(resY, scale), 100))
  {
    var scale := Max(1, Min(pct, 1000));
    if scale <= 100 then (resX, resY, scale)
    else (ScaleDim(resX, scale), ScaleDim(resY, scale), 100)
  }

  /** The repaired frame range: a negative start becomes 0, an end before
      the start becomes the start, a step below 1 becomes 1. */
  function ResolveFrames(start: int, end: int, step: int): (r: (int, int, int))
    ensures 0 <= r.0 <= r.1 && r.2 >= 1
    ensures 0 <= start <= end && step >= 1 ==> r == (start, end, step)
    ensures start >= 0 ==> r.0 == start
    ensures start < 0 ==> r.0 == 0
    ensures end >= r.0 ==> r.1 == end
    ensures end < r.0 ==> r.1 == r.0
    ensures step >= 1 ==> r.2 == step
    ensures step < 1 ==> r.2 == 1
  {
    var s := Max(0, start);
    (s, Max(s, end), Max(1, step))
  }

  // ------------------------------------------------------------------
  // apply_render_override
  // ------------------------------------------------------------------

  /** The layer a setting is read from: the layer itself when it is the top
      layer or its override flag is set, else the top layer. */
  function Source(layers: seq<ViewLayer>, k: nat, enable: bool): (r: RenderSettings)
    requires k < |layers|
    ensures k == 0 || enable ==> r == layers[k].render
    ensures k != 0 && !enable ==> r == layers[0].render
  {
    if k == 0 || enable then layers[k].render else layers[0].render
  }

  /** The samples value chosen before the forced tier: `None` when the
      forced samples are on, else the layer's own (`samples_enable`) or the
      top layer's, at least 1. */
  function ResolveSamples(s: Scene, own: RenderSettings, top: RenderSettings): (r: Option<int>)
    ensures r.None? <==> s.forceSamples
    ensures r.Some? ==> r.value >= 1
    ensures !s.forceSamples && own.samplesEnable ==> r == Some(Max(1, own.samples))
    ensures !s.forceSamples && !own.samplesEnable ==> r == Some(Max(1, top.samples))
  {
    if s.forceSamples then None
    else if own.samplesEnable then Some(Max(1, own.samples))
    else Some(Max(1, top.samples))
  }

  /** `top_vl.vlm_world or scene.world`. */
  function BaseWorld(s: Scene): Option<string>
    requires |s.layers| > 0
  {
    Or(s.layers[0].world, s.world)
  }

  /** The scene's engine and sample settings after applying layer `k` of
      the (already normalised) layers. */
  datatype EngineState = EngineState(engine: string, cyclesSamples: int, cyclesDenoise: bool, eeveeSamples: int)

  function ResolveEngine(s: Scene, layers: seq<ViewLayer>, k: nat): (r: EngineState)
    requires k < |layers|
    ensures ValidEngine(r.engine)
    ensures r.engine == CYCLES ==> r.cyclesSamples >= 1
    ensures r.engine == EEVEE_NEXT ==> r.eeveeSamples >= 1
    ensures r.engine != CYCLES ==> r.cyclesSamples == s.cyclesSamples && r.cyclesDenoise == s.cyclesDenoise
    ensures r.engine != EEVEE_NEXT ==> r.eeveeSamples == s.eeveeSamples
    ensures var src := Source(layers, k, layers[k].render.engineEnable);
      && r.engine == NormalizeEngineId(src.engine)
      && (r.engine == CYCLES ==> r.cyclesDenoise == src.useDenoise)
    ensures var chosen := ResolveSamples(s, layers[k].render, layers[0].render);
      && (r.engine == CYCLES ==> r.cyclesSamples == if s.forceSamples then Max(1, s.forceCycles) else chosen.value)
      && (r.engine == EEVEE_NEXT ==> r.eeveeSamples == if s.forceSamples then Max(1, s.forceEevee) else chosen.value)
  {
    var own := layers[k].render;
    var engSrc := Source(layers, k, own.engineEnable);
    var engine := NormalizeEngineId(engSrc.engine);
    var samplesVal := ResolveSamples(s, own, layers[0].render);
    EngineState(
      engine,
      if engine != CYCLES then s.cyclesSamples
      else if s.forceSamples then Max(1, s.forceCycles)
      else samplesVal.value,
      if engine == CYCLES then engSrc.useDenoise else s.cyclesDenoise,
      if engine != EEVEE_NEXT then s.eeveeSamples
      else if s.forceSamples then Max(1, s.forceEevee)
      else samplesVal.value)
  }

  /** The camera layer `k` asks for (`None` keeps the scene camera). */
  function ResolveCamera(layers: seq<ViewLayer>, k: nat): Option<string>
    requires k < |layers|
  {
    var own := layers[k].render;
    if k == 0 then own.camera
    else if own.cameraEnable && own.camera.Some? then own.camera
    else layers[0].render.camera
  }

  function ResolveWorld(s: Scene, layers: seq<ViewLayer>, k: nat): Option<string>
    requires k < |layers|
  {
    var base := Or(layers[0].world, s.world);
    if k == 0 then base
    else if layers[k].render.worldEnable && layers[k].world.Some? then layers[k].world
    else base
  }

  /** Copy the resolved settings of layer `k` into the scene.  Legacy
      engine ids in every layer are normalised first. */
  function ApplyRenderOverride(s: Scene, k: nat): (r: Scene)
    requires k < |s.layers|
    ensures r.layers == SanitizeEngineValues(s.layers) && |r.layers| == |s.layers|
    ensures ValidEngine(r.engine)
    ensures r.engine == CYCLES ==> r.cyclesSamples >= 1
    ensures r.engine == EEVEE_NEXT ==> r.eeveeSamples >= 1
    ensures r.engine != CYCLES ==> r.cyclesSamples == s.cyclesSamples && r.cyclesDenoise == s.cyclesDenoise
    ensures r.engine != EEVEE_NEXT ==> r.eeveeSamples == s.eeveeSamples
    ensures r.camera.None? ==> s.camera.None?
    ensures 1 <= r.resPct <= 100
    ensures 0 <= r.frameStart <= r.frameEnd && r.frameStep >= 1
    ensures r.forceSamples == s.forceSamples && r.forceCycles == s.forceCycles
            && r.forceEevee == s.forceEevee && r.synced == s.synced
  {
    var layers := SanitizeEngineValues(s.layers);
    var e := ResolveEngine(s, layers, k);
    var fmt := Source(layers, k, layers[k].render.formatEnable);
    var format := ResolveFormat(fmt.resX, fmt.resY, fmt.resPct);
    var frm := Source(layers, k, layers[k].render.frameEnable);
    var frames := ResolveFrames(frm.frameStart, frm.frameEnd, frm.frameStep);
    s.(layers := layers, engine := e.engine,
       cyclesSamples := e.cyclesSamples, cyclesDenoise := e.cyclesDenoise, eeveeSamples := e.eeveeSamples,
       camera := Or(ResolveCamera(layers, k), s.camera),
       resX := format.0, resY := format.1, resPct := format.2,
       frameStart := frames.0, frameEnd := frames.1, frameStep := frames.2,
       world := ResolveWorld(s, layers, k))
  }

  /** The engine comes from the layer when it is the top layer or overrides
      the engine, otherwise from the top layer. */
  lemma EngineSource(s: Scene, k: nat)
    requires k < |s.layers|
    ensures var r := ApplyRenderOverride(s, k);
      if k == 0 || s.layers[k].render.engineEnable
      then r.engine == NormalizeEngineId(s.layers[k].render.engine)
      else r.engine == NormalizeEngineId(s.layers[0].render.engine)
  {
  }

  /** Samples priority: forced value for the engine, else the layer's own
      samples when enabled, else the top layer's; Workbench keeps both. */
  lemma SamplesPriority(s: Scene, k: nat)
    requires k < |s.layers|
    ensures var r := ApplyRenderOverride(s, k);
      var chosen :=
        if s.forceSamples then (if r.engine == CYCLES then Max(1, s.forceCycles) else Max(1, s.forceEevee))
        else if s.layers[k].render.samplesEnable then Max(1, s.layers[k].render.samples)
        else Max(1, s.layers[0].render.samples);
      && (r.engine == CYCLES ==> r.cyclesSamples == chosen && r.eeveeSamples == s.eeveeSamples)
      && (r.engine == EEVEE_NEXT ==> r.eeveeSamples == chosen && r.cyclesSamples == s.cyclesSamples)
      && (r.engine == WORKBENCH ==> r.cyclesSamples == s.cyclesSamples && r.eeveeSamples == s.eeveeSamples)
  {
  }

  /** A non-top layer uses its own camera only when it overrides the camera
      and has one; a resolved `None` leaves the scene camera alone. */
  lemma CameraSource(s: Scene, k: nat)
    requires k < |s.layers|
    ensures var r := ApplyRenderOverride(s, k);
      var own, top := s.layers[k].render.camera, s.layers[0].render.camera;
      if k == 0 then r.camera == Or(own, s.camera)
      else if s.layers[k].render.cameraEnable && own.Some? then r.camera == own
      else r.camera == Or(top, s.camera)
  {
  }

  /** The format is copied verbatim at 100 % or below; above, the
      percentage becomes 100 and the dimensions are scaled and capped. */
  lemma FormatRule(s: Scene, k: nat)
    requires k < |s.layers|
    ensures var r := ApplyRenderOverride(s, k);
      var f := if k == 0 || s.layers[k].render.formatEnable then s.layers[k].render else s.layers[0].render;
      var scale := Max(1, Min(f.resPct, 1000));
      && 1 <= scale <= 1000
      && (scale <= 100 ==> r.resX == f.resX && r.resY == f.resY && r.resPct == scale)
      && (scale > 100 ==> r.resPct == 100 && r.resX == ScaleDim(f.resX, scale) && r.resY == ScaleDim(f.resY, scale))
  {
  }

  /** The frame range comes from the layer or the top layer and is
      repaired by `ResolveFrames` to start >= 0, end >= start, step >= 1;
      a range that is already well formed is copied unchanged. */
  lemma FrameRangeRule(s: Scene, k: nat)
    requires k < |s.layers|
    ensures var r := ApplyRenderOverride(s, k);
      var f := if k == 0 || s.layers[k].render.frameEnable then s.layers[k].render else s.layers[0].render;
      && (r.frameStart, r.frameEnd, r.frameStep) == ResolveFrames(f.frameStart, f.frameEnd, f.frameStep)
      && 0 <= r.frameStart <= r.frameEnd && r.frameStep >= 1
      && ((0 <= f.frameStart <= f.frameEnd && f.frameStep >= 1) ==>
            r.frameStart == f.frameStart && r.frameEnd == f.frameEnd && r.frameStep == f.frameStep)
  {
  }

  /** The top layer gets the base world; another layer its own world only
      when it overrides the world and has one. */
  lemma WorldSource(s: Scene, k: nat)
    requires k < |s.layers|
    ensures var r := ApplyRenderOverride(s, k);
      if k != 0 && s.layers[k].render.worldEnable && s.layers[k].world.Some?
      then r.world == s.layers[k].world
      else r.world == BaseWorld(s)
  {
  }

  /** No flag set on a non-top layer: it renders exactly like the top one. */
  predicate NoOverrides(rs: RenderSettings) {
    !rs.engineEnable && !rs.samplesEnable && !rs.cameraEnable && !rs.worldEnable
    && !rs.formatEnable && !rs.frameEnable
  }

  lemma NonOverridingLayerRendersAsTop(s: Scene, k: nat)
    requires k < |s.layers| && NoOverrides(s.layers[k].render)
    ensures ApplyRenderOverride(s, k) == ApplyRenderOverride(s, 0)
  {
  }

  /** Applying the same layer twice is the same as applying it once. */
  lemma ApplyIdempotent(s: Scene, k: nat)
    requires k < |s.layers|
    ensures ApplyRenderOverride(ApplyRenderOverride(s, k), k) == ApplyRenderOverride(s, k)
  {
    SanitizeEngineValuesIdempotent(s.layers);
  }

  // ------------------------------------------------------------------
  // sync_scene_settings_to_addon
  // ------------------------------------------------------------------

  /** The hard upper limit of the samples property. */
  const MaxSamples: int := 4096

  /** The engine a layer's record gets from the scene's engine: both Eevee
      ids become Eevee Next, Cycles stays Cycles, and any other engine
      leaves the record's engine as it was. */
  function SyncedEngine(sceneEngine: string, was: string): (r: string)
    ensures sceneEngine == "BLENDER_EEVEE" || sceneEngine == EEVEE_NEXT ==> r == EEVEE_NEXT
    ensures sceneEngine == CYCLES ==> r == CYCLES
    ensures sceneEngine != "BLENDER_EEVEE" && sceneEngine != EEVEE_NEXT && sceneEngine != CYCLES ==> r == was
  {
    if sceneEngine == "BLENDER_EEVEE" || sceneEngine == EEVEE_NEXT then EEVEE_NEXT
    else if sceneEngine == CYCLES then CYCLES
    else was
  }

  /** Copy the scene's settings into one layer's record.  Every assignment
      to an integer property is clamped to that property's limits: samples
      to [1, 4096], the resolution to [1, 16384], the percentage to
      [1, 1000], frame start and end to at least 0, the step to at least 1. */
  function SyncLayer(s: Scene, vl: ViewLayer): ViewLayer {
    var rs := vl.render;
    var engine := SyncedEngine(s.engine, rs.engine);
    var samples :=
      if engine == CYCLES then Clamp(s.cyclesSamples, 1, MaxSamples)
      else if engine == EEVEE_NEXT then Clamp(s.eeveeSamples, 1, MaxSamples)
      else rs.samples;
    var denoise := if engine == CYCLES then s.cyclesDenoise else rs.useDenoise;
    vl.(render := rs.(engine := engine, samples := samples, useDenoise := denoise,
                      camera := Or(s.camera, rs.camera),
                      resX := Clamp(s.resX, 1, MaxDim), resY := Clamp(s.resY, 1, MaxDim),
                      resPct := Clamp(s.resPct, 1, 1000),
                      frameStart := Max(0, s.frameStart), frameEnd := Max(0, s.frameEnd),
                      frameStep := Max(1, s.frameStep)),
        world := Or(s.world, vl.world))
  }

  /** Layer `now` is layer `was` after taking the scene's settings: the
      engine mapped by `SyncedEngine`, that engine's samples (clamped) and
      Cycles' denoise flag, the scene camera and world when it has them, the
      clamped format and frame range; nothing else of the layer changes
      apart from the override flags. */
  predicate SyncedFrom(s: Scene, was: ViewLayer, now: ViewLayer) {
    var rs, w := now.render, was.render;
    && now == was.(render := rs, world := now.world)
    && now.world == Or(s.world, was.world)
    && rs.engine == SyncedEngine(s.engine, w.engine)
    && (rs.engine == CYCLES ==> rs.samples == Clamp(s.cyclesSamples, 1, MaxSamples) && rs.useDenoise == s.cyclesDenoise)
    && (rs.engine == EEVEE_NEXT ==> rs.samples == Clamp(s.eeveeSamples, 1, MaxSamples) && rs.useDenoise == w.useDenoise)
    && (rs.engine != CYCLES && rs.engine != EEVEE_NEXT ==> rs.samples == w.samples && rs.useDenoise == w.useDenoise)
    && rs.camera == Or(s.camera, w.camera)
    && rs.resX == Clamp(s.resX, 1, MaxDim) && rs.resY == Clamp(s.resY, 1, MaxDim) && rs.resPct == Clamp(s.resPct, 1, 1000)
    && rs.frameStart == Max(0, s.frameStart) && rs.frameEnd == Max(0, s.frameEnd) && rs.frameStep == Max(1, s.frameStep)
    && rs.samplesEnable == w.samplesEnable
  }

  /** The five override flags of two records agree. */
  predicate SameFlags(a: RenderSettings, b: RenderSettings) {
    a.engineEnable == b.engineEnable && a.cameraEnable == b.cameraEnable && a.formatEnable == b.formatEnable
    && a.frameEnable == b.frameEnable && a.worldEnable == b.worldEnable
  }

  lemma SyncLayerSynced(s: Scene, vl: ViewLayer)
    ensures SyncedFrom(s, vl, SyncLayer(s, vl)) && SameFlags(SyncLayer(s, vl).render, vl.render)
  {
  }

  /** The top layer after the sync: all five override flags on, and the
      scene's world when the layer has none. */
  function MarkTop(s: Scene, vl: ViewLayer): ViewLayer {
    vl.(render := vl.render.(engineEnable := true, cameraEnable := true, formatEnable := true,
                             frameEnable := true, worldEnable := true),
        world := if vl.world.None? && s.world.Some? then s.world else vl.world)
  }

  lemma MarkTopSynced(s: Scene, was: ViewLayer, now: ViewLayer)
    requires SyncedFrom(s, was, now)
    ensures SyncedFrom(s, was, MarkTop(s, now))
  {
  }

  /** Every layer takes the scene's settings (clamped to the properties'
      limits), then the top layer gets all five override flags switched on
      and keeps a world when the scene has one, and the scene is marked
      synced.  The scene's own settings are not touched. */
  function SyncSceneSettings(s: Scene): (r: Scene)
    ensures |r.layers| == |s.layers| && r.synced
    ensures r.(layers := s.layers, synced := s.synced) == s
    ensures |r.layers| > 0 ==>
      var top := r.layers[0].render;
      top.engineEnable && top.cameraEnable && top.formatEnable && top.frameEnable && top.worldEnable
    ensures forall i :: 0 <= i < |r.layers| ==> SyncedFrom(s, s.layers[i], r.layers[i])
    ensures forall i :: 0 < i < |r.layers| ==> SameFlags(r.layers[i].render, s.layers[i].render)
  {
    var layers := seq(|s.layers|, i requires 0 <= i < |s.layers| => SyncLayer(s, s.layers[i]));
    assert forall i :: 0 <= i < |layers| ==> SyncedFrom(s, s.layers[i], layers[i]) && SameFlags(layers[i].render, s.layers[i].render) by {
      forall i | 0 <= i < |layers| ensures SyncedFrom(s, s.layers[i], layers[i]) && SameFlags(layers[i].render, s.layers[i].render) {
        SyncLayerSynced(s, s.layers[i]);
      }
    }
    var fixed := if |layers| == 0 then layers else layers[0 := MarkTop(s, layers[0])];
    assert |layers| > 0 ==> SyncedFrom(s, s.layers[0], fixed[0]) by {
      if |layers| > 0 {
        MarkTopSynced(s, s.layers[0], layers[0]);
      }
    }
    s.(layers := fixed, synced := true)
  }

  /** When the scene's settings are already within the properties' limits
      and the ranges the override enforces, syncing and then applying the
      top layer (what the load handler does) leaves the scene's render
      settings as they were. */
  lemma SyncThenApplyTopRoundTrip(s: Scene)
    requires |s.layers| > 0
    requires s.engine == EEVEE_NEXT || s.engine == CYCLES
    requires !s.forceSamples
    requires s.engine == CYCLES ==> 1 <= s.cyclesSamples <= MaxSamples
    requires s.engine == EEVEE_NEXT ==> 1 <= s.eeveeSamples <= MaxSamples
    requires 1 <= s.resX <= MaxDim && 1 <= s.resY <= MaxDim && 1 <= s.resPct <= 100
    requires 0 <= s.frameStart <= s.frameEnd && s.frameStep >= 1
    requires s.camera.Some? || s.layers[0].render.camera.None?
    requires s.world.Some? || s.layers[0].world.None?
    ensures var t := SyncSceneSettings(s);
      ApplyRenderOverride(t, 0) == t
  {
    var t := SyncSceneSettings(s);
    assert forall i :: 0 <= i < |t.layers| ==> ValidEngine(t.layers[i].render.engine);
    assert SanitizeEngineValues(t.layers) == t.layers;
  }

  /** A scene whose resolution lies outside the properties' limits comes
      out of the load handler with the clamped resolution: the sync stores
      the clamped value and applying the top layer writes it back. */
  lemma LoadPostClampsResolution(s: Scene)
    requires !s.synced && |s.layers| > 0 && s.resPct <= 100
    ensures LoadPost(s).resX == Clamp(s.resX, 1, MaxDim) && LoadPost(s).resY == Clamp(s.resY, 1, MaxDim)
  {
    var t := SyncSceneSettings(s);
    FormatRule(t, 0);
  }

  /** The file-load handler: sync once, then apply the top layer. */
  function LoadPost(s: Scene): (r: Scene)
    ensures r.synced && |r.layers| == |s.layers|
    ensures s.synced ==> r == s
    ensures !s.synced && |s.layers| > 0 ==> r.engine == NormalizeEngineId(r.layers[0].render.engine)
  {
    if s.synced then s
    else
      var t := SyncSceneSettings(s);
      if |t.layers| > 0 then ApplyRenderOverride(t, 0) else t
  }

  /** The re-sync operator clears the marker and runs the handler. */
  function ResyncOperator(s: Scene): (r: Scene)
    ensures r.synced && |r.layers| == |s.layers|
    ensures |s.layers| > 0 ==> r.layers[0].render.engineEnable && r.layers[0].render.worldEnable
  {
    LoadPost(s.(synced := false))
  }

  /** A property edit re-applies the render settings of the active layer
      (`context.view_layer`), whichever layer's property was edited, but
      only once the scene is synced. */
  function OnPropertyUpdate(s: Scene, active: nat): (r: Scene)
    requires active < |s.layers|
    ensures !s.synced ==> r == s
    ensures s.synced ==> r.synced && r.layers == SanitizeEngineValues(s.layers)
    ensures s.synced ==> r.engine == NormalizeEngineId(Source(s.layers, active, s.layers[active].render.engineEnable).engine)
    ensures s.synced ==> 1 <= r.resPct <= 100 && 0 <= r.frameStart <= r.frameEnd && r.frameStep >= 1
  {
    if !s.synced then s
    else
      EngineSource(s, active);
      ApplyRenderOverride(s, active)
  }

  /** A second update event for the same active layer changes nothing. */
  lemma OnPropertyUpdateSettles(s: Scene, active: nat)
    requires active < |s.layers|
    ensures OnPropertyUpdate(OnPropertyUpdate(s, active), active) == OnPropertyUpdate(s, active)
  {
    if s.synced {
      ApplyIdempotent(s, active);
    }
  }
}

=== FILE: scene.dfy ===
/** The scene-level state the add-on reads and writes: its per-view-layer
    settings record (`VLM_RenderSettings` plus the view-layer properties the
    add-on registers) and the scene's own render settings.  Objects such as
    cameras and worlds are identified by name; `None` is Python's `None`. */
module Scene {
  import opened Base
  import opened LayerTree

  const EEVEE_NEXT: string := "BLENDER_EEVEE_NEXT"
  const WORKBENCH: string := "BLENDER_WORKBENCH"
  const CYCLES: string := "CYCLES"

  /** The three items of the engine enum. */
  predicate ValidEngine(e: string) {
    e == EEVEE_NEXT || e == WORKBENCH || e == CYCLES
  }

  /** `vl.vlm_render`.  Pixel aspect and frame rate (floats) are not part of
      the model. */
  datatype RenderSettings = RenderSettings(
    engineEnable: bool, engine: string,
    samplesEnable: bool, samples: int, useDenoise: bool,
    cameraEnable: bool, camera: Option<string>,
    worldEnable: bool,
    formatEnable: bool, resX: int, resY: int, resPct: int,
    frameEnable: bool, frameStart: int, frameEnd: int, frameStep: int)

  /** The property defaults of a freshly created view layer. */
  const DefaultRender: RenderSettings :=
    RenderSettings(false, EEVEE_NEXT, false, 64, false, false, None, false,
                   false, 1920, 1080, 100, false, 1, 250, 1)

  /** One memorised light: the fields of the stored dictionary entry, each
      possibly missing. */
  datatype LightRecord = LightRecord(hideViewport: Option<bool>, hideRender: Option<bool>)

  /** A view layer with the properties the add-on attaches to it:
      `vlm_world`, `vlm_render_this_layer`, Blender's own `use` flag, its
      layer-collection tree, the content-switch toggle with its stored list
      of collection names, and the memorised light states (`None` for the
      empty string, otherwise the decoded dictionary). */
  datatype ViewLayer = ViewLayer(
    name: string, render: RenderSettings, world: Option<string>,
    renderThis: bool, use: bool, tree: LC,
    contentSwitch: bool, contentNames: seq<string>,
    lightState: Option<map<string, LightRecord>>)

  datatype ObjKind = Mesh | Light | OtherKind

  /** An object of the blend file: its material slots (`None` is an empty
      slot), the pointer backup `backup_materials`, the legacy string
      backup property (`None` when absent), and the three visibility
      states: `hide_viewport`, `hide_render` and `hidden`, the eye
      (`hide_get`/`hide_set` called without a layer argument) in the view
      layer of the current context. The host keeps one eye state per view
      layer; the model keeps only this one. */
  datatype Obj = Obj(
    name: string, kind: ObjKind,
    slots: seq<Option<string>>, backup: seq<Option<string>>, legacy: Option<string>,
    hideViewport: bool, hideRender: bool, hidden: bool)

  /** A collection: its direct objects, all objects including nested
      collections' (computed by the host), its custom properties and its
      two flags shared by every view layer. */
  datatype Coll = Coll(
    objects: seq<string>, allObjects: seq<string>, props: map<string, string>,
    hideSelect: bool, hideRender: bool)

  /** Object names are unique in a blend file. */
  predicate UniqueNames(objs: seq<Obj>) {
    forall i, j :: 0 <= i < j < |objs| ==> objs[i].name != objs[j].name
  }

  /** `bpy.data`: objects in order, collections by name, material names. */
  datatype BlendData = BlendData(objects: seq<Obj>, collections: map<string, Coll>, materials: set<string>)

  /** A scene: its view layers in order (the first is the "top" layer every
      fallback refers to), its render settings, the forced-samples
      properties and the `vlm_settings_synced` marker. */
  datatype Scene = Scene(
    layers: seq<ViewLayer>,
    engine: string, cyclesSamples: int, cyclesDenoise: bool, eeveeSamples: int,
    camera: Option<string>, world: Option<string>,
    resX: int, resY: int, resPct: int,
    frameStart: int, frameEnd: int, frameStep: int,
    forceSamples: bool, forceCycles: int, forceEevee: int,
    synced: bool)

  /** The index of the first view layer with that name
      (`scene.view_layers.get(name)`). */
  function LayerIndex(layers: seq<ViewLayer>, name: string): (r: Option<nat>)
    ensures r.None? <==> forall i :: 0 <= i < |layers| ==> layers[i].name != name
    ensures r.Some? ==> r.value < |layers| && layers[r.value].name == name
                        && forall j :: 0 <= j < r.value ==> layers[j].name != name
  {
    if layers == [] then None
    else if layers[0].name == name then Some(0)
    else
      match LayerIndex(layers[1..], name)
      case None => None
      case Some(i) => Some(i + 1)
  }

  /** The lookup depends on the layers' names only. */
  lemma LayerIndexByNames(a: seq<ViewLayer>, b: seq<ViewLayer>, name: string)
    requires |a| == |b| && forall m :: 0 <= m < |a| ==> a[m].name == b[m].name
    ensures LayerIndex(a, name) == LayerIndex(b, name)
  {
    if LayerIndex(a, name).Some? {
      var i := LayerIndex(a, name).value;
      assert b[i].name == name;
      var k := LayerIndex(b, name).value;
      assert a[k].name == name;
    }
  }
}

=== FILE: viewlayer_ops.dfy ===
/** The view-layer operators: the content switch that re-applies a layer's
    stored list of included collections, the collection toggles, adding
    and removing view layers, and switching the active one. */
module ViewLayerOps {
  import opened Base
  import opened Scene
  import opened LayerTree
  import opened LexOrder
  import Names
  import Materials
  import Lights
  import RenderOverride

  // ---------------------------------------------------------------------
  // Content switch

  /** Names of the included nodes, the scene collection aside. */
  function OnNames(s: seq<Info>): (r: set<string>)
    ensures forall x :: x in r <==> exists i :: 0 <= i < |s| && !s[i].exclude && !IsSceneCollectionName(s[i].name) && s[i].name == x
  {
    set i | 0 <= i < |s| && !s[i].exclude && !IsSceneCollectionName(s[i].name) :: s[i].name
  }

  function CurrentOn(t: LC): set<string> {
    OnNames(Infos(t))
  }

  /** The stored list read as a set, empty names dropped. */
  function StoredNames(ns: seq<string>): (r: set<string>)
    ensures forall x :: x in r <==> x in ns && x != ""
  {
    set x | x in ns && x != ""
  }

  /** `_walk`: a node other than the scene collection is excluded exactly
      when its name is not among `on`. */
  function ContentLabel(on: set<string>, i: Info): Info {
    if IsSceneCollectionName(i.name) then i else i.(exclude := i.name !in on)
  }

  function ContentRule(on: set<string>): Info -> Info {
    i => ContentLabel(on, i)
  }

  function ContentWalk(t: LC, on: set<string>): (r: LC)
    ensures Arity(r) == Arity(t) && |Infos(r)| == |Infos(t)|
    ensures forall i :: 0 <= i < |Infos(t)| ==>
      var a, b := Infos(t)[i], Infos(r)[i];
      b == a.(exclude := b.exclude) && (IsSceneCollectionName(a.name) ==> b == a)
      && (!IsSceneCollectionName(a.name) ==> (b.exclude <==> a.name !in on))
  {
    MapTreeSpec(t, ContentRule(on));
    MapTree(t, ContentRule(on))
  }

  /** After the walk the included names are the same as before it. */
  lemma ContentWalkKeepsOn(t: LC)
    ensures CurrentOn(ContentWalk(t, CurrentOn(t))) == CurrentOn(t)
  {
    var on := CurrentOn(t);
    var s, s' := Infos(t), Infos(ContentWalk(t, on));
    forall x | x in on ensures x in OnNames(s') {
      var i :| 0 <= i < |s| && !s[i].exclude && !IsSceneCollectionName(s[i].name) && s[i].name == x;
      assert !s'[i].exclude && s'[i].name == x;
    }
  }

  /** Walking twice with the same names is walking once. */
  lemma ContentWalkIdempotent(t: LC, on: set<string>)
    ensures ContentWalk(ContentWalk(t, on), on) == ContentWalk(t, on)
  {
    var f := ContentRule(on);
    assert forall i :: f(i) == f(f(i));
    MapTreeCompose(t, f, f, f);
  }

  /** The value `_walk` writes for a name; none for the scene collection. */
  function ContentPick(on: set<string>): string -> Option<bool> {
    n => if IsSceneCollectionName(n) then None else Some(n !in on)
  }

  /** Through the host's recursive setter the walk ends where the node-wise
      rewrite does, as long as no collection below the root carries a
      scene-collection name: every node below the root is written after
      its ancestors, so its own value is the last one written. */
  lemma ContentWalkIsSetterWalk(t: LC, on: set<string>)
    requires forall i :: i in InfosF(t.children) ==> !IsSceneCollectionName(i.name)
    ensures SetterWalk(t, ContentPick(on)) == ContentWalk(t, on)
  {
    SetterWalkIsInheritFromRoot(t, ContentPick(on));
    InheritWalkNodewise(t, ContentPick(on), ContentRule(on), None);
  }

  /** `_apply_content_collection_overrides`. When the switch is off the
      layer is untouched; otherwise the stored list is rewritten to the
      sorted included names whenever it disagrees with them, and every
      node other than the scene collection is excluded exactly when no
      included node carries its name. */
  method ApplyContentOverrides(vl: ViewLayer) returns (applied: bool, r: ViewLayer)
    ensures !vl.contentSwitch ==> !applied && r == vl
    ensures vl.contentSwitch ==> applied && r == vl.(tree := r.tree, contentNames := r.contentNames)
    ensures vl.contentSwitch ==> r.tree == ContentWalk(vl.tree, CurrentOn(vl.tree))
    ensures vl.contentSwitch ==> StoredNames(r.contentNames) == CurrentOn(vl.tree) - {""}
    ensures vl.contentSwitch && StoredNames(vl.contentNames) == CurrentOn(vl.tree) ==> r.contentNames == vl.contentNames
    ensures vl.contentSwitch && StoredNames(vl.contentNames) != CurrentOn(vl.tree) ==>
      StrictlySorted(r.contentNames) && (forall x :: x in r.contentNames <==> x in CurrentOn(vl.tree))
  {
    if !vl.contentSwitch {
      return false, vl;
    }
    var on := CurrentOn(vl.tree);
    var names := vl.contentNames;
    if on != StoredNames(names) {
      names := SortedNames(on);
    }
    r := vl.(tree := ContentWalk(vl.tree, on), contentNames := names);
    applied := true;
  }

  /** A second application changes nothing: the stored names then agree
      with the included ones and the walk is already done. */
  lemma ContentOverridesStable(vl: ViewLayer, r: ViewLayer)
    requires vl.contentSwitch && "" !in CurrentOn(vl.tree)
    requires r == vl.(tree := ContentWalk(vl.tree, CurrentOn(vl.tree)), contentNames := r.contentNames)
    requires StoredNames(r.contentNames) == CurrentOn(vl.tree) - {""}
    ensures StoredNames(r.contentNames) == CurrentOn(r.tree)
    ensures ContentWalk(r.tree, CurrentOn(r.tree)) == r.tree
  {
    ContentWalkKeepsOn(vl.tree);
    ContentWalkIdempotent(vl.tree, CurrentOn(vl.tree));
  }

  // ---------------------------------------------------------------------
  // Toggles

  /** The value the setter writes, as a function of the node's own flag. */
  function Always(x: bool): bool -> bool { _ => x }
  function Negate(): bool -> bool { b => !b }
  function Keep(): bool -> bool { b => b }

  /** `toggle_collection_in_viewlayer`: looks the layer up by name (a
      missing name raises) and writes `exclude = not makeVisible` on the
      first pre-order node of that collection; the host's setter carries
      the value down to every node below it. */
  function ToggleCollection(s: Scene, layerName: string, collName: string, makeVisible: bool): (r: (Status, Scene))
    ensures r.0 == Raised <==> LayerIndex(s.layers, layerName).None?
    ensures r.0 == Raised ==> r.1 == s
    ensures r.0 != Raised ==> r.0 == Finished && |r.1.layers| == |s.layers| && r.1 == s.(layers := r.1.layers)
    ensures r.0 != Raised ==> var j := LayerIndex(s.layers, layerName).value;
      var t, t' := s.layers[j].tree, r.1.layers[j].tree;
      && (forall m :: 0 <= m < |s.layers| && m != j ==> r.1.layers[m] == s.layers[m])
      && r.1.layers[j] == s.layers[j].(tree := t')
      && Arity(t') == Arity(t)
      && (Find(t, collName).None? ==> t' == t)
      && (Find(t, collName).Some? ==> var x := Find(t, collName).value;
            Replaced(Infos(t), Infos(t'), collName, Infos(x), MapInfos(Infos(x), SetExclude(!makeVisible))))
  {
    match LayerIndex(s.layers, layerName)
    case None => (Raised, s)
    case Some(j) =>
      var vl := s.layers[j];
      ExcludeFirstSpec(vl.tree, collName, Always(!makeVisible));
      var t := ExcludeFirst(vl.tree, collName, Always(!makeVisible)).0;
      (Finished, s.(layers := s.layers[j := vl.(tree := t)]))
  }

  /** Only the first node of the collection and the nodes below it change,
      and all of them get the requested state. */
  lemma ToggleCollectionFirstOnly(s: Scene, layerName: string, collName: string, makeVisible: bool, k: nat)
    requires LayerIndex(s.layers, layerName).Some?
    requires var t := s.layers[LayerIndex(s.layers, layerName).value].tree;
      k < |Infos(t)| && Infos(t)[k].name == collName && forall i :: 0 <= i < k ==> Infos(t)[i].name != collName
    ensures var j := LayerIndex(s.layers, layerName).value;
      var t := s.layers[j].tree;
      Find(t, collName).Some? && var m := |Infos(Find(t, collName).value)|;
      var before, after := Infos(t), Infos(ToggleCollection(s, layerName, collName, makeVisible).1.layers[j].tree);
      k + m <= |before| && after == before[..k] + MapInfos(before[k..k + m], SetExclude(!makeVisible)) + before[k + m..]
  {
    var j := LayerIndex(s.layers, layerName).value;
    var t := s.layers[j].tree;
    ExcludeFirstAt(t, collName, Always(!makeVisible), k);
    assert ToggleCollection(s, layerName, collName, makeVisible).1.layers[j].tree == ExcludeFirst(t, collName, Always(!makeVisible)).0;
    assert Always(!makeVisible)(Infos(t)[k].exclude) == !makeVisible;
  }

  /** The first node carrying a name is the root of the subtree the search
      returns. */
  lemma FirstSubtreeAt(t: LC, name: string, k: nat)
    requires k < |Infos(t)| && Infos(t)[k].name == name
    ensures Find(t, name).Some?
    ensures var x := Find(t, name).value; Infos(x) != [] && Infos(x)[0].name == name
  {
    FindAgreesWithHasName(t, name);
    FindNamed(t, name);
    assert Infos(Find(t, name).value)[0] == Label(Find(t, name).value);
  }

  /** The setter's write at the first match, by position: the labels
      before the first node of the name and after its subtree are kept,
      and the subtree's labels all take the written value. */
  lemma ExcludeFirstAt(t: LC, name: string, v: bool -> bool, k: nat)
    requires k < |Infos(t)| && Infos(t)[k].name == name && forall i :: 0 <= i < k ==> Infos(t)[i].name != name
    ensures Find(t, name).Some?
    ensures var m, before := |Infos(Find(t, name).value)|, Infos(t);
      k + m <= |before|
      && Infos(ExcludeFirst(t, name, v).0) == before[..k] + MapInfos(before[k..k + m], SetExclude(v(before[k].exclude))) + before[k + m..]
  {
    FirstSubtreeAt(t, name, k);
    var x := Find(t, name).value;
    ExcludeFirstSpec(t, name, v);
    ReplacedMapAt(Infos(t), Infos(ExcludeFirst(t, name, v).0), name, Infos(x), v(x.exclude), k);
    assert Infos(x)[0] == Label(x);
  }

  /** A setter write found at the first label of its name, by position. */
  lemma ReplacedMapAt(before: seq<Info>, after: seq<Info>, name: string, was: seq<Info>, b: bool, k: nat)
    requires Replaced(before, after, name, was, MapInfos(was, SetExclude(b)))
    requires was != [] && was[0].name == name
    requires k < |before| && before[k].name == name && forall i :: 0 <= i < k ==> before[i].name != name
    ensures k + |was| <= |before| && before[k] == was[0]
    ensures after == before[..k] + MapInfos(before[k..k + |was|], SetExclude(b)) + before[k + |was|..]
  {
    ReplacedAt(before, after, name, was, MapInfos(was, SetExclude(b)), k);
    assert before[k] == before[k..k + |was|][0];
  }

  function FlipHoldout(): Info -> Info { (i: Info) => i.(holdout := !i.holdout) }
  function FlipIndirect(): Info -> Info { (i: Info) => i.(indirect := !i.indirect) }

  /** The flags the operator's `flag` property names. */
  datatype LcFlag = Exclude | HideSelect | HideRender | Holdout | IndirectOnly

  function FlagName(f: LcFlag): string {
    match f
    case Exclude => "exclude"
    case HideSelect => "hide_select"
    case HideRender => "hide_render"
    case Holdout => "holdout"
    case IndirectOnly => "indirect_only"
  }

  /** Reads the operator's `flag` string: the flag of that name, and
      `None` for any other string. */
  function ParseFlag(name: string): (r: Option<LcFlag>)
    ensures r.Some? ==> FlagName(r.value) == name
    ensures forall f :: FlagName(f) == name ==> r == Some(f)
  {
    if name == "exclude" then Some(Exclude)
    else if name == "hide_select" then Some(HideSelect)
    else if name == "hide_render" then Some(HideRender)
    else if name == "holdout" then Some(Holdout)
    else if name == "indirect_only" then Some(IndirectOnly)
    else None
  }

  /** The per-layer flags other than `exclude` live on the tree node alone;
      `exclude` goes through the recursive setter, and the other two flags
      live on the collection shared by every layer. */
  function FlagRule(flag: LcFlag): Option<Info -> Info> {
    match flag
    case Holdout => Some(FlipHoldout())
    case IndirectOnly => Some(FlipIndirect())
    case _ => None
  }

  /** The flags that live on the layer's tree node. */
  predicate OnNode(flag: LcFlag) {
    flag == Exclude || FlagRule(flag).Some?
  }

  /** Negates `hide_select` or `hide_render` on the named collection; any
      other flag or a missing collection changes nothing. */
  function FlipCollectionFlag(colls: map<string, Coll>, name: string, flag: LcFlag): (r: map<string, Coll>)
    ensures r.Keys == colls.Keys
    ensures forall n :: n in colls && n != name ==> r[n] == colls[n]
    ensures name in colls && flag == HideSelect ==>
      r[name].hideSelect == !colls[name].hideSelect && r[name] == colls[name].(hideSelect := r[name].hideSelect)
    ensures name in colls && flag == HideRender ==>
      r[name].hideRender == !colls[name].hideRender && r[name] == colls[name].(hideRender := r[name].hideRender)
    ensures flag != HideSelect && flag != HideRender ==> r == colls
  {
    if name !in colls then colls
    else if flag == HideSelect then colls[name := colls[name].(hideSelect := !colls[name].hideSelect)]
    else if flag == HideRender then colls[name := colls[name].(hideRender := !colls[name].hideRender)]
    else colls
  }

  /** The scene with the tree of layer `j` replaced. */
  function WithTree(s: Scene, j: nat, t: LC): (r: Scene)
    requires j < |s.layers|
    ensures |r.layers| == |s.layers| && r == s.(layers := r.layers)
    ensures forall m :: 0 <= m < |s.layers| && m != j ==> r.layers[m] == s.layers[m]
    ensures r.layers[j] == s.layers[j].(tree := t)
  {
    s.(layers := s.layers[j := s.layers[j].(tree := t)])
  }

  /** Negates a flag that lives on the tree node, at the first pre-order
      node of the name. `exclude` goes through the setter, so that node's
      whole subtree takes the negation of the node's own flag; `holdout`
      and `indirect_only` change on the node alone. Without such a node
      nothing changes. */
  function ToggleNode(t: LC, name: string, flag: LcFlag): (r: LC)
    requires OnNode(flag)
    ensures Arity(r) == Arity(t)
    ensures Find(t, name).None? ==> r == t
    ensures flag == Exclude && Find(t, name).Some? ==> var x := Find(t, name).value;
      Replaced(Infos(t), Infos(r), name, Infos(x), MapInfos(Infos(x), SetExclude(!x.exclude)))
    ensures FlagRule(flag).Some? ==> Infos(r) == UpdateFirstInfo(Infos(t), name, FlagRule(flag).value)
  {
    if flag == Exclude then
      ExcludeFirstSpec(t, name, Negate());
      ExcludeFirst(t, name, Negate()).0
    else
      FindAgreesWithHasName(t, name);
      UpdateFirstSpec(t, name, FlagRule(flag).value);
      UpdateFirst(t, name, FlagRule(flag).value).0
  }

  /** `toggle_lc_flag`: a missing layer or collection cancels; a flag
      living on the tree node is toggled there by `ToggleNode`; `hide_select`
      and `hide_render` are negated on the collection itself; an unknown
      flag changes nothing. `flag` is the operator's string as `ParseFlag`
      reads it. */
  function ToggleFlag(s: Scene, d: BlendData, layerName: string, collName: string, flag: Option<LcFlag>): (r: (Status, Scene, BlendData))
    ensures r.0 == Cancelled <==>
      LayerIndex(s.layers, layerName).None? || !HasName(Infos(s.layers[LayerIndex(s.layers, layerName).value].tree), collName)
    ensures r.0 != Cancelled ==> r.0 == Finished
    ensures r.0 == Cancelled || flag.None? ==> r.1 == s && r.2 == d
    ensures r.0 == Finished && flag.Some? && OnNode(flag.value) ==> var j := LayerIndex(s.layers, layerName).value;
      r.1 == WithTree(s, j, ToggleNode(s.layers[j].tree, collName, flag.value)) && r.2 == d
    ensures r.0 == Finished && flag.Some? && !OnNode(flag.value) ==>
      r.1 == s && r.2 == d.(collections := FlipCollectionFlag(d.collections, collName, flag.value))
  {
    match LayerIndex(s.layers, layerName)
    case None => (Cancelled, s, d)
    case Some(j) =>
      FindAgreesWithHasName(s.layers[j].tree, collName);
      if Find(s.layers[j].tree, collName).None? then (Cancelled, s, d)
      else
        match flag
        case None => (Finished, s, d)
        case Some(f) =>
          if OnNode(f) then (Finished, WithTree(s, j, ToggleNode(s.layers[j].tree, collName, f)), d)
          else (Finished, s, d.(collections := FlipCollectionFlag(d.collections, collName, f)))
  }

  /** What a toggle leaves alone: only the named layer's tree or the
      collections change, every layer keeps its name and every collection
      its key; a node flag changes nothing outside the named layer's tree
      and keeps its shape. */
  lemma ToggleFlagFrame(s: Scene, d: BlendData, layerName: string, collName: string, flag: Option<LcFlag>)
    ensures var r := ToggleFlag(s, d, layerName, collName, flag);
      && r.2 == d.(collections := r.2.collections) && r.2.collections.Keys == d.collections.Keys
      && |r.1.layers| == |s.layers| && r.1 == s.(layers := r.1.layers)
      && (forall m :: 0 <= m < |s.layers| ==> r.1.layers[m].name == s.layers[m].name)
    ensures var r := ToggleFlag(s, d, layerName, collName, flag);
      r.0 == Finished && flag.Some? && OnNode(flag.value) ==> var j := LayerIndex(s.layers, layerName).value;
      && r.2 == d
      && (forall m :: 0 <= m < |s.layers| && m != j ==> r.1.layers[m] == s.layers[m])
      && r.1.layers[j] == s.layers[j].(tree := r.1.layers[j].tree)
      && Arity(r.1.layers[j].tree) == Arity(s.layers[j].tree)
  {
  }

  /** What a toggle does to the named layer's tree: `exclude` rewrites the
      first subtree of the collection with the negation of its root's
      flag, the other node flags rewrite that root alone, and
      `hide_select` and `hide_render` flip the collection. */
  lemma ToggleFlagEffect(s: Scene, d: BlendData, layerName: string, collName: string, flag: Option<LcFlag>)
    ensures var r := ToggleFlag(s, d, layerName, collName, flag);
      r.0 == Finished && flag == Some(Exclude) ==> var j := LayerIndex(s.layers, layerName).value;
      var t, t' := s.layers[j].tree, r.1.layers[j].tree;
      Find(t, collName).Some? && var x := Find(t, collName).value;
      Replaced(Infos(t), Infos(t'), collName, Infos(x), MapInfos(Infos(x), SetExclude(!x.exclude)))
    ensures var r := ToggleFlag(s, d, layerName, collName, flag);
      r.0 == Finished && flag.Some? && FlagRule(flag.value).Some? ==> var j := LayerIndex(s.layers, layerName).value;
      Infos(r.1.layers[j].tree) == UpdateFirstInfo(Infos(s.layers[j].tree), collName, FlagRule(flag.value).value)
    ensures var r := ToggleFlag(s, d, layerName, collName, flag);
      r.0 == Finished && (flag == Some(HideSelect) || flag == Some(HideRender)) ==>
      r.1 == s && r.2.collections == FlipCollectionFlag(d.collections, collName, flag.value)
  {
    if LayerIndex(s.layers, layerName).Some? {
      FindAgreesWithHasName(s.layers[LayerIndex(s.layers, layerName).value].tree, collName);
    }
  }

  /** Toggling `holdout` negates it on the first node of the collection
      and leaves every other node and every other field as it was. */
  lemma ToggleHoldoutFirstOnly(s: Scene, d: BlendData, layerName: string, collName: string, k: nat)
    requires LayerIndex(s.layers, layerName).Some?
    requires var t := s.layers[LayerIndex(s.layers, layerName).value].tree;
      k < |Infos(t)| && Infos(t)[k].name == collName && forall i :: 0 <= i < k ==> Infos(t)[i].name != collName
    ensures var j := LayerIndex(s.layers, layerName).value;
      var r := ToggleFlag(s, d, layerName, collName, Some(Holdout));
      var before, after := Infos(s.layers[j].tree), Infos(r.1.layers[j].tree);
      r.0 == Finished && after == before[..k] + [before[k].(holdout := !before[k].holdout)] + before[k + 1..]
  {
    var j := LayerIndex(s.layers, layerName).value;
    var before := Infos(s.layers[j].tree);
    assert before[k].name == collName;
    UpdateFirstInfoAt(before, collName, FlipHoldout(), k);
  }

  /** Toggling `exclude` writes the negation of the node's flag on the
      first node of the collection and on every node below it. */
  lemma ToggleExcludeFirstOnly(s: Scene, d: BlendData, layerName: string, collName: string, k: nat)
    requires LayerIndex(s.layers, layerName).Some?
    requires var t := s.layers[LayerIndex(s.layers, layerName).value].tree;
      k < |Infos(t)| && Infos(t)[k].name == collName && forall i :: 0 <= i < k ==> Infos(t)[i].name != collName
    ensures var j := LayerIndex(s.layers, layerName).value;
      var t := s.layers[j].tree;
      Find(t, collName).Some? && var m := |Infos(Find(t, collName).value)|;
      var r := ToggleFlag(s, d, layerName, collName, Some(Exclude));
      var before, after := Infos(t), Infos(r.1.layers[j].tree);
      r.0 == Finished && k + m <= |before|
      && after == before[..k] + MapInfos(before[k..k + m], SetExclude(!before[k].exclude)) + before[k + m..]
  {
    var j := LayerIndex(s.layers, layerName).value;
    var t := s.layers[j].tree;
    ExcludeFirstAt(t, collName, Negate(), k);
    ToggleExcludeIs(s, d, layerName, collName);
    assert ToggleFlag(s, d, layerName, collName, Some(Exclude)).1.layers[j].tree == ExcludeFirst(t, collName, Negate()).0;
  }

  /** Toggling a node flag twice on a tree that has the node. */
  lemma TreeToggleTwice(t: LC, name: string, g: Info -> Info)
    requires forall i :: g(g(i)) == i && g(i).name == i.name
    requires HasName(Infos(t), name)
    ensures Find(UpdateFirst(t, name, g).0, name).Some?
    ensures UpdateFirst(UpdateFirst(t, name, g).0, name, g).0 == t
  {
    var t1 := UpdateFirst(t, name, g).0;
    UpdateFirstTwice(t, name, g);
    UpdateFirstSpec(t, name, g);
    UpdateFirstSpec(t1, name, g);
    FindAgreesWithHasName(t1, name);
  }

  lemma FlagRuleUndoesItself(flag: LcFlag)
    requires FlagRule(flag).Some?
    ensures var g := FlagRule(flag).value; forall i :: g(g(i)) == i && g(i).name == i.name
  {
  }

  /** In the named layer, the first subtree of the collection already
      carries one `exclude` value throughout (trivially so when there is
      no such layer or node). */
  predicate UniformAt(s: Scene, layerName: string, collName: string) {
    LayerIndex(s.layers, layerName).Some? ==>
      var t := s.layers[LayerIndex(s.layers, layerName).value].tree;
      Find(t, collName).Some? ==> UniformExclude(Find(t, collName).value)
  }

  /** Toggling the same flag twice restores the data, and the scene too
      except for `exclude`: that one comes back exactly when the nodes
      below the toggled one carried its value already, because the setter
      overwrote them. */
  lemma ToggleFlagTwice(s: Scene, d: BlendData, layerName: string, collName: string, flag: Option<LcFlag>)
    ensures var once := ToggleFlag(s, d, layerName, collName, flag);
            var twice := ToggleFlag(once.1, once.2, layerName, collName, flag);
            twice.2 == d && (flag != Some(Exclude) ==> twice.1 == s)
            && (flag == Some(Exclude) ==> (twice.1 == s <==> UniformAt(s, layerName, collName)))
  {
    var once := ToggleFlag(s, d, layerName, collName, flag);
    LayerIndexByNames(s.layers, once.1.layers, layerName);
    if once.0 == Finished {
      if flag == Some(Exclude) {
        ToggleExcludeTwice(s, d, layerName, collName);
      } else if flag.Some? && FlagRule(flag.value).Some? {
        ToggleNodeFlagTwice(s, d, layerName, collName, flag.value);
      } else if flag.Some? {
        ToggleCollFlagTwice(s, d, layerName, collName, flag.value);
      }
    } else if LayerIndex(s.layers, layerName).Some? {
      FindAgreesWithHasName(s.layers[LayerIndex(s.layers, layerName).value].tree, collName);
    }
  }

  /** `hide_select` and `hide_render` toggled twice restore the
      collections. */
  lemma ToggleCollFlagTwice(s: Scene, d: BlendData, layerName: string, collName: string, flag: LcFlag)
    requires !OnNode(flag) && ToggleFlag(s, d, layerName, collName, Some(flag)).0 == Finished
    ensures var once := ToggleFlag(s, d, layerName, collName, Some(flag));
            var twice := ToggleFlag(once.1, once.2, layerName, collName, Some(flag));
            twice.1 == s && twice.2 == d
  {
    var c1 := FlipCollectionFlag(d.collections, collName, flag);
    assert ToggleFlag(s, d, layerName, collName, Some(flag)) == (Finished, s, d.(collections := c1));
    assert FlipCollectionFlag(c1, collName, flag) == d.collections;
  }

  /** Writing a layer's tree twice keeps the second tree. */
  lemma WithTreeTwice(s: Scene, j: nat, a: LC, b: LC)
    requires j < |s.layers|
    ensures WithTree(WithTree(s, j, a), j, b) == WithTree(s, j, b)
  {
    assert WithTree(s, j, a).layers[j := s.layers[j].(tree := b)] == s.layers[j := s.layers[j].(tree := b)];
  }

  /** Writing a layer's tree keeps the scene exactly when the tree is the
      one it had. */
  lemma WithTreeSame(s: Scene, j: nat, t: LC)
    requires j < |s.layers|
    ensures WithTree(s, j, t) == s <==> t == s.layers[j].tree
  {
    if t == s.layers[j].tree {
      assert s.layers[j := s.layers[j].(tree := t)] == s.layers;
    }
  }

  /** Toggling a node flag twice on a tree that has the node: the second
      toggle finds it again; `holdout` and `indirect_only` come back, and
      `exclude` ends as the setter's write of the node's own flag. */
  lemma ToggleNodeTwice(t: LC, name: string, flag: LcFlag)
    requires OnNode(flag) && Find(t, name).Some?
    ensures Find(ToggleNode(t, name, flag), name).Some?
    ensures flag != Exclude ==> ToggleNode(ToggleNode(t, name, flag), name, flag) == t
    ensures flag == Exclude ==> ToggleNode(ToggleNode(t, name, flag), name, flag) == ExcludeFirst(t, name, Keep()).0
  {
    if flag == Exclude {
      TreeExcludeTwice(t, name);
    } else {
      FlagRuleUndoesItself(flag);
      FindAgreesWithHasName(t, name);
      TreeToggleTwice(t, name, FlagRule(flag).value);
    }
  }

  /** Two toggles of a node flag amount to writing the named layer's tree
      once, with the node toggled twice. */
  lemma ToggleTwiceAt(s: Scene, d: BlendData, layerName: string, collName: string, flag: LcFlag)
    requires OnNode(flag) && ToggleFlag(s, d, layerName, collName, Some(flag)).0 == Finished
    ensures var once := ToggleFlag(s, d, layerName, collName, Some(flag));
            var twice := ToggleFlag(once.1, once.2, layerName, collName, Some(flag));
            var j := LayerIndex(s.layers, layerName).value;
            var t := s.layers[j].tree;
            twice == (Finished, WithTree(s, j, ToggleNode(ToggleNode(t, collName, flag), collName, flag)), d)
  {
    var j := LayerIndex(s.layers, layerName).value;
    var t := s.layers[j].tree;
    FindAgreesWithHasName(t, collName);
    ToggleNodeTwice(t, collName, flag);
    var t1 := ToggleNode(t, collName, flag);
    var s1 := WithTree(s, j, t1);
    LayerIndexByNames(s.layers, s1.layers, layerName);
    FindAgreesWithHasName(t1, collName);
    WithTreeTwice(s, j, t1, ToggleNode(t1, collName, flag));
  }

  lemma ToggleNodeFlagTwice(s: Scene, d: BlendData, layerName: string, collName: string, flag: LcFlag)
    requires FlagRule(flag).Some? && ToggleFlag(s, d, layerName, collName, Some(flag)).0 == Finished
    ensures var once := ToggleFlag(s, d, layerName, collName, Some(flag));
            var twice := ToggleFlag(once.1, once.2, layerName, collName, Some(flag));
            twice.1 == s && twice.2 == d
  {
    var j := LayerIndex(s.layers, layerName).value;
    var t := s.layers[j].tree;
    ToggleTwiceAt(s, d, layerName, collName, flag);
    FindAgreesWithHasName(t, collName);
    ToggleNodeTwice(t, collName, flag);
    WithTreeSame(s, j, t);
  }

  /** When the layer and the collection exist, toggling `exclude` is the
      setter's write at the first match. */
  lemma ToggleExcludeIs(s: Scene, d: BlendData, layerName: string, collName: string)
    requires LayerIndex(s.layers, layerName).Some?
    requires Find(s.layers[LayerIndex(s.layers, layerName).value].tree, collName).Some?
    ensures var j := LayerIndex(s.layers, layerName).value;
      ToggleFlag(s, d, layerName, collName, Some(Exclude))
        == (Finished, WithTree(s, j, ExcludeFirst(s.layers[j].tree, collName, Negate()).0), d)
  {
    FindAgreesWithHasName(s.layers[LayerIndex(s.layers, layerName).value].tree, collName);
  }

  /** The second `exclude` toggle finds the node again and writes its
      original value over the whole subtree. */
  lemma ToggleExcludeTwice(s: Scene, d: BlendData, layerName: string, collName: string)
    requires ToggleFlag(s, d, layerName, collName, Some(Exclude)).0 == Finished
    ensures var once := ToggleFlag(s, d, layerName, collName, Some(Exclude));
            var twice := ToggleFlag(once.1, once.2, layerName, collName, Some(Exclude));
            var j := LayerIndex(s.layers, layerName).value;
            twice == (Finished, WithTree(s, j, ExcludeFirst(s.layers[j].tree, collName, Keep()).0), d)
            && (twice.1 == s <==> UniformAt(s, layerName, collName))
  {
    var j := LayerIndex(s.layers, layerName).value;
    var t := s.layers[j].tree;
    ToggleTwiceAt(s, d, layerName, collName, Exclude);
    FindAgreesWithHasName(t, collName);
    ToggleNodeTwice(t, collName, Exclude);
    ExcludeFirstKeepIff(t, collName);
    WithTreeSame(s, j, ExcludeFirst(t, collName, Keep()).0);
  }

  /** On a tree that has the node, the second negation finds it again and
      the two writes amount to writing the node's original value. */
  lemma TreeExcludeTwice(t: LC, name: string)
    requires Find(t, name).Some?
    ensures Find(ExcludeFirst(t, name, Negate()).0, name).Some?
    ensures ExcludeFirst(ExcludeFirst(t, name, Negate()).0, name, Negate()).0 == ExcludeFirst(t, name, Keep()).0
  {
    var t1 := ExcludeFirst(t, name, Negate()).0;
    ExcludeFirstSpec(t, name, Negate());
    ExcludeFirstTwice(t, name, Negate(), Negate(), Keep());
    ExcludeFirstSpec(t1, name, Negate());
  }

  /** Writing the matched node's own value leaves the tree as it is exactly
      when that node's subtree is uniform. */
  lemma ExcludeFirstKeepIff(t: LC, name: string)
    requires Find(t, name).Some?
    ensures ExcludeFirst(t, name, Keep()).0 == t <==> UniformExclude(Find(t, name).value)
  {
    var x := Find(t, name).value;
    if UniformExclude(x) {
      ExcludeFirstKeep(t, name, Keep());
    }
    ExcludeFirstSpec(t, name, Keep());
    if ExcludeFirst(t, name, Keep()).0 == t {
      var now := MapInfos(Infos(x), SetExclude(x.exclude));
      ReplacedSame(Infos(t), name, Infos(x), now);
      forall i | i in Infos(x) ensures i.exclude == x.exclude {
        var k :| 0 <= k < |Infos(x)| && Infos(x)[k] == i;
        assert now[k] == i.(exclude := x.exclude);
      }
    }
  }

  // ---------------------------------------------------------------------
  // Adding and removing layers

  /** The requested name, stripped, or `NewLayer` when that is empty. */
  function NewLayerName(requested: string): (r: string)
    ensures r != "" && Trimmed(r)
    ensures Strip(requested) != "" ==> r == Strip(requested)
  {
    if Strip(requested) == "" then "NewLayer" else Strip(requested)
  }

  /** Each top-level child is written `exclude = True` through the setter,
      so the root keeps its flags and every other node ends excluded. */
  function ExcludeTopLevel(t: LC): (r: LC)
    ensures Arity(r) == Arity(t) && |Infos(r)| == |Infos(t)|
    ensures Infos(r)[0] == Infos(t)[0]
    ensures forall i :: 0 < i < |Infos(t)| ==> Infos(r)[i] == Infos(t)[i].(exclude := true)
    ensures |r.children| == |t.children| && forall k :: 0 <= k < |t.children| ==> r.children[k] == ExcludeSubtree(t.children[k], true)
  {
    MapForestSpec(t.children, SetExclude(true));
    MapForestIsSetter(t.children, true);
    t.(children := MapForest(t.children, SetExclude(true)))
  }

  /** A forest rewritten by `SetExclude(x)` is each tree written through
      the setter. */
  lemma {:induction false} MapForestIsSetter(cs: seq<LC>, x: bool)
    ensures forall k :: 0 <= k < |cs| ==> MapForest(cs, SetExclude(x))[k] == ExcludeSubtree(cs[k], x)
    decreases cs
  {
    if cs != [] {
      MapForestIsSetter(cs[1..], x);
      var m := MapForest(cs, SetExclude(x));
      assert m[1..] == MapForest(cs[1..], SetExclude(x));
      forall k | 1 <= k < |cs| ensures m[k] == ExcludeSubtree(cs[k], x) {
        assert m[k] == m[1..][k - 1] && cs[k] == cs[1..][k - 1];
      }
    }
  }

  /** `add_empty_viewlayer`: a layer with an existing name cancels;
      otherwise a new layer is appended whose top-level collections are
      all excluded, and with them every collection below. `hostTree` is the tree the host gives a new layer. */
  function AddEmptyViewLayer(s: Scene, requested: string, hostTree: LC): (r: (Status, Scene))
    ensures r.0 == Cancelled <==> LayerIndex(s.layers, NewLayerName(requested)).Some?
    ensures r.0 == Cancelled ==> r.1 == s
    ensures r.0 != Cancelled ==>
      r.0 == Finished && |r.1.layers| == |s.layers| + 1 && r.1 == s.(layers := r.1.layers) && r.1.layers[..|s.layers|] == s.layers
    ensures r.0 != Cancelled ==> var n := r.1.layers[|s.layers|];
      n.name == NewLayerName(requested) && n.render == DefaultRender && n.renderThis && n.use
      && !n.contentSwitch && n.world.None? && n.tree == ExcludeTopLevel(hostTree)
    ensures r.0 != Cancelled ==> var n := r.1.layers[|s.layers|];
      Arity(n.tree) == Arity(hostTree) && Label(n.tree) == Label(hostTree)
      && forall i :: 0 < i < |Infos(n.tree)| ==> Infos(n.tree)[i].exclude
  {
    var name := NewLayerName(requested);
    if LayerIndex(s.layers, name).Some? then (Cancelled, s)
    else
      var vl := ViewLayer(name, DefaultRender, None, true, true, ExcludeTopLevel(hostTree), false, [], None);
      (Finished, s.(layers := s.layers + [vl]))
  }

  /** Once added, the layer is found under its name, and asking for the
      same name again cancels. */
  lemma AddThenAddAgain(s: Scene, requested: string, hostTree: LC)
    requires AddEmptyViewLayer(s, requested, hostTree).0 == Finished
    ensures var s1 := AddEmptyViewLayer(s, requested, hostTree).1;
            LayerIndex(s1.layers, NewLayerName(requested)) == Some(|s.layers|)
            && AddEmptyViewLayer(s1, requested, hostTree) == (Cancelled, s1)
  {
    var s1 := AddEmptyViewLayer(s, requested, hostTree).1;
    assert s1.layers[|s.layers|].name == NewLayerName(requested);
  }

  /** The name the host leaves on the sole layer of a new scene. */
  const DefaultLayerName: string := "View Layer"

  /** Drops every collection's override key for one layer. */
  function DropLayerKeys(colls: map<string, Coll>, layer: string): (r: map<string, Coll>)
    ensures r.Keys == colls.Keys
    ensures forall n :: n in colls ==> r[n] == colls[n].(props := colls[n].props - {Names.OverrideKey(layer, n)})
  {
    map n | n in colls :: colls[n].(props := colls[n].props - {Names.OverrideKey(layer, n)})
  }

  /** `remove_viewlayer`. The sole layer named `View Layer` and a missing
      name cancel; removing any other sole layer is refused by the host.
      Removing the top layer promotes the next one: its override keys are
      deleted everywhere, the meshes visible in it are restored, and when
      it is the active layer the selective override runs for it. A new top
      with an empty name (falsy in Python) leaves the data as it was.
      `active` is the active layer after removal and `visible` the
      visibility in the new top layer. */
  function RemoveViewLayer(s: Scene, d: BlendData, name: string, active: string, visible: set<string>): (r: (Status, Scene, BlendData))
    ensures r.0 == Cancelled <==>
      (name == DefaultLayerName && |s.layers| == 1 && s.layers[0].name == name) || LayerIndex(s.layers, name).None?
    ensures r.0 == Raised <==> r.0 != Cancelled && |s.layers| == 1
    ensures r.0 != Finished ==> r.1 == s && r.2 == d
    ensures r.0 == Finished ==> var j := LayerIndex(s.layers, name).value;
      r.1 == s.(layers := s.layers[..j] + s.layers[j + 1..])
    ensures r.0 == Finished && LayerIndex(s.layers, name) != Some(0) ==> r.2 == d
    ensures r.0 == Finished && LayerIndex(s.layers, name) == Some(0) && s.layers[1].name == "" ==> r.2 == d
    ensures r.2.materials == d.materials
    ensures r.0 == Finished && LayerIndex(s.layers, name) == Some(0) && s.layers[1].name != "" ==>
      r.2.collections == DropLayerKeys(d.collections, s.layers[1].name) && |r.2.objects| == |d.objects|
    ensures r.0 == Finished && LayerIndex(s.layers, name) == Some(0) && s.layers[1].name != "" ==>
      forall i :: 0 <= i < |d.objects| ==>
        var back := Materials.RestoreIfVisible(d.objects[i], visible, d.materials);
        r.2.objects[i] == if active == s.layers[1].name then Materials.BackupOne(back) else back
  {
    if name == DefaultLayerName && |s.layers| == 1 && s.layers[0].name == name then (Cancelled, s, d)
    else
      match LayerIndex(s.layers, name)
      case None => (Cancelled, s, d)
      case Some(j) =>
        if |s.layers| == 1 then (Raised, s, d)
        else
          var s1 := s.(layers := s.layers[..j] + s.layers[j + 1..]);
          if j == 0 && s.layers[1].name != "" then
            var top := s.layers[1];
            var colls := DropLayerKeys(d.collections, top.name);
            var objs := Materials.RestoreViewLayer(d.objects, visible, d.materials);
            var objs' := if active == top.name
              then Materials.ApplySelective(objs, colls, d.materials, top.name, top.name, top.tree, visible)
              else objs;
            assert forall i :: 0 <= i < |d.objects| && active == top.name ==>
              objs'[i] == Materials.BackupOne(objs[i]) by {
              forall i | 0 <= i < |d.objects| && active == top.name
                ensures objs'[i] == Materials.BackupOne(objs[i])
              {
                Materials.RestoreBackupRestore(d.objects[i], visible, d.materials);
              }
            }
            (Finished, s1, d.(collections := colls, objects := objs'))
          else (Finished, s1, d)
  }

  /** After the top layer is removed, the new top layer has no override
      key left on any collection, and it is the former second layer. */
  lemma RemoveTopClearsNewTopKeys(s: Scene, d: BlendData, active: string, visible: set<string>)
    requires |s.layers| >= 2 && s.layers[1].name != ""
    ensures var (st, s1, d1) := RemoveViewLayer(s, d, s.layers[0].name, active, visible);
      st == Finished && s1.layers[0] == s.layers[1]
      && forall n :: n in d1.collections ==> Names.OverrideKey(s1.layers[0].name, n) !in d1.collections[n].props
  {
  }

  // ---------------------------------------------------------------------
  // Switching the active layer

  /** The object side of switching layers: the optional forced backup of
      the current look, then the destination's material overrides and its
      lights. Only slots, backups and light visibility change. */
  function ActivateObjects(objs: seq<Obj>, backupFirst: bool, colls: map<string, Coll>, mats: set<string>,
                           vl: ViewLayer, topName: string, visible: set<string>, inLayer: set<string>): (r: seq<Obj>)
    ensures |r| == |objs| && Materials.BackedUp(r)
    ensures forall i :: 0 <= i < |objs| ==> r[i].name == objs[i].name && r[i].kind == objs[i].kind
    ensures backupFirst ==> forall i :: 0 <= i < |objs| && objs[i].kind == Mesh ==> r[i].backup == objs[i].slots
    ensures !backupFirst ==> forall i :: 0 <= i < |objs| && objs[i].backup != [] ==> r[i].backup == objs[i].backup
    ensures forall i :: 0 <= i < |objs| && objs[i].kind == Mesh ==>
      var pre := if backupFirst then objs[i].(backup := objs[i].slots, legacy := Some("")) else objs[i];
      r[i] == Materials.SelectiveObj(pre, colls, mats, vl.name, topName, vl.tree, visible)
    ensures forall i :: 0 <= i < |objs| && objs[i].kind != Mesh ==>
      r[i] == Lights.ApplyOne(objs[i], inLayer, Lights.StoredState(vl.lightState))
  {
    var b := if backupFirst then Materials.BackupCurrent(objs) else objs;
    var sel := Materials.ApplySelective(b, colls, mats, vl.name, topName, vl.tree, visible);
    var lit := Lights.ApplyLightsForViewLayer(vl, sel, inLayer);
    assert forall i :: 0 <= i < |lit| ==> Materials.BackedUpObj(lit[i]) by {
      forall i | 0 <= i < |lit| ensures Materials.BackedUpObj(lit[i]) {
        assert Materials.BackedUpObj(sel[i]);
      }
    }
    lit
  }

  /** Applying the render override keeps every layer's name and tree. */
  lemma RenderOverrideKeepsLayers(s: Scene, j: nat)
    requires j < |s.layers|
    ensures var r := RenderOverride.ApplyRenderOverride(s, j);
      |r.layers| == |s.layers| &&
      forall m :: 0 <= m < |s.layers| ==> r.layers[m].name == s.layers[m].name && r.layers[m].tree == s.layers[m].tree
                                          && r.layers[m].lightState == s.layers[m].lightState
  {
  }

  /** The scene side of switching to layer `j`: its content switch, then
      its render settings. Names are kept and only layer `j`'s tree moves. */
  method ActivateLayer(s: Scene, j: nat) returns (r: Scene)
    requires j < |s.layers|
    ensures |r.layers| == |s.layers|
    ensures forall m :: 0 <= m < |s.layers| ==> r.layers[m].name == s.layers[m].name
    ensures forall m :: 0 <= m < |s.layers| && m != j ==> r.layers[m].tree == s.layers[m].tree
    ensures r.layers[j].tree == if s.layers[j].contentSwitch then ContentWalk(s.layers[j].tree, CurrentOn(s.layers[j].tree))
                                else s.layers[j].tree
    ensures forall m :: 0 <= m < |s.layers| ==> r.layers[m].lightState == s.layers[m].lightState
  {
    var applied, vl := ApplyContentOverrides(s.layers[j]);
    var layers := s.layers[j := vl];
    RenderOverrideKeepsLayers(s.(layers := layers), j);
    r := RenderOverride.ApplyRenderOverride(s.(layers := layers), j);
  }

  /** `VLM_OT_set_active_viewlayer`: switching from the top layer `cur ==
      0` to another one first saves the current look as the material
      backup; the destination then gets its content switch, its material
      overrides, its lights and its render settings. `visible` and
      `inLayer` are the host's visibility and object set for the
      destination after the content switch. An unknown name raises. */
  method SetActiveViewLayer(s: Scene, d: BlendData, cur: nat, name: string, visible: set<string>, inLayer: set<string>)
    returns (st: Status, s': Scene, d': BlendData)
    requires cur < |s.layers|
    ensures st == Raised <==> LayerIndex(s.layers, name).None?
    ensures st == Raised ==> s' == s && d' == d
    ensures st != Raised ==> st == Finished && |s'.layers| == |s.layers|
    ensures st != Raised ==> d'.collections == d.collections && d'.materials == d.materials
    ensures st != Raised ==> |d'.objects| == |d.objects| && Materials.BackedUp(d'.objects)
    ensures st != Raised ==> forall m :: 0 <= m < |s.layers| ==> s'.layers[m].name == s.layers[m].name
    ensures st != Raised ==> var j := LayerIndex(s.layers, name).value;
      && (forall m :: 0 <= m < |s.layers| && m != j ==> s'.layers[m].tree == s.layers[m].tree)
      && s'.layers[j].tree == (if s.layers[j].contentSwitch then ContentWalk(s.layers[j].tree, CurrentOn(s.layers[j].tree))
                               else s.layers[j].tree)
    ensures st != Raised && cur == 0 && LayerIndex(s.layers, name) != Some(0) ==>
      forall i :: 0 <= i < |d.objects| && d.objects[i].kind == Mesh ==> d'.objects[i].backup == d.objects[i].slots
    ensures st != Raised && (cur != 0 || LayerIndex(s.layers, name) == Some(0)) ==>
      forall i :: 0 <= i < |d.objects| && d.objects[i].backup != [] ==> d'.objects[i].backup == d.objects[i].backup
    ensures st != Raised ==> var j := LayerIndex(s.layers, name).value;
      forall i :: 0 <= i < |d.objects| && d.objects[i].kind == Mesh ==>
        var pre := if cur == 0 && j != 0 then d.objects[i].(backup := d.objects[i].slots, legacy := Some("")) else d.objects[i];
        d'.objects[i] == Materials.SelectiveObj(pre, d.collections, d.materials, name, s.layers[0].name, s'.layers[j].tree, visible)
    ensures st != Raised ==> var j := LayerIndex(s.layers, name).value;
      forall i :: 0 <= i < |d.objects| && d.objects[i].kind != Mesh ==>
        d'.objects[i] == Lights.ApplyOne(d.objects[i], inLayer, Lights.StoredState(s.layers[j].lightState))
    ensures st != Raised && LayerIndex(s.layers, name) == Some(0) ==>
      forall i :: 0 <= i < |d.objects| && d.objects[i].kind == Mesh ==>
        d'.objects[i].slots == if d.objects[i].name in visible && d.objects[i].backup != []
                               then Materials.RestoreSlots(d.objects[i].slots, d.objects[i].backup)
                               else d.objects[i].slots
  {
    var found := LayerIndex(s.layers, name);
    if found.None? {
      return Raised, s, d;
    }
    var j := found.value;
    s' := ActivateLayer(s, j);
    var vl := s'.layers[j];
    var lit := ActivateObjects(d.objects, cur == 0 && j != 0, d.collections, d.materials, vl, s'.layers[0].name, visible, inLayer);
    if j == 0 {
      Materials.SelectiveOnTopShowsBackup(d.objects, d.collections, d.materials, s.layers[0].name, vl.tree, visible);
    }
    st, d' := Finished, d.(objects := lit);
  }
}
